=== FILE: README.md ===
# UI-TARS agent core in Dafny

This project models the decision logic of the UI-TARS desktop agents as pure Dafny functions over immutable data, and proves what that logic promises. The I/O around the logic becomes parameters: screenshots, model replies, tool executions and the abort signal. Six parts are modelled:

- **The SDK agent** (`GUIAgent`, `Session`). This is the `run` loop of `GUIAgent.ts`: the loop and screenshot-failure caps, screenshot validation, the human and gpt turns, the status each action implies, the `execute` guard, and the `catch`/`finally` handling. It also covers the change-notification rule of the observed session object. The operator, the model, the abort signal and the callbacks are a scripted environment: the k-th screenshot, reply or execution is looked up by its index. Every interaction is recorded in order.
- **Action dispatchers** (`BrowserOperator`, `NutJSOperator`, `Keystrokes`). These map one parsed action to the list of primitive input events it produces (key down/up, typed text, wheel, mouse move/click/drag, clipboard) or to an error. They cover:
  - the hotkey tokenisation and key tables;
  - the trailing-newline rule of `type`;
  - scroll directions;
  - scale-factor handling.
- **The experimental tool-calling agent** (`ToolAgent`), with its two providers (`InstructionProvider`, `OpenAIProvider`) and the tag scanner they rely on (`TagBlocks`). The loop is bounded by `maxIterations`. It answers every tool call in order and falls back to a fixed apology.
- **The experimental browser GUI agent** (`ExperimentalBrowserAgent`): the RUNNING → END / MAX_LOOP / ERROR status machine with its `finished` exit.
- **The plugin registry** (`PluginManager`, on top of `OrderedMap`, a model of a JavaScript `Map` with its insertion order).
- **The non-experimental browser GUI agent** (`BrowserGUIAgent`): configuration checks, coordinate factors and model choice, step bookkeeping, the `run`/`abort` guards and the summary request.

Shared pieces:
- `Wrappers`: `Option` and `Result`.
- `AgentTypes`: the status enum and the parsed action.
- `Text`: JavaScript string functions.
- `Json`: an uninterpreted JSON codec.
- `Seqs`: sequence helpers.
- `ToolCalling`: the tool and message records.

Every `.dfy` file is verified together; no file depends on anything outside the project.

## Model

| member | source | states |
|---|---|---|
| Session.Initial | packages/sdk/src/GUIAgent.ts:47-66 | The session object starts in status INIT, with no error message, and holds exactly one turn: the instruction, said by the human. |
| Session.WriteStatus | packages/sdk/src/GUIAgent.ts:67-75 | Assigning `status` stores the new value. It sends one `onData` whose conversation list is empty when the value changes, and nothing when it does not. |
| Session.WriteErrMsg | packages/sdk/src/GUIAgent.ts:67-75 | Assigning `errMsg` stores the message. It sends one `onData` with an empty conversation list unless the same message was already there. |
| Session.DeltasRebuildLog | packages/sdk/src/GUIAgent.ts:77-88 | For any sequence of writes that never edits or pops an entry, the log after the writes is the log before plus the entries carried by all notifications, concatenated in order. Each appended entry is announced exactly once. |
| Session.ApplyAnnouncesGrowth | packages/sdk/src/GUIAgent.ts:67-88 | A single status, error or push write grows the log by exactly the entries its notifications carry. |
| Session.DeltasOfEmpty | packages/sdk/src/GUIAgent.ts:67-75 | Notifications caused by `status`/`errMsg` writes carry no entries. |
| Session.NotificationsOnlyGrow | packages/sdk/src/GUIAgent.ts:67-88 | The notifications of the first k writes are a prefix of the notifications of all writes. Later pops and edits retract nothing already announced. |
| GUIAgent.Notices | packages/sdk/src/GUIAgent.ts:67-88 | With an `onData` callback configured, one recorded call per notification, in order, carrying that notification's data. Without one, no call. |
| GUIAgent.Announce | packages/sdk/src/GUIAgent.ts:67-88 | Setting the status records one `onData` call with empty conversations when it changes the value and a callback is configured, and none otherwise. Counters and scripts are untouched. |
| GUIAgent.Record | packages/sdk/src/GUIAgent.ts:152-167 | A push appends exactly one turn and, when `onData` is configured, records one `onData` carrying just that turn. |
| GUIAgent.RecordCap | packages/sdk/src/GUIAgent.ts:125-131 | `Object.assign` sets status MAX_LOOP and the message. At most two `onData` calls follow, each with an empty conversation list. |
| GUIAgent.StatusAfter | packages/sdk/src/GUIAgent.ts:216-227 | `error_env`, `call_user` and `finished` give END; `max_loop` gives MAX_LOOP; every other action type gives RUNNING. Each direction is proved separately. |
| GUIAgent.CapMessage | packages/sdk/src/GUIAgent.ts:121-133 | The loop stops exactly when one cap is reached. The loop-count message wins when both caps hold; the screenshot message is given only when the loop cap is not reached. |
| GUIAgent.ExecutesAppend | packages/sdk/src/GUIAgent.ts:229-239 | The `execute` calls of two stretches of interactions are those of the first followed by those of the second. |
| GUIAgent.RunActions | packages/sdk/src/GUIAgent.ts:211-240 | The action loop changes neither the log, the error message nor the counters. It never calls the model or `onError`, and it only extends the interaction record. |
| GUIAgent.DispatchedStep | packages/sdk/src/GUIAgent.ts:211-240 | With no abort and no failing execution, the loop over the actions is the first action dispatched, followed by the loop over the rest. |
| GUIAgent.DispatchedExecutes | packages/sdk/src/GUIAgent.ts:216-239 | One dispatched action adds exactly its expected `execute` call (none for `wait`), with the screenshot's width and height, and sets the status it implies. |
| GUIAgent.ExpectedExecutesCons | packages/sdk/src/GUIAgent.ts:211-240 | The expected calls of a list are those of its first action followed by those of the rest. |
| GUIAgent.RunActionsDispatchesAll | packages/sdk/src/GUIAgent.ts:211-240 | With no abort and no failing execution, the action loop dispatches every action in order and does not throw. |
| GUIAgent.DispatchedAllExecutes | packages/sdk/src/GUIAgent.ts:211-240 | Dispatching all actions executes every action but `wait`, in list order. The last action sets the status. |
| GUIAgent.ActionsExecutedInOrder | packages/sdk/src/GUIAgent.ts:211-240 | For any environment with no abort and no failing execution, the actions of a reply are executed exactly: every action but `wait`, in order, with the screenshot's size. The last action decides the status, and terminal actions are executed too. |
| GUIAgent.ActionsExecutedUntilAbort | packages/sdk/src/GUIAgent.ts:211-240 | For a signal that reads aborted from some check on, and no failing execution, the executed actions are the first non-`wait` actions, in list order, one per check read before the signal turned; none is executed after it. The last action still sets the status. |
| GUIAgent.AbortedActionsNotExecuted | packages/sdk/src/GUIAgent.ts:211-240 | When the signal is aborted, no action reaches the operator: the action loop adds only `onData` calls, does not throw, and the last action still sets the status. |
| GUIAgent.Reply | packages/sdk/src/GUIAgent.ts:188-240 | An empty prediction changes nothing further. A non-empty one appends exactly one gpt turn holding the summary, the screenshot size and the parsed actions. It never calls the model or `onError`. |
| GUIAgent.Observe | packages/sdk/src/GUIAgent.ts:152-240 | A valid screenshot appends one human turn holding it, then at most one gpt turn. The model is called with the log including the new turn and the system prompt. An empty prediction executes nothing. |
| GUIAgent.Iterate | packages/sdk/src/GUIAgent.ts:135-240 | Each pass starts with one screenshot and, when it completes, spends exactly one unit of one budget: an invalid image gives the loop count back and costs one screenshot failure. The error message is untouched. |
| GUIAgent.PassWithoutImage | packages/sdk/src/GUIAgent.ts:138-150 | A pass without a valid image logs nothing and calls neither the model nor the operator. An invalid image leaves the loop count unchanged, adds one screenshot failure and pauses for one second. |
| GUIAgent.PassWithImage | packages/sdk/src/GUIAgent.ts:152-209 | A pass with a valid image logs one human turn, then at most one gpt turn. The model sees the log including the new turn. An empty prediction logs no gpt turn and executes nothing. |
| GUIAgent.IterateObserves | packages/sdk/src/GUIAgent.ts:135-152 | A pass with a valid image is the loop count going up, one screenshot taken, and the observation step. |
| GUIAgent.LoopFrom | packages/sdk/src/GUIAgent.ts:115-241 | The loop only extends the record and never calls `onError`. When it changes the error message, it stopped on a cap with status MAX_LOOP and the message of that cap. |
| GUIAgent.Finally | packages/sdk/src/GUIAgent.ts:262-265 | The `finally` block forces status END and leaves the log and the error message as they were. |
| GUIAgent.Started | packages/sdk/src/GUIAgent.ts:105-111 | The loop starts with status RUNNING, the instruction as the only turn, no error message, nothing consumed and no `onError` call. |
| GUIAgent.Conclude | packages/sdk/src/GUIAgent.ts:242-265 | Leaving the loop always ends at END with the log and the error message unchanged. An error is rethrown exactly when it is not abort-like, and a run that returns adds only `onData` calls. |
| GUIAgent.Run | packages/sdk/src/GUIAgent.ts:93-268 | However the loop is left, the final status is END. The instruction stays the first turn, and an abort-type error is never rethrown. |
| GUIAgent.RunReportsErrorsOnce | packages/sdk/src/GUIAgent.ts:242-261 | A run that returns never calls `onError`. A run that throws calls it exactly once when it is configured, with code -1, the fixed service-error text and the rendered error as its stack, and never when it is not. |
| GUIAgent.BlankScreenLoop | packages/sdk/src/GUIAgent.ts:121-150 | When every screenshot resolves without image data, the loop stops with MAX_LOOP and the screenshot-failure message after exactly the remaining number of failures. It logs nothing and never calls the model or the operator. |
| GUIAgent.ScreenshotCapReached | packages/sdk/src/GUIAgent.ts:121-150 | With blank screenshots, a run takes exactly the allowed number of screenshots, records "Too many screenshot failures", logs only the instruction and never calls the model or the operator. |
| GUIAgent.EndlessPass | packages/sdk/src/GUIAgent.ts:135-240 | A pass that goes through raises the loop count by one, calls the model once, logs a human and a gpt turn, and stays RUNNING. |
| GUIAgent.LoopFromStep | packages/sdk/src/GUIAgent.ts:115-241 | After the abort and cap tests pass, a completed pass hands the loop on to the next test. |
| GUIAgent.EndlessLoop | packages/sdk/src/GUIAgent.ts:121-133 | When every pass goes through and no action ends the run, the loop calls the model once per remaining loop unit, logs two turns per pass and stops with "Exceeds the maximum number of loops". |
| GUIAgent.LoopCapReached | packages/sdk/src/GUIAgent.ts:121-133 | In that environment, a whole run calls the model exactly `MAX_LOOP_COUNT` times and ends with 1 + 2·`MAX_LOOP_COUNT` turns and the loop-cap message. |
| GUIAgent.AbortedBeforeFirstPass | packages/sdk/src/GUIAgent.ts:116-119 | A signal already aborted ends the run with status END, without a screenshot, an error message or an `onError` call; only `onData` calls are made. |
| GUIAgent.AbortObservedEndsLoop | packages/sdk/src/GUIAgent.ts:116-119 | Whenever the loop test reads the signal as aborted, the loop stops at once with status END. The log and the error message are unchanged, and no screenshot, model call or execution follows: only `onData` calls. |
| GUIAgent.AbortObservedEndsRun | packages/sdk/src/GUIAgent.ts:116-119 | From any loop test that reads the signal as aborted, the rest of the run returns without throwing and ends at END. It takes no screenshot, makes no model call or execution and makes no `onError` call. |
| GUIAgent.ActionsWithinChecks | packages/sdk/src/GUIAgent.ts:229-239 | Each execution in the action loop uses up a check of the signal that read not aborted. |
| GUIAgent.PassWithinChecks | packages/sdk/src/GUIAgent.ts:135-240 | A pass takes one screenshot, calls the model at most once, and otherwise spends only checks used by its executions. |
| GUIAgent.LoopWithinChecks | packages/sdk/src/GUIAgent.ts:115-241 | Across the loop, every screenshot and every execution uses up its own check that read not aborted, and the model is called at most once per screenshot. |
| GUIAgent.RunAbortedFromCheck | packages/sdk/src/GUIAgent.ts:116-119 | If the signal reads aborted from its k-th check on, a whole run takes at most k screenshots and executions together, and calls the model no more often than it takes screenshots. |
| Keystrokes.Tokens | packages/agent-infra/experimental/browser-gui-agent/src/browser-operator.ts:266 | Splitting at `/[\s+]/` gives one more token than there are separator characters, and no token holds white space or `+`. |
| Keystrokes.DropSuffix | packages/agent-infra/experimental/browser-gui-agent/src/browser-operator.ts:238 | Removing an end-anchored pattern drops the suffix exactly when the text ends with it: the result plus the suffix is the text. Otherwise the text is unchanged. |
| Keystrokes.TypeEnterRule | packages/agent-infra/experimental/browser-gui-agent/src/browser-operator.ts:231-248 | For trimmed non-empty content, Enter follows exactly when it ends with a literal backslash-n, because trimmed text never ends with a newline. The typed text then lacks that suffix (and a newline just before it); otherwise it is the whole content. |
| Keystrokes.TypingOf | packages/operators/nut-js/src/index.ts:208-231 | Nothing to type exactly when the content is missing or trims to the empty text. Otherwise Enter is wanted exactly when the trimmed content ends with a literal backslash-n. The text to type is then the trimmed content minus that suffix, or minus a newline and that suffix; without Enter it is the whole trimmed content. |
| BrowserOperator.EveryKeyMappingReachable | packages/agent-infra/experimental/browser-gui-agent/src/browser-operator.ts:11-21 | Every name in `KEY_MAPPINGS` is lower case, so the name itself typed as a token normalises to its entry. |
| BrowserOperator.NormalizeKey | packages/agent-infra/experimental/browser-gui-agent/src/browser-operator.ts:261-264 | A token whose ASCII-lower-cased form is a key of the table becomes the mapped key. Any other token is kept unchanged, case included. |
| BrowserOperator.HotkeyKeys | packages/agent-infra/experimental/browser-gui-agent/src/browser-operator.ts:266-267 | One normalised key per token of the split, in order. |
| BrowserOperator.Downs | packages/agent-infra/experimental/browser-gui-agent/src/browser-operator.ts:270-272 | One key-down per key, in order. |
| BrowserOperator.UpsReversed | packages/agent-infra/experimental/browser-gui-agent/src/browser-operator.ts:277-279 | One key-up per key, the last key first. |
| BrowserOperator.HandleHotkey | packages/agent-infra/experimental/browser-gui-agent/src/browser-operator.ts:251-282 | `key`, else `hotkey`, is used. When both are absent or empty, only a warning is given. Otherwise every key goes down in order, then up in reverse order. |
| BrowserOperator.HotkeyReleasesInReverse | packages/agent-infra/experimental/browser-gui-agent/src/browser-operator.ts:269-279 | The events split into a first half of key-downs and a second half that releases the same keys in exactly the reverse order. |
| BrowserOperator.PlusHotkeyRoundTrip | packages/agent-infra/experimental/browser-gui-agent/src/browser-operator.ts:261-267 | A hotkey written with `+` only, whose tokens are not in the table, is pressed as written: joining the pressed keys with `+` gives back the string. |
| BrowserOperator.HandleType | packages/agent-infra/experimental/browser-gui-agent/src/browser-operator.ts:227-249 | When the typing rule finds nothing to type, the only effect is the warning. Otherwise the page types the text the rule gives, and presses Enter after it exactly when the rule asks for Enter. |
| BrowserOperator.HandleScroll | packages/agent-infra/experimental/browser-gui-agent/src/browser-operator.ts:284-304 | Up, in any case, gives one wheel event of −500 and down gives +500. Any other or missing direction gives only a warning naming it. |
| BrowserOperator.Dispatch | packages/agent-infra/experimental/browser-gui-agent/src/browser-operator.ts:134-189 | A click-family action without two truthy coordinates fails with its own "Missing … coordinates" message. With them it moves to the point, then clicks with the button and count of its kind. Every other action type succeeds. |
| BrowserOperator.Execute | packages/agent-infra/experimental/browser-gui-agent/src/browser-operator.ts:119-196 | The `onOperatorAction` hook sees the action once, before anything else. A throwing hook stops everything, and a missing page fails with "No active page found". Otherwise the error is exactly the dispatch's. |
| BrowserOperator.NoHookEventsInDispatch | packages/agent-infra/experimental/browser-gui-agent/src/browser-operator.ts:139-189 | The dispatch itself never calls the hook. |
| BrowserOperator.ZeroCoordinateRejected | packages/agent-infra/experimental/browser-gui-agent/src/browser-operator.ts:135-169 | A coordinate of exactly 0 counts as missing: the click is rejected with the family's message and nothing reaches the page. |
| BrowserOperator.UnsupportedActionOnlyWarns | packages/agent-infra/experimental/browser-gui-agent/src/browser-operator.ts:187-189 | `right_single` and every unknown action type resolve with a single warning naming the type. |
| BrowserOperator.Screenshot | packages/agent-infra/experimental/browser-gui-agent/src/browser-operator.ts:62-113 | No page fails with "No active page found", and no viewport fails with "Missing viewport". Otherwise the result carries the buffer and the viewport's size. The scale factor is `deviceScaleFactor` when that is present and non-zero, else 1, and never 0. |
| NutJSOperator.EffectiveScale | packages/operators/nut-js/src/index.ts:111 | The scale factor is 1 when none is set, and otherwise the one set. |
| NutJSOperator.ScaledPoint | packages/operators/nut-js/src/index.ts:35-58 | An empty box string has no point. Otherwise each coordinate is present exactly when the parsed value is non-zero, and it is the parsed value times the scale factor. |
| NutJSOperator.ScaledPointNonZero | packages/operators/nut-js/src/index.ts:52-53 | With a non-zero factor, a present coordinate is non-zero, and dividing it by the factor gives back the parsed value. |
| NutJSOperator.MoveStraightTo | packages/operators/nut-js/src/index.ts:28-33 | One pointer move to (x, y) when both coordinates are set, and nothing when either is `null`. |
| NutJSOperator.StartBox | packages/operators/nut-js/src/index.ts:115 | `start_box` when it is a non-empty string, else the empty string. |
| NutJSOperator.HandleDrag | packages/operators/nut-js/src/index.ts:180-205 | A drag happens, at most once, exactly when `end_box` is set and all four scaled coordinates are truthy. The dragged region starts at the start point and spans the vector to the end point. |
| NutJSOperator.Enter | packages/operators/nut-js/src/index.ts:213-223 | On win32: read the clipboard, write the text, press Ctrl+V, pause, release, pause, and write the original content back. Elsewhere the text is typed. |
| NutJSOperator.Typed | packages/operators/nut-js/src/index.ts:210-231 | The text goes in first: pasted, with the clipboard text at position 1, on win32; typed as the first primitive elsewhere. Enter is pressed and released as the last two primitives exactly when it is wanted, and the length counts both parts. |
| NutJSOperator.HandleType | packages/operators/nut-js/src/index.ts:207-233 | No primitive at all exactly when the typing rule finds nothing to type; otherwise the primitives for the text and Enter that the rule gives. |
| NutJSOperator.ClipboardRestored | packages/operators/nut-js/src/index.ts:213-220 | On win32 the clipboard is written exactly twice: the text to type at position 1 and the original content at position 6. The paste keys are pressed once at 2 and released once at 4. |
| NutJSOperator.TypedOnWindowsAt | packages/operators/nut-js/src/index.ts:213-228 | Pointwise form of the above: an event at position i that writes the clipboard, or presses or releases the paste keys, sits at the fixed position. |
| NutJSOperator.TypesLikeBrowser | packages/operators/nut-js/src/index.ts:207-233 | Off Windows, the desktop and the browser operators type the same text for the same input, do nothing in the same cases, and press Enter in exactly the same cases. |
| NutJSOperator.NutKeyOf | packages/operators/nut-js/src/index.ts:238-253 | A token whose ASCII-lower-cased form is a key of `keyMap` gives that key. Any other token is looked up in `Key` exactly as written. |
| NutJSOperator.HotkeyKeys | packages/operators/nut-js/src/index.ts:251-253 | One key per token of `split(/[\s+]/)`, in order. |
| NutJSOperator.HandleHotkey | packages/operators/nut-js/src/index.ts:235-258 | `key`, else `hotkey`. Without either, nothing happens. Otherwise all keys are pressed together and then the same keys are released together. |
| NutJSOperator.PageKeysUnreachable | packages/operators/nut-js/src/index.ts:245-253 | No token can equal `page down` or `page up`, since tokens never hold white space. PageDown and PageUp come only from `pagedown` and `pageup`. |
| NutJSOperator.HandleScroll | packages/operators/nut-js/src/index.ts:261-281 | A move to the start point when it is set, then one scroll of 500 up or down, case-insensitive, or a warning naming the direction. |
| NutJSOperator.BranchOf | packages/operators/nut-js/src/index.ts:137-290 | Each group of `case` labels is recognised exactly by its branch, with the 100 ms settle for every click but `middle_click` and a double click for `left_double`/`double_click`. Unknown action types fall to the default. |
| NutJSOperator.PressAt | packages/operators/nut-js/src/index.ts:149-178 | A click-family action moves to the start point if set, settles if its branch does, and then clicks as its last primitive. |
| NutJSOperator.Execute | packages/operators/nut-js/src/index.ts:109-291 | An unknown action type only warns, `call_user` and `finished` do nothing, and `wait` sleeps one second. `execute` never rejects. |
| NutJSOperator.KeyboardActionsOnlyType | packages/operators/nut-js/src/index.ts:207-258 | Typing and hotkeys produce only keyboard, clipboard and sleep primitives. |
| NutJSOperator.PointerBranches | packages/operators/nut-js/src/index.ts:143-281 | Hover, click and scroll actions move the pointer to the start point first and never move it again. |
| NutJSOperator.KeyboardBranchesSpareClipboard | packages/operators/nut-js/src/index.ts:213-258 | Hotkeys, and typing off Windows, leave the clipboard alone. |
| NutJSOperator.ClicksOnlyForClickActions | packages/operators/nut-js/src/index.ts:137-290 | Mouse buttons are pressed only by the click family, once and as the last primitive, after the move to the start point when there is one. |
| NutJSOperator.BranchClicks | packages/operators/nut-js/src/index.ts:137-290 | Branch-level form of the above. |
| NutJSOperator.PressClicksLast | packages/operators/nut-js/src/index.ts:149-178 | A click is preceded by the move and the optional settle, and no earlier primitive clicks. |
| NutJSOperator.MovesOnlyToStart | packages/operators/nut-js/src/index.ts:137-290 | The pointer only ever moves to the scaled start point, only when both coordinates are set, and only as the first primitive. |
| NutJSOperator.BranchMoves | packages/operators/nut-js/src/index.ts:137-290 | Branch-level form of the above. |
| NutJSOperator.ClipboardOnlyForWindowsTyping | packages/operators/nut-js/src/index.ts:207-233 | The clipboard is read or written only when typing on win32. |
| NutJSOperator.BranchClipboard | packages/operators/nut-js/src/index.ts:137-290 | Branch-level form of the above. |
| NutJSOperator.Round | packages/operators/nut-js/src/index.ts:72-77 | `Math.round`: the integer within half a unit, halves rounded up. |
| NutJSOperator.Screenshot | packages/operators/nut-js/src/index.ts:68-107 | The image is reported at the physical size divided by the pixel density, rounded. A factor already set and truthy is kept. Otherwise it becomes 1 on darwin and the density elsewhere, and afterwards it is always truthy. |
| NutJSOperator.ScaleFactorFixedOnce | packages/operators/nut-js/src/index.ts:79-82 | After the first screenshot fixes the factor, later screenshots on any grab keep it. |
| ToolAgent.RegisterTool | packages/agent-infra/experimental/core/src/agent.ts:55-57 | The tool is found under its name and every other name is untouched. A new name is appended to the registration order; a known name keeps its place and holds the newer tool. |
| ToolAgent.Create | packages/agent-infra/experimental/core/src/agent.ts:27-50 | Instructions are the given ones when non-empty, else the default prompt. The defaults are `maxIterations` 10, name "Anonymous" and the OpenAI provider, and history starts empty. Each tool name finds the last tool of the list given under it, with one entry per name. |
| ToolAgent.SystemPrompt | packages/agent-infra/experimental/core/src/agent.ts:239-243 | The system prompt starts with the instructions. |
| ToolAgent.PromptKeepsInstructions | packages/agent-infra/experimental/core/src/agent.ts:80-84 | Whichever the provider, the prompt sent starts with the instructions. |
| ToolAgent.Complete | packages/agent-infra/experimental/core/src/agent.ts:254-320 | A failed model call yields the error apology with no calls. Otherwise the content is passed on, and calls are kept exactly when there is at least one and the finish reason is `tool_calls`. |
| ToolAgent.InstructionCallsKept | packages/agent-infra/experimental/core/src/agent.ts:294-308 | With the instruction provider, every call parsed from a reply reaches the loop. |
| ToolAgent.OpenAICallsNeedFinishReason | packages/agent-infra/experimental/core/src/agent.ts:294-313 | With the OpenAI provider, calls sent with another finish reason are dropped, so the reply becomes the final answer. |
| ToolAgent.ArgumentText | packages/agent-infra/experimental/core/src/agent.ts:165 | `arguments \|\| '{}'`: empty arguments parse as `{}`, and others are passed as they are. |
| ToolAgent.RunTool | packages/agent-infra/experimental/core/src/agent.ts:149-194 | The result keeps the call's id and name. An unknown tool gives `Error: Tool "<name>" not found`; unparsable arguments or a throwing tool give `Error: <error>`; otherwise the result is the tool's value. |
| ToolAgent.RunTools | packages/agent-infra/experimental/core/src/agent.ts:147-194 | Exactly one result per call, in call order. A failing call does not stop the others. |
| ToolAgent.EveryCallAnswered | packages/agent-infra/experimental/core/src/agent.ts:146-202 | With the OpenAI provider, the model receives one tool message per call, in order, each carrying its call's id. |
| ToolAgent.Iterate | packages/agent-infra/experimental/core/src/agent.ts:120-202 | A pass sends the current conversation with the agent's model and strictly extends the conversation: the assistant message, then any tool results. |
| ToolAgent.IterateAsksModel | packages/agent-infra/experimental/core/src/agent.ts:120-124 | The answer of a pass is `complete`'s reading of the reply to that pass's request. |
| ToolAgent.StepGrows | packages/agent-infra/experimental/core/src/agent.ts:128-202 | Every pass sends the conversation it is given and leaves a strictly longer one that extends it. |
| ToolAgent.Loop | packages/agent-infra/experimental/core/src/agent.ts:97-213 | No iteration runs once the budget is spent. Otherwise between 1 and `maxIterations` run, with one request and one answer each, and without a final answer all of them run. |
| ToolAgent.LoopContinues | packages/agent-infra/experimental/core/src/agent.ts:139-202 | A reply asking for tools puts its request and answer in front of those of the following iterations, which decide the final answer. |
| ToolAgent.LoopStopsAtFirstAnswer | packages/agent-infra/experimental/core/src/agent.ts:97-210 | Every answer but the last asks for tools. The loop stops at the first answer without tool calls and returns its content, and it ends without an answer only when every reply asked for tools. |
| ToolAgent.LoopAsksModel | packages/agent-infra/experimental/core/src/agent.ts:97-213 | The i-th recorded answer is the reading of the reply to the i-th request, sent in that iteration. |
| ToolAgent.StepReads | packages/agent-infra/experimental/core/src/agent.ts:120-124 | The pass reads replies with `complete`. |
| ToolAgent.ErrorEndsLoop | packages/agent-infra/experimental/core/src/agent.ts:314-319 | A failed model call ends the run in that iteration, with the error apology as the answer. |
| ToolAgent.Opening | packages/agent-infra/experimental/core/src/agent.ts:80-89 | The conversation starts with exactly two messages: the system message, which opens with the instructions, and the user's input. |
| ToolAgent.Run | packages/agent-infra/experimental/core/src/agent.ts:76-234 | The answer is the final content, or the fixed apology when the iterations ran out. In that case the apology goes to history only, not to the conversation. History starts with the opening messages, and nothing else about the agent changes. |
| ToolAgent.NoBudgetNoRequest | packages/agent-infra/experimental/core/src/agent.ts:215-228 | Without a positive `maxIterations` the model is never asked, and the history is the opening plus the apology. |
| ToolAgent.RequestsBounded | packages/agent-infra/experimental/core/src/agent.ts:94-124 | At most `maxIterations` requests are sent. The first carries just the opening conversation, and every request's messages are a prefix of the final history. |
| ToolAgent.RunAsksModel | packages/agent-infra/experimental/core/src/agent.ts:97-213 | Every answer of a run is `complete`'s reading of the reply to its iteration's request. |
| InstructionProvider.ToolSections | packages/agent-infra/experimental/core/src/providers/instruction-provider.ts:26-46 | One section per tool, in the order of the tools. |
| InstructionProvider.PreparePrompt | packages/agent-infra/experimental/core/src/providers/instruction-provider.ts:19-75 | Without tools the prompt is the instructions alone. With tools it starts with the instructions and the tools introduction and ends with the call-format guide. |
| InstructionProvider.PromptDescribesEveryTool | packages/agent-infra/experimental/core/src/providers/instruction-provider.ts:26-53 | Every tool's heading and description appear in the prompt. |
| InstructionProvider.PrepareRequest | packages/agent-infra/experimental/core/src/providers/instruction-provider.ts:77-92 | The request carries the model and messages unchanged and no tools field. The temperature is 0.7 unless given, and streaming is off. |
| InstructionProvider.Decode | packages/agent-infra/experimental/core/src/providers/instruction-provider.ts:125-141 | A block is accepted only when its trimmed body parses and the parsed value names the tool. The arguments are the serialised `parameters`. |
| InstructionProvider.Arguments | packages/agent-infra/experimental/core/src/providers/instruction-provider.ts:138 | The arguments are `parameters` when that field is present and truthy, and `{}` otherwise. |
| InstructionProvider.Found | packages/agent-infra/experimental/core/src/providers/instruction-provider.ts:127-145 | A block contributes at most one call, and exactly one when it decodes. A block that fails to parse is skipped without stopping the scan. |
| InstructionProvider.Accepted | packages/agent-infra/experimental/core/src/providers/instruction-provider.ts:124-146 | No blocks give no calls, and a single block gives what it decodes to. |
| InstructionProvider.AcceptedAppend | packages/agent-infra/experimental/core/src/providers/instruction-provider.ts:124-146 | The calls of a longer text extend those of its first blocks, so calls keep the textual order of their blocks. |
| InstructionProvider.ParseToolCallsPerBlock | packages/agent-infra/experimental/core/src/providers/instruction-provider.ts:115-149 | One call per accepted `<tool_call>` block, in order. Each carries the decoded name and arguments and a fresh id. |
| InstructionProvider.NoTagNoCalls | packages/agent-infra/experimental/core/src/providers/instruction-provider.ts:121-124 | A reply without `<tool_call>` requests no tool. |
| InstructionProvider.ParseResponse | packages/agent-infra/experimental/core/src/providers/instruction-provider.ts:94-113 | The content is passed on, with null read as empty. The finish reason is `tool_calls` exactly when some call was parsed and `stop` otherwise, and the calls are absent when there are none. |
| InstructionProvider.RemoveToolCalls | packages/agent-infra/experimental/core/src/providers/instruction-provider.ts:151-163 | The cleaned text neither starts nor ends with white space. |
| InstructionProvider.RemoveToolCallsKeepsPlainText | packages/agent-infra/experimental/core/src/providers/instruction-provider.ts:151-163 | Text holding neither `<thinking>` nor `<tool_call>` only loses its surrounding white space. |
| InstructionProvider.FormatAssistantMessage | packages/agent-infra/experimental/core/src/providers/instruction-provider.ts:165-175 | The assistant message holds the content only, whatever the calls. |
| InstructionProvider.ResultBlocks | packages/agent-infra/experimental/core/src/providers/instruction-provider.ts:181-185 | One block per result, in order. |
| InstructionProvider.FormatToolResults | packages/agent-infra/experimental/core/src/providers/instruction-provider.ts:177-194 | All results go back as exactly one user message, which opens with the fixed header. |
| InstructionProvider.ResultsMessageHoldsEveryResult | packages/agent-infra/experimental/core/src/providers/instruction-provider.ts:181-191 | Every result's block, naming its tool and holding its value, is in that message. |
| OpenAIProvider.PreparePrompt | packages/agent-infra/experimental/core/src/providers/openai-provider.ts:20-23 | The instructions are the whole system prompt. |
| OpenAIProvider.PrepareRequest | packages/agent-infra/experimental/core/src/providers/openai-provider.ts:25-50 | The model and messages are passed unchanged and streaming is off. The temperature is 0.7 unless given. There is a tools field exactly when tools were given, with every tool, in order, as a `function` tool with its name, description and schema. |
| OpenAIProvider.ParseResponse | packages/agent-infra/experimental/core/src/providers/openai-provider.ts:52-70 | The content is passed on, with null read as empty. The calls are kept exactly when there is at least one, and the finish reason is the model's own. |
| OpenAIProvider.FormatAssistantMessage | packages/agent-infra/experimental/core/src/providers/openai-provider.ts:72-87 | The assistant message has the content, and carries the calls exactly when there is at least one. |
| OpenAIProvider.AssistantEchoesReply | packages/agent-infra/experimental/core/src/providers/openai-provider.ts:52-87 | The message recorded for a reply carries the reply's calls exactly when it has some. |
| OpenAIProvider.FormatToolResults | packages/agent-infra/experimental/core/src/providers/openai-provider.ts:89-100 | One tool message per result, in order, answering the result's call id with the serialised result. |
| TagBlocks.NextMatch | packages/agent-infra/experimental/core/src/providers/instruction-provider.ts:121-125 | A match cuts the text into gap, opening tag, body, closing tag and rest. The gap holds no opening tag (leftmost) and the body no closing tag (lazy `*?`), and text without the opening tag has no match. |
| TagBlocks.NextMatchIffBlock | packages/agent-infra/experimental/core/src/providers/instruction-provider.ts:121-124 | A match is found exactly when some opening tag is followed later by a closing tag. |
| TagBlocks.ScanMatchesLeftmostShortest | packages/agent-infra/experimental/core/src/providers/instruction-provider.ts:121-146 | Across the global scan, no gap before a match holds an opening tag and no body holds a closing tag. |
| TagBlocks.ScanIsMaximal | packages/agent-infra/experimental/core/src/providers/instruction-provider.ts:124 | The scan stops only when the text after the last match holds no complete block. |
| TagBlocks.ScanRebuilds | packages/agent-infra/experimental/core/src/providers/instruction-provider.ts:121-146 | The gaps and the tagged bodies, alternating, give back the scanned text. |
| TagBlocks.RemoveWithoutTagIsIdentity | packages/agent-infra/experimental/core/src/providers/instruction-provider.ts:153-160 | The global `replace` leaves text without the opening tag unchanged. |
| Json.Member | packages/agent-infra/experimental/core/src/providers/instruction-provider.ts:131-138 | A field read on an object finds the value of the last field with that name, so a later duplicate key wins. It finds nothing exactly when the value is not an object or no field has that name. |
| Json.LastField | packages/agent-infra/experimental/core/src/providers/instruction-provider.ts:129-137 | The value found belongs to a field with that name that no later field shares, as `JSON.parse` keeps the last of duplicate keys. Nothing is found exactly when no field has that name. |
| ExperimentalBrowserAgent.MaxIterations | packages/agent-infra/experimental/browser-gui-agent/src/browser-gui-agent.ts:31 | Only an absent option falls back to 25; any given value, 0 included, is kept. |
| ExperimentalBrowserAgent.Emit | packages/agent-infra/experimental/browser-gui-agent/src/browser-gui-agent.ts:239-247 | With a callback installed there is exactly one `onData` call. Without one there is none, and nothing else about the agent changes either way. |
| ExperimentalBrowserAgent.TakeShot | packages/agent-infra/experimental/browser-gui-agent/src/browser-gui-agent.ts:197-200 | Each screenshot reads the next page state through the operator's `screenshot` and is recorded. |
| ExperimentalBrowserAgent.FinishedResult | packages/agent-infra/experimental/browser-gui-agent/src/browser-gui-agent.ts:157 | The result of `finished` is its thought when non-empty, else the fixed completion text, so it is never empty. |
| ExperimentalBrowserAgent.Iterate | packages/agent-infra/experimental/browser-gui-agent/src/browser-gui-agent.ts:131-167 | A pass counts one iteration and asks the model at most once. It ends at END exactly when the model answered `finished`, in which case nothing is executed, and a pass that throws never reached the model or failed after it. |
| ExperimentalBrowserAgent.LoopFrom | packages/agent-infra/experimental/browser-gui-agent/src/browser-gui-agent.ts:120-168 | The loop never exceeds the iteration cap and asks the model at most once per iteration. It leaves while still RUNNING only once the cap is reached, and an iteration count below the cap means END. |
| ExperimentalBrowserAgent.Fail | packages/agent-infra/experimental/browser-gui-agent/src/browser-gui-agent.ts:181-191 | The catch block sets ERROR and rethrows the same error. |
| ExperimentalBrowserAgent.Conclude | packages/agent-infra/experimental/browser-gui-agent/src/browser-gui-agent.ts:170-180 | MAX_LOOP with the fixed text exactly when the cap was reached without END; otherwise status and result are kept. One final emit carries them, and the result is returned. |
| ExperimentalBrowserAgent.Run | packages/agent-infra/experimental/browser-gui-agent/src/browser-gui-agent.ts:104-192 | A run ends at END, MAX_LOOP or ERROR, and fails exactly at ERROR. It returns its result and never executes a `finished` action, and with a non-negative cap it asks the model at most that many times. |
| ExperimentalBrowserAgent.RunAnnouncesFirst | packages/agent-infra/experimental/browser-gui-agent/src/browser-gui-agent.ts:108-113 | The first emit announces RUNNING with the instruction, before the initial screenshot. |
| ExperimentalBrowserAgent.RunEmitsFinalStatus | packages/agent-infra/experimental/browser-gui-agent/src/browser-gui-agent.ts:177-184 | The last emit of every run carries its final status: the result when it returns, the error when it fails. Only the `onError` call can follow it. |
| ExperimentalBrowserAgent.RunReportsErrorsOnce | packages/agent-infra/experimental/browser-gui-agent/src/browser-gui-agent.ts:181-191 | A failed run calls `onError` exactly once, as its last interaction, with the rethrown error, and a run that returns never calls it. |
| ExperimentalBrowserAgent.NoBudgetEndsAtMaxLoop | packages/agent-infra/experimental/browser-gui-agent/src/browser-gui-agent.ts:120-175 | With no iteration budget the model is never asked and the run ends at MAX_LOOP with the fixed text. |
| ExperimentalBrowserAgent.AbortedBeforeFirstPass | packages/agent-infra/experimental/browser-gui-agent/src/browser-gui-agent.ts:124-129 | An abort seen at the first check ends the run at END with an empty result and no model call. |
| ExperimentalBrowserAgent.LoopStopsAtAbort | packages/agent-infra/experimental/browser-gui-agent/src/browser-gui-agent.ts:120-129 | An abort that the loop test would see at iteration k, below the cap, keeps the loop from going past iteration k. The model is asked at most once per iteration before k, and the loop ends at END unless a pass throws. |
| ExperimentalBrowserAgent.AbortEndsRun | packages/agent-infra/experimental/browser-gui-agent/src/browser-gui-agent.ts:120-129 | With an abort at iteration k below the cap, the whole run asks the model at most k times and ends at END or ERROR. A run that does not fail ends at END with no `onError` call. |
| ExperimentalBrowserAgent.FinishedEndsRun | packages/agent-infra/experimental/browser-gui-agent/src/browser-gui-agent.ts:154-160 | A first answer of `finished` ends the run at END after one iteration, with the thought as result and nothing executed. |
| ExperimentalBrowserAgent.CallUserContinues | packages/agent-infra/experimental/browser-gui-agent/src/browser-gui-agent.ts:162-167 | `call_user` is not terminal here: once executed, the loop goes on. |
| ExperimentalBrowserAgent.Stop | packages/agent-infra/experimental/browser-gui-agent/src/browser-gui-agent.ts:252-258 | Only a RUNNING agent moves to END, with one emit. Any other agent is left as it is. |
| ExperimentalBrowserAgent.StopIdempotent | packages/agent-infra/experimental/browser-gui-agent/src/browser-gui-agent.ts:252-258 | Stopping twice is stopping once, and a stopped agent is not RUNNING. |
| ExperimentalBrowserAgent.ExecuteAction | packages/agent-infra/experimental/browser-gui-agent/src/browser-gui-agent.ts:205-234 | An empty parse reports `Error: Failed to parse action` without touching the browser. Success is reported exactly when something parsed, the screenshot succeeded and the first action executed without error, and then names that action. |
| OrderedMap.Keys | packages/agent-infra/browser-gui-agent/src/plugins/plugin-manager.ts:4 | The keys of the map, one per entry, in iteration order. |
| OrderedMap.Values | packages/agent-infra/browser-gui-agent/src/plugins/plugin-manager.ts:15 | `values()`: one value per entry, in iteration order. |
| OrderedMap.Position | packages/agent-infra/browser-gui-agent/src/plugins/plugin-manager.ts:11 | The position found holds the key and is its first occurrence; no position means the key is absent. |
| OrderedMap.Get | packages/agent-infra/browser-gui-agent/src/plugins/plugin-manager.ts:11 | `get` finds a value exactly when the key is present, and only a value stored under it. |
| OrderedMap.Set | packages/agent-infra/browser-gui-agent/src/plugins/plugin-manager.ts:7 | After `set` the key maps to the new value and every other key is untouched. A new key is appended to the iteration order, a known key keeps its place, and keys stay distinct. |
| OrderedMap.ReSetKeepsOneEntry | packages/agent-infra/browser-gui-agent/src/plugins/plugin-manager.ts:7 | Setting a key twice leaves one entry, at the first insertion's position, with the later value. |
| OrderedMap.SetEntries | packages/agent-infra/browser-gui-agent/src/plugins/plugin-manager.ts:7 | `set` adds no entry other than the new one. |
| OrderedMap.SetAll | packages/agent-infra/experimental/core/src/agent.ts:38-44 | Setting a list of items keeps keys distinct. |
| OrderedMap.LastKeyed | packages/agent-infra/experimental/core/src/agent.ts:38-44 | The item found carries the key and is in the list; none is found only when no item carries it. |
| OrderedMap.SetAllLookup | packages/agent-infra/experimental/core/src/agent.ts:38-44 | After setting a list of items a key maps to the last item carrying it, and otherwise to what the map held before. |
| PluginManager.Register | packages/agent-infra/browser-gui-agent/src/plugins/plugin-manager.ts:6-8 | The plugin is found under its name and every other name is untouched. A new name is appended to the order, and keys stay distinct and each plugin stays under its own name. |
| PluginManager.RegisterAll | packages/agent-infra/browser-gui-agent/src/browser-gui-agent.ts:150-155 | Registering the option's plugins makes each name find the last plugin of the list with that name. |
| PluginManager.GetPlugin | packages/agent-infra/browser-gui-agent/src/plugins/plugin-manager.ts:10-12 | `getPlugin` returns undefined exactly for an unregistered name, and otherwise a plugin of that name. |
| PluginManager.ReRegisterReplaces | packages/agent-infra/browser-gui-agent/src/plugins/plugin-manager.ts:6-8 | Registering a name again replaces the plugin in place, without a second entry. |
| PluginManager.Dispatch | packages/agent-infra/browser-gui-agent/src/plugins/plugin-manager.ts:14-36 | Walking the plugins calls only the given method, with the given arguments, at most once per plugin. |
| PluginManager.DispatchCallsDefiners | packages/agent-infra/browser-gui-agent/src/plugins/plugin-manager.ts:30-35 | Exactly the plugins that define the method are called. |
| PluginManager.DispatchAppend | packages/agent-infra/browser-gui-agent/src/plugins/plugin-manager.ts:15-17 | Calls follow registration order: walking two runs of plugins walks the first, then the second. |
| PluginManager.DispatchOne | packages/agent-infra/browser-gui-agent/src/plugins/plugin-manager.ts:31-34 | A plugin without the method is skipped, and one with it is called once. |
| PluginManager.CallAll | packages/agent-infra/browser-gui-agent/src/plugins/plugin-manager.ts:15-17 | The loop over `plugins.values()` makes exactly the reference sequence of calls. |
| PluginManager.Init | packages/agent-infra/browser-gui-agent/src/plugins/plugin-manager.ts:14-18 | `init` calls each plugin's `init`, where defined, in registration order. |
| PluginManager.Cleanup | packages/agent-infra/browser-gui-agent/src/plugins/plugin-manager.ts:20-24 | `cleanup` calls each plugin's `cleanup`, where defined, in registration order. |
| PluginManager.CallHook | packages/agent-infra/browser-gui-agent/src/plugins/plugin-manager.ts:26-36 | `callHook` calls the hook, with the same arguments, on exactly the plugins that define it, in registration order. |
| BrowserGUIAgent.Create | packages/agent-infra/browser-gui-agent/src/browser-gui-agent.ts:95-175 | Construction fails, with the fixed message, exactly when the model config lacks a truthy `baseURL`, `apiKey` or `model`. Otherwise the agent keeps that config, and a summary client exists exactly when `apiKey` and `baseURL` are truthy. The extraction queue gets `extractionConcurrency ?? 100` slots, each plugin name finds the last plugin given under it, and the agent starts at INIT with no steps. |
| BrowserGUIAgent.Factors | packages/agent-infra/browser-gui-agent/src/browser-gui-agent.ts:200-204 | Models whose name contains `claude` get 1366×768, all others 1000×1000. |
| BrowserGUIAgent.ChooseModel | packages/agent-infra/browser-gui-agent/src/browser-gui-agent.ts:257-268 | The Azure adapter is chosen exactly for model names starting with `aws`, with the configured endpoint, key, `claude` API version, 1000 tokens and the factors. Other models are passed the configuration itself. |
| BrowserGUIAgent.AzureAdapterScreenSize | packages/agent-infra/browser-gui-agent/src/browser-gui-agent.ts:200-268 | For every model name: an `aws…` deployment gets the Azure adapter, with 1366×768 when the name contains `claude` and 1000×1000 otherwise. Any other name is passed on as configured, whatever it contains. |
| BrowserGUIAgent.Prepare | packages/agent-infra/browser-gui-agent/src/browser-gui-agent.ts:181-322 | A launch failure sets END and is rethrown. Otherwise every plugin's `init` runs in registration order, and the model is the one chosen for the agent. |
| BrowserGUIAgent.OnScreenshot | packages/agent-infra/browser-gui-agent/src/browser-gui-agent.ts:209-245 | Each screenshot appends exactly one step holding it. The step carries the extraction and the page URL when a provider is set and extraction succeeded, and nothing when extraction is rejected. The `onScreenshot` hook then fires on the plugins with the whole screenshot, image and scale factor. |
| BrowserGUIAgent.OnOperatorAction | packages/agent-infra/browser-gui-agent/src/browser-gui-agent.ts:246-252 | The action's thought goes on the last step only, when there is one, and the `onOperatorAction` hook fires. |
| BrowserGUIAgent.OnAgentData | packages/agent-infra/browser-gui-agent/src/browser-gui-agent.ts:284-309 | The agent takes over the reported status and the data goes to the `onAgentData` hook. |
| BrowserGUIAgent.OnError | packages/agent-infra/browser-gui-agent/src/browser-gui-agent.ts:310-313 | An SDK agent error sets END and changes nothing else. |
| BrowserGUIAgent.ScreenshotThenAction | packages/agent-infra/browser-gui-agent/src/browser-gui-agent.ts:209-252 | A screenshot followed by its action yields one new step carrying both. |
| BrowserGUIAgent.Fresh | packages/agent-infra/browser-gui-agent/src/browser-gui-agent.ts:393-399 | A run starts from the task as instruction, no steps and RUNNING. |
| BrowserGUIAgent.Run | packages/agent-infra/browser-gui-agent/src/browser-gui-agent.ts:393-418 | The run returns the steps the SDK agent left, with the status it last reported. When the SDK agent throws, the status is END and the error is rethrown. |
| BrowserGUIAgent.RunForgetsEarlierRuns | packages/agent-infra/browser-gui-agent/src/browser-gui-agent.ts:393-399 | Steps, status and instruction left by an earlier run do not affect the next one. |
| BrowserGUIAgent.Close | packages/agent-infra/browser-gui-agent/src/browser-gui-agent.ts:420-432 | Every plugin's `cleanup` runs in order, then the browser closes. END is set only when closing succeeded, and a failure is rethrown. |
| BrowserGUIAgent.Abort | packages/agent-infra/browser-gui-agent/src/browser-gui-agent.ts:434-440 | Only a RUNNING agent is aborted: it is marked END before closing, so it stays END even when closing fails. Any other agent is left untouched. |
| BrowserGUIAgent.StepBlocks | packages/agent-infra/browser-gui-agent/src/browser-gui-agent.ts:361-370 | One text block per step, in order. |
| BrowserGUIAgent.Summary | packages/agent-infra/browser-gui-agent/src/browser-gui-agent.ts:353-387 | Without a summary client the fixed error is thrown. Otherwise the request goes to the summary model, with the fixed system prompt, the streaming option as given, and the step blocks joined by newlines as user content. |
| BrowserGUIAgent.BlockCoversStep | packages/agent-infra/browser-gui-agent/src/browser-gui-agent.ts:363-369 | A step's block holds its number, its thought when truthy, and its extracted content when non-empty. |
| BrowserGUIAgent.SummaryCoversEveryStep | packages/agent-infra/browser-gui-agent/src/browser-gui-agent.ts:361-383 | The summary request numbers every step from 1 and carries each step's thought and extracted content whenever they are non-empty. |
| BrowserGUIAgent.StepLabelsDistinct | packages/agent-infra/browser-gui-agent/src/browser-gui-agent.ts:366 | Distinct steps carry distinct numbers. |
| Text.TrimStart | packages/agent-infra/experimental/browser-gui-agent/src/browser-operator.ts:231 | Only leading white space is dropped, and what is left does not start with white space. |
| Text.TrimEnd | packages/agent-infra/experimental/browser-gui-agent/src/browser-operator.ts:231 | Only trailing white space is dropped, and what is left does not end with white space. |
| Text.Trim | packages/agent-infra/experimental/core/src/providers/instruction-provider.ts:125 | `trim()` keeps a slice of the text and drops only white space around it. The result neither starts nor ends with white space. |
| Text.TrimIdempotent | packages/agent-infra/experimental/core/src/providers/instruction-provider.ts:153-160 | Trimming twice is trimming once. |
| Text.IndexOf | packages/agent-infra/experimental/core/src/providers/instruction-provider.ts:121-124 | The position found is an occurrence of the searched text. |
| Text.IndexOfFirst | packages/agent-infra/experimental/core/src/providers/instruction-provider.ts:121-124 | The position found is the first occurrence, and nothing is found only when there is no occurrence. |
| Text.LacksIffNotContains | packages/agent-infra/experimental/core/src/providers/instruction-provider.ts:121-124 | A text lacks a substring exactly when `includes` fails. |
| Text.ToLower | packages/agent-infra/experimental/browser-gui-agent/src/browser-operator.ts:262 | Lower-casing, restricted to ASCII letters, keeps the length and maps each character on its own. |
| Text.SplitWhere | packages/agent-infra/experimental/browser-gui-agent/src/browser-operator.ts:266 | `split` on a one-character class gives one more token than separators, and no token holds a separator. |
| Text.SplitKeepsText | packages/agent-infra/experimental/browser-gui-agent/src/browser-operator.ts:266 | Splitting loses only the separators: the tokens put together are the text without them. |
| Text.SplitJoinRoundTrip | packages/agent-infra/experimental/browser-gui-agent/src/browser-operator.ts:266 | When every separator is the same character, joining the tokens with it gives back the text. |
| Text.NatToString | packages/agent-infra/browser-gui-agent/src/browser-gui-agent.ts:366 | The decimal rendering is a non-empty run of digits without a leading zero. |
| Text.NatToStringRoundTrip | packages/agent-infra/browser-gui-agent/src/browser-gui-agent.ts:366 | Reading the rendered digits back gives the number. |
| Text.NatToStringInjective | packages/agent-infra/browser-gui-agent/src/browser-gui-agent.ts:366 | Distinct numbers render differently. |

## Left out

- I/O is not modelled: the browser, puppeteer, nut-js, the clipboard, the network and the electron UI. Their results are inputs or scripted functions of how often they were consulted.
- Randomness and clocks are parameters: tool-call ids (`Date.now()` and `Math.random()`), the `timing` fields and log timestamps.
- Logging and `console` output are left out, because they change no state the model keeps.
- Streaming and the HTTP reply of `summary` are not modelled. Only the request it sends is.
- The `PromiseQueue` that bounds concurrent extractions is left out: only its concurrency setting is kept, and each step holds the awaited value of its extraction.
- Parsers and converters outside the modelled files are parameters and not modelled themselves: the action parser, `parseBoxToScreenCoords`, `zodToJsonSchema`, `JSON.parse`/`JSON.stringify`, `toVlmModelFormat`, `processVlmParams` and `getSummary`.
- The model's reply and `sleep` are parameters.
- Floating-point arithmetic is modelled with exact `real` numbers, so binary rounding errors are not modelled. Only the nut-js screenshot applies `Math.round`; elsewhere, screenshot width and height are inputs.
- Thrown values are represented by their message; `String(error)` is modelled as `Error: <message>`.
- The SDK loop's caps (`MAX_LOOP_COUNT` and the screenshot retry limit) are parameters, because their values are defined outside the modelled files.
- Puppeteer delays, element highlighting and `waitForPossibleNavigation` in the browser operator are left out, because they do not change which events are sent.
- `useConfig`/`useContext` are left out; their values reach the model as parameters.
- The commented-out presets of the browser GUI agent are left out, because they change nothing.
- The experimental agent takes an initial screenshot whose value is never used. It is modelled as consuming one screenshot, and its result is otherwise ignored.
- A rejected plugin hook is not modelled: hooks are modelled as returning normally.
- A plugin `init` that throws during `prepare` is not modelled. `Prepare` models only a browser launch failure.
- Calling `run` before `prepare` is not modelled as its own case; the delegate reports whatever the SDK agent would throw.
- A `stop()` that runs concurrently with the experimental agent's loop is not interleaved with it. `ExperimentalBrowserAgent.Stop` is modelled on its own.
- InstructionProvider.Decode: accepts a tool call only when `name` is a non-empty JSON string, while the source accepts any truthy value as the name. A number or object name is rejected here.
- Browser launch, page creation and the `goto` of the start page are collapsed into one optional failure.
- Text.ToLower: lower-cases ASCII letters only, while `toLowerCase` applies the full Unicode case mapping. That mapping can turn a non-ASCII character into an ASCII one (KELVIN SIGN becomes `k`) or into two characters (`İ`). BrowserOperator.NormalizeKey, NutJSOperator.NutKeyOf, BrowserOperator.HandleScroll and NutJSOperator.HandleScroll inherit this restriction.
- BrowserOperator.NormalizeKey: the lookup `KEY_MAPPINGS[lower]` in a plain object literal also finds inherited `Object.prototype` names such as `constructor`; the model's table holds only the listed keys. Non-ASCII lower-casing is not modelled either (see Text.ToLower).
- NutJSOperator.NutKeyOf: the lookup `keyMap[lower]` in a plain object literal also finds inherited `Object.prototype` names such as `constructor`; the model's table holds only the listed keys. Non-ASCII lower-casing is not modelled either (see Text.ToLower).
- BrowserGUIAgent.OnScreenshot: the screenshot handed to the hook holds the image and its scale factor. The `@ui-tars/operator-browser` package that defines `ScreenshotOutput` is not part of this model, so any further fields it carries are not represented.
- GUIAgent.ActionsExecutedInOrder: covers a signal that never aborts. A signal that turns aborted and stays aborted is covered by GUIAgent.ActionsExecutedUntilAbort and GUIAgent.AbortedActionsNotExecuted. The environment may also script a signal that goes back to not aborted, which an `AbortSignal` never does; no lemma describes the executions in that case.
- GUIAgent.RunActions: its own contract does not mention the signal. The abort half of the action loop is stated by GUIAgent.AbortedActionsNotExecuted and GUIAgent.ActionsExecutedUntilAbort.
- GUIAgent.LoopFrom: its own contract does not mention the signal. An abort seen at any loop test is stated by GUIAgent.AbortObservedEndsLoop and GUIAgent.AbortObservedEndsRun, and a signal that stays aborted from some check on is bounded by GUIAgent.RunAbortedFromCheck.
- Session.Apply: a write to a conversation index past the end of the log leaves the log unchanged, whereas a JavaScript array would grow. The SDK only edits entries it has already pushed.

=== FILE: agent_core.dfy ===
/** The tool-calling agent of the experimental core (`Agent`): a registry of tools, a
    provider that decides how tools and calls travel through the chat, and the run loop
    that alternates model replies and tool executions until the model answers in plain
    text or the iteration budget is spent. */
module ToolAgent {
  import opened Wrappers
  import opened ToolCalling
  import Json
  import Text
  import Seqs
  import OrderedMap
  import InstructionProvider
  import OpenAIProvider

  /** The two `ToolCallProvider` implementations. */
  datatype Provider = OpenAI | Instruction

  /** `AgentOptions`; the model is reduced to its name, the client is the environment. */
  datatype Options = Options(
    name: Option<string>,
    instructions: Option<string>,
    modelName: string,
    tools: Option<seq<ToolDefinition>>,
    provider: Option<Provider>,
    maxIterations: Option<int>)

  type Registry = OrderedMap.OMap<ToolDefinition>

  datatype Agent = Agent(
    name: string,
    instructions: string,
    modelName: string,
    tools: Registry,
    maxIterations: int,
    provider: Provider,
    history: seq<Message>)

  const DefaultPrompt: string :=
    "You are an intelligent assistant that can use provided tools to answer user questions.\n"
    + "Please use tools when needed to get information, don't make up answers.\n"
    + "Provide concise and accurate responses."
  const DefaultMaxIterations: int := 10
  const DefaultName: string := "Anonymous"
  const ErrorApology: string := "Sorry, an error occurred while processing your request."
  const ExhaustedApology: string := "Sorry, I could not complete this task. Maximum iterations reached."

  /** `registerTool`: a later tool of the same name replaces the earlier one in place. */
  function RegisterTool(m: Registry, tool: ToolDefinition): (r: Registry)
    ensures OrderedMap.Get(r, tool.name) == Some(tool)
    ensures forall k :: k != tool.name ==> OrderedMap.Get(r, k) == OrderedMap.Get(m, k)
    ensures OrderedMap.Keys(r) == if tool.name in OrderedMap.Keys(m) then OrderedMap.Keys(m) else OrderedMap.Keys(m) + [tool.name]
  {
    OrderedMap.Set(m, tool.name, tool)
  }

  function ToolName(tool: ToolDefinition): string {
    tool.name
  }

  /** The constructor: `instructions || default`, `maxIterations ?? 10`, `name ??
      'Anonymous'`, the OpenAI provider unless another is given, the tools registered in
      order, and an empty history. */
  function Create(options: Options): (a: Agent)
    ensures a.instructions == (if options.instructions.Some? && |options.instructions.value| > 0
                               then options.instructions.value else DefaultPrompt)
    ensures a.maxIterations == options.maxIterations.GetOr(DefaultMaxIterations)
    ensures a.name == options.name.GetOr(DefaultName)
    ensures a.provider == options.provider.GetOr(OpenAI)
    ensures a.modelName == options.modelName && a.history == []
    ensures OrderedMap.Distinct(a.tools)
    ensures forall k :: OrderedMap.Get(a.tools, k) == OrderedMap.LastKeyed(options.tools.GetOr([]), ToolName, k)
  {
    var instructions := match options.instructions
      case Some(s) => if |s| > 0 then s else DefaultPrompt
      case None => DefaultPrompt;
    var tools := OrderedMap.SetAll(OrderedMap.Empty(), options.tools.GetOr([]), ToolName);
    forall k ensures OrderedMap.Get(tools, k) == OrderedMap.LastKeyed(options.tools.GetOr([]), ToolName, k) {
      OrderedMap.SetAllLookup(OrderedMap.Empty(), options.tools.GetOr([]), ToolName, k);
    }
    Agent(options.name.GetOr(DefaultName), instructions, options.modelName, tools,
          options.maxIterations.GetOr(DefaultMaxIterations), options.provider.GetOr(OpenAI), [])
  }

  /** `getTools`: the registered tools in registration order. */
  function GetTools(a: Agent): seq<ToolDefinition> {
    OrderedMap.Values(a.tools)
  }

  /** `getMessageHistory` */
  function GetMessageHistory(a: Agent): seq<Message> {
    a.history
  }

  /** What the agent cannot compute itself: the clock's rendering of the current time,
      the model's reply to a request (none when the call throws), JSON, the ids the
      instruction provider invents for the calls of a reply, and the string rendering
      (`${error}`, as in `SyntaxError: <message>`) of the error that `JSON.parse` throws on
      malformed arguments. */
  datatype Env = Env(
    now: string,
    reply: (nat, Request) -> Option<Reply>,
    codec: Json.Codec,
    newId: (nat, nat) -> string,
    syntaxError: string -> string)

  /** `getSystemPrompt` */
  function SystemPrompt(instructions: string, now: string): (r: string)
    ensures Text.StartsWith(r, instructions)
  {
    instructions + "\n\nCurrent time: " + now
  }

  function PreparePrompt(p: Provider, instructions: string, tools: seq<ToolDefinition>): string {
    match p
    case OpenAI => OpenAIProvider.PreparePrompt(instructions, tools)
    case Instruction => InstructionProvider.PreparePrompt(instructions, tools)
  }

  /** Whichever the provider, the system prompt opens with the agent's instructions. */
  lemma PromptKeepsInstructions(p: Provider, instructions: string, tools: seq<ToolDefinition>)
    ensures Text.StartsWith(PreparePrompt(p, instructions, tools), instructions)
  {
    if p.Instruction? && |tools| > 0 {
      Text.StartsWithPart(PreparePrompt(p, instructions, tools), instructions, InstructionProvider.ToolsIntro);
    }
  }

  /** `complete` always asks with the agent's tools and the default temperature. */
  function PrepareRequest(p: Provider, model: string, messages: seq<Message>, tools: seq<ToolDefinition>): Request {
    match p
    case OpenAI => OpenAIProvider.PrepareRequest(model, messages, Some(tools), None)
    case Instruction => InstructionProvider.PrepareRequest(model, messages, None)
  }

  function ParseResponse(p: Provider, reply: Reply, env: Env, iteration: nat): Parsed {
    match p
    case OpenAI => OpenAIProvider.ParseResponse(reply)
    case Instruction => InstructionProvider.ParseResponse(reply, env.codec, (k: nat) => env.newId(iteration, k))
  }

  function FormatAssistantMessage(p: Provider, content: string, toolCalls: Option<seq<ToolCall>>): Message {
    match p
    case OpenAI => OpenAIProvider.FormatAssistantMessage(content, toolCalls)
    case Instruction => InstructionProvider.FormatAssistantMessage(content, toolCalls)
  }

  function FormatToolResults(p: Provider, results: seq<ToolResult>, codec: Json.Codec): seq<Message> {
    match p
    case OpenAI => OpenAIProvider.FormatToolResults(results, codec)
    case Instruction => InstructionProvider.FormatToolResults(results, codec)
  }

  /** What `complete` hands back to the loop. */
  datatype Answer = Answer(content: string, toolCalls: Option<seq<ToolCall>>)

  /** `complete`: the parsed reply, its calls kept only when there is at least one and the
      finish reason is `tool_calls`; a failed call yields the apology and no calls. */
  function Complete(p: Provider, env: Env, iteration: nat, request: Request): (r: Answer)
    ensures env.reply(iteration, request).None? ==> r == Answer(ErrorApology, None)
    ensures env.reply(iteration, request).Some? ==>
              var parsed := ParseResponse(p, env.reply(iteration, request).value, env, iteration);
              && r.content == parsed.content
              && (r.toolCalls.Some? <==> parsed.toolCalls.Some? && |parsed.toolCalls.value| > 0
                                         && parsed.finishReason == "tool_calls")
              && (r.toolCalls.Some? ==> r.toolCalls == parsed.toolCalls)
  {
    match env.reply(iteration, request)
    case None => Answer(ErrorApology, None)
    case Some(reply) =>
      var parsed := ParseResponse(p, reply, env, iteration);
      if parsed.toolCalls.Some? && |parsed.toolCalls.value| > 0 && parsed.finishReason == "tool_calls"
      then Answer(parsed.content, parsed.toolCalls)
      else Answer(parsed.content, None)
  }

  /** With the instruction provider, every call read from a reply reaches the loop: its
      finish reason is derived from the calls themselves. */
  lemma InstructionCallsKept(env: Env, iteration: nat, request: Request)
    requires env.reply(iteration, request).Some?
    ensures var parsed := ParseResponse(Instruction, env.reply(iteration, request).value, env, iteration);
              Complete(Instruction, env, iteration, request).toolCalls == parsed.toolCalls
  {
  }

  /** With the OpenAI provider, calls that the model sends with any other finish reason
      are dropped, and the reply counts as the final answer. */
  lemma OpenAICallsNeedFinishReason(env: Env, iteration: nat, request: Request)
    requires env.reply(iteration, request).Some?
    requires env.reply(iteration, request).value.finishReason != "tool_calls"
    ensures Complete(OpenAI, env, iteration, request).toolCalls.None?
  {
  }

  function NotFound(name: string): string {
    "Error: Tool \"" + name + "\" not found"
  }

  /** `JSON.parse(arguments || '{}')` */
  function ArgumentText(arguments: string): (r: string)
    ensures |r| > 0
    ensures |arguments| > 0 ==> r == arguments
  {
    if |arguments| > 0 then arguments else "{}"
  }

  /** One tool call: an unknown tool, unparsable arguments and a throwing tool each become
      an error text in place of the result; the call's id and name are always kept. */
  function RunTool(tools: Registry, call: ToolCall, env: Env, handled: nat): (r: ToolResult)
    ensures r.toolCallId == call.id && r.toolName == call.name
    ensures OrderedMap.Get(tools, call.name).None? ==> r.result == Json.JString(NotFound(call.name))
    ensures OrderedMap.Get(tools, call.name).Some? && env.codec.parse(ArgumentText(call.arguments)).None? ==>
              r.result == Json.JString("Error: " + env.syntaxError(ArgumentText(call.arguments)))
    ensures OrderedMap.Get(tools, call.name).Some? && env.codec.parse(ArgumentText(call.arguments)).Some? ==>
              var outcome := OrderedMap.Get(tools, call.name).value.run(env.codec.parse(ArgumentText(call.arguments)).value, handled);
              r.result == (match outcome case Produced(v) => v case Failed(e) => Json.JString("Error: " + e))
  {
    var result := match OrderedMap.Get(tools, call.name)
      case None => Json.JString(NotFound(call.name))
      case Some(tool) =>
        match env.codec.parse(ArgumentText(call.arguments))
        case None => Json.JString("Error: " + env.syntaxError(ArgumentText(call.arguments)))
        case Some(args) =>
          match tool.run(args, handled)
          case Produced(v) => v
          case Failed(e) => Json.JString("Error: " + e);
    ToolResult(call.id, call.name, result)
  }

  /** The calls of one reply, run one after the other; none aborts the others. */
  function RunTools(tools: Registry, calls: seq<ToolCall>, env: Env, handled: nat): (r: seq<ToolResult>)
    ensures |r| == |calls|
    ensures forall i :: 0 <= i < |calls| ==> r[i] == RunTool(tools, calls[i], env, handled + i)
  {
    seq(|calls|, i requires 0 <= i < |calls| => RunTool(tools, calls[i], env, handled + i))
  }

  /** With the OpenAI provider the model receives one tool message per call, answering the
      calls in order by their ids. */
  lemma EveryCallAnswered(tools: Registry, calls: seq<ToolCall>, env: Env, handled: nat)
    ensures var ms := FormatToolResults(OpenAI, RunTools(tools, calls, env, handled), env.codec);
              && |ms| == |calls|
              && forall i :: 0 <= i < |calls| ==> ms[i].role == ToolRole && ms[i].toolCallId == Some(calls[i].id)
  {
  }

  lemma PrefixTransitiveWhen<T>(c: bool, a: seq<T>, b: seq<T>, d: seq<T>)
    requires c ==> Seqs.Prefix(a, b) && Seqs.Prefix(b, d)
    ensures c ==> Seqs.Prefix(a, d)
  {
    if c {
      Seqs.PrefixTransitive(a, b, d);
    }
  }

  /** The result of the iterations from some point on: the final answer if one came, the
      conversation, the number of iterations run, and the requests sent with what
      `complete` made of each, in order. */
  datatype Outcome = Outcome(
    answer: Option<string>,
    messages: seq<Message>,
    iterations: int,
    requests: seq<Request>,
    answers: seq<Answer>)

  /** One pass of the `while` body: the request, what `complete` made of the reply, the
      conversation afterwards, and the count of tool calls handled so far. */
  datatype Pass = Pass(request: Request, answer: Answer, next: seq<Message>, handled: nat)

  /** Sends the conversation, records the assistant message, and when the reply asks for
      tools runs them and records their results. */
  function Iterate(a: Agent, env: Env, iteration: nat, messages: seq<Message>, handled: nat): (p: Pass)
    ensures p.request.model == a.modelName && p.request.messages == messages
    ensures Seqs.Prefix(messages, p.next) && |messages| < |p.next|
  {
    var request := PrepareRequest(a.provider, a.modelName, messages, GetTools(a));
    var answer := Complete(a.provider, env, iteration, request);
    var grown := messages + [FormatAssistantMessage(a.provider, answer.content, answer.toolCalls)];
    assert Seqs.Prefix(messages, grown);
    match answer.toolCalls
    case None => Pass(request, answer, grown, handled)
    case Some(calls) =>
      var next := grown + FormatToolResults(a.provider, RunTools(a.tools, calls, env, handled), env.codec);
      assert Seqs.Prefix(grown, next);
      Seqs.PrefixTransitive(messages, grown, next);
      Pass(request, answer, next, handled + |calls|)
  }

  /** The answer of a pass is `complete`'s reading of the model's reply to its request. */
  lemma IterateAsksModel(a: Agent, env: Env, iteration: nat, messages: seq<Message>, handled: nat)
    ensures var p := Iterate(a, env, iteration, messages, handled);
              p.answer == Complete(a.provider, env, iteration, p.request)
  {
  }

  /** The body of the `while` loop as a function of the iteration number, the
      conversation and the count of tool calls handled so far. */
  type Step = (nat, seq<Message>, nat) -> Pass

  function StepOf(a: Agent, env: Env): Step {
    (iteration: nat, messages: seq<Message>, handled: nat) => Iterate(a, env, iteration, messages, handled)
  }

  /** A step sends the conversation it is given and leaves a longer one behind. */
  ghost predicate Grows(step: Step) {
    forall iteration, messages, handled ::
      && step(iteration, messages, handled).request.messages == messages
      && Seqs.Prefix(messages, step(iteration, messages, handled).next)
      && |messages| < |step(iteration, messages, handled).next|
  }

  lemma StepGrows(a: Agent, env: Env)
    ensures Grows(StepOf(a, env))
  {
    forall iteration, messages, handled
      ensures var p := StepOf(a, env)(iteration, messages, handled);
                p.request.messages == messages && Seqs.Prefix(messages, p.next) && |messages| < |p.next|
    {
      var p := Iterate(a, env, iteration, messages, handled);
    }
  }

  /** The `while` loop of `run`, from iteration `iteration` on, with `handled` tool calls
      handled so far: passes until a reply asks for no tool or the iterations run out. */
  function Loop(step: Step, maxIterations: int, iteration: nat, messages: seq<Message>, handled: nat): (o: Outcome)
    ensures iteration >= maxIterations ==> o == Outcome(None, messages, iteration, [], [])
    ensures iteration < maxIterations ==> iteration < o.iterations <= maxIterations
    ensures |o.requests| == |o.answers| == o.iterations - iteration
    ensures o.answer.None? ==> o.iterations == (if iteration < maxIterations then maxIterations else iteration)
    // when each step grows the conversation, the conversation only grows, and each
    // request carries the conversation so far
    ensures Grows(step) ==> |messages| < |o.messages| || iteration >= maxIterations
    ensures Grows(step) ==> Seqs.Prefix(messages, o.messages)
    ensures Grows(step) ==> forall i :: 0 <= i < |o.requests| ==> Seqs.Prefix(o.requests[i].messages, o.messages)
    ensures Grows(step) && iteration < maxIterations ==> o.requests[0].messages == messages
    decreases maxIterations - iteration
  {
    if iteration >= maxIterations then Outcome(None, messages, iteration, [], [])
    else
      var p := step(iteration, messages, handled);
      if p.answer.toolCalls.None? then Outcome(Some(p.answer.content), p.next, iteration + 1, [p.request], [p.answer])
      else
        var rest := Loop(step, maxIterations, iteration + 1, p.next, p.handled);
        PrefixTransitiveWhen(Grows(step), messages, p.next, rest.messages);
        var requests := [p.request] + rest.requests;
        assert forall i :: 0 < i < |requests| ==> requests[i] == rest.requests[i - 1];
        Outcome(rest.answer, rest.messages, rest.iterations, requests, [p.answer] + rest.answers)
  }

  /** An iteration whose reply asks for tools puts its request and answer in front of
      those of the iterations after it. */
  lemma LoopContinues(step: Step, maxIterations: int, iteration: nat, messages: seq<Message>, handled: nat)
    requires iteration < maxIterations
    requires step(iteration, messages, handled).answer.toolCalls.Some?
    ensures var p := step(iteration, messages, handled);
            var o, rest := Loop(step, maxIterations, iteration, messages, handled),
                           Loop(step, maxIterations, iteration + 1, p.next, p.handled);
              && o.answer == rest.answer
              && o.requests == [p.request] + rest.requests
              && o.answers == [p.answer] + rest.answers
  {
  }

  /** The answers of a run stop at the first one that asks for no tool. */
  predicate StopsAtFirstAnswer(answer: Option<string>, answers: seq<Answer>) {
    && (forall i :: 0 <= i < |answers| - 1 ==> answers[i].toolCalls.Some?)
    && (answer.Some? ==> |answers| > 0 && answers[|answers| - 1].toolCalls.None?
                         && answer.value == answers[|answers| - 1].content)
    && (answer.None? ==> forall i :: 0 <= i < |answers| ==> answers[i].toolCalls.Some?)
  }

  lemma StopsAtFirstAnswerCons(answer: Option<string>, first: Answer, rest: seq<Answer>)
    requires first.toolCalls.Some? && |rest| > 0 && StopsAtFirstAnswer(answer, rest)
    ensures StopsAtFirstAnswer(answer, [first] + rest)
  {
    var all := [first] + rest;
    assert forall i :: 0 < i < |all| ==> all[i] == rest[i - 1];
  }

  /** The loop stops at the first reply that asks for no tool, and answers with its
      content; it runs out of iterations only while every reply asks for tools. */
  lemma {:induction false} LoopStopsAtFirstAnswer(step: Step, maxIterations: int, iteration: nat, messages: seq<Message>, handled: nat)
    ensures var o := Loop(step, maxIterations, iteration, messages, handled);
              StopsAtFirstAnswer(o.answer, o.answers)
    decreases maxIterations - iteration
  {
    if iteration < maxIterations {
      var p := step(iteration, messages, handled);
      if p.answer.toolCalls.Some? {
        LoopStopsAtFirstAnswer(step, maxIterations, iteration + 1, p.next, p.handled);
        LoopContinues(step, maxIterations, iteration, messages, handled);
        var rest := Loop(step, maxIterations, iteration + 1, p.next, p.handled);
        if |rest.answers| > 0 {
          StopsAtFirstAnswerCons(rest.answer, p.answer, rest.answers);
        }
      }
    }
  }

  /** How a step reads the reply to its request in a given iteration. */
  ghost predicate ReadsWith(step: Step, reading: (nat, Request) -> Answer) {
    forall iteration, messages, handled ::
      step(iteration, messages, handled).answer == reading(iteration, step(iteration, messages, handled).request)
  }

  /** The `i`-th answer is the reading of the reply to the `i`-th request, sent in
      iteration `first + i`. */
  predicate AnswersReplies(reading: (nat, Request) -> Answer, first: nat, requests: seq<Request>, answers: seq<Answer>) {
    |requests| == |answers| &&
    forall i :: 0 <= i < |answers| ==> answers[i] == reading(first + i, requests[i])
  }

  lemma AnswersRepliesCons(reading: (nat, Request) -> Answer, first: nat, request: Request, answer: Answer,
                           requests: seq<Request>, answers: seq<Answer>)
    requires answer == reading(first, request) && AnswersReplies(reading, first + 1, requests, answers)
    ensures AnswersReplies(reading, first, [request] + requests, [answer] + answers)
  {
    var rs, ans := [request] + requests, [answer] + answers;
    forall i | 0 < i < |ans| ensures ans[i] == reading(first + i, rs[i]) {
      var j := i - 1;
      assert ans[i] == answers[j] && rs[i] == requests[j];
      assert answers[j] == reading(first + 1 + j, requests[j]);
    }
  }

  /** Each recorded answer is the step's reading of the reply to the request of the same
      iteration. */
  lemma {:induction false} LoopAsksModel(step: Step, reading: (nat, Request) -> Answer, maxIterations: int,
                                         iteration: nat, messages: seq<Message>, handled: nat)
    requires ReadsWith(step, reading)
    ensures var o := Loop(step, maxIterations, iteration, messages, handled);
              AnswersReplies(reading, iteration, o.requests, o.answers)
    decreases maxIterations - iteration
  {
    if iteration < maxIterations {
      var p := step(iteration, messages, handled);
      if p.answer.toolCalls.Some? {
        LoopAsksModel(step, reading, maxIterations, iteration + 1, p.next, p.handled);
        LoopContinues(step, maxIterations, iteration, messages, handled);
        var rest := Loop(step, maxIterations, iteration + 1, p.next, p.handled);
        AnswersRepliesCons(reading, iteration, p.request, p.answer, rest.requests, rest.answers);
      }
    }
  }

  /** The agent's reading of a reply: `complete`. */
  function ReadingOf(a: Agent, env: Env): (nat, Request) -> Answer {
    (iteration: nat, request: Request) => Complete(a.provider, env, iteration, request)
  }

  lemma StepReads(a: Agent, env: Env)
    ensures ReadsWith(StepOf(a, env), ReadingOf(a, env))
  {
    forall iteration, messages, handled
      ensures StepOf(a, env)(iteration, messages, handled).answer
              == ReadingOf(a, env)(iteration, StepOf(a, env)(iteration, messages, handled).request)
    {
      IterateAsksModel(a, env, iteration, messages, handled);
    }
  }

  /** A failed model call ends the run at once, with the apology as the answer. */
  lemma ErrorEndsLoop(a: Agent, env: Env, iteration: nat, messages: seq<Message>, handled: nat)
    requires iteration < a.maxIterations
    requires env.reply(iteration, PrepareRequest(a.provider, a.modelName, messages, GetTools(a))).None?
    ensures var o := Loop(StepOf(a, env), a.maxIterations, iteration, messages, handled);
            o.answer == Some(ErrorApology) && o.iterations == iteration + 1
  {
    var p := Iterate(a, env, iteration, messages, handled);
    assert p.answer == Answer(ErrorApology, None);
  }

  /** The result of `run`: the agent with its new history, and the returned answer. */
  datatype RunResult = RunResult(agent: Agent, answer: string)

  /** The conversation `run` starts from: the provider's system prompt and the input. */
  function Opening(a: Agent, env: Env, input: string): (r: seq<Message>)
    ensures |r| == 2 && r[0].role == SystemRole && r[1] == Plain(UserRole, input)
    ensures Text.StartsWith(r[0].content, a.instructions)
  {
    var prompt := PreparePrompt(a.provider, SystemPrompt(a.instructions, env.now), GetTools(a));
    PromptKeepsInstructions(a.provider, SystemPrompt(a.instructions, env.now), GetTools(a));
    Text.StartsWithTransitive(prompt, SystemPrompt(a.instructions, env.now), a.instructions);
    [Plain(SystemRole, prompt), Plain(UserRole, input)]
  }

  /** `run`: the history is replaced by the whole conversation of this run, plus the
      apology when the iterations ran out; the answer is the model's final content or that
      apology. */
  function Run(a: Agent, env: Env, input: string): (r: RunResult)
    ensures var o := Loop(StepOf(a, env), a.maxIterations, 0, Opening(a, env, input), 0);
              && (o.answer.Some? ==> r.answer == o.answer.value && r.agent.history == o.messages)
              && (o.answer.None? ==> r.answer == ExhaustedApology
                                     && r.agent.history == o.messages + [Plain(AssistantRole, ExhaustedApology)])
    ensures Seqs.Prefix(Opening(a, env, input), r.agent.history)
    ensures r.agent.name == a.name && r.agent.instructions == a.instructions && r.agent.modelName == a.modelName
    ensures r.agent.tools == a.tools && r.agent.maxIterations == a.maxIterations && r.agent.provider == a.provider
  {
    var opening := Opening(a, env, input);
    StepGrows(a, env);
    var o := Loop(StepOf(a, env), a.maxIterations, 0, opening, 0);
    match o.answer
    case Some(answer) => RunResult(a.(history := o.messages), answer)
    case None =>
      var history := o.messages + [Plain(AssistantRole, ExhaustedApology)];
      assert Seqs.Prefix(o.messages, history);
      Seqs.PrefixTransitive(opening, o.messages, history);
      RunResult(a.(history := history), ExhaustedApology)
  }

  /** Without a positive iteration budget the model is never asked: the history is the
      opening conversation and the apology. */
  lemma NoBudgetNoRequest(a: Agent, env: Env, input: string)
    requires a.maxIterations <= 0
    ensures Loop(StepOf(a, env), a.maxIterations, 0, Opening(a, env, input), 0).requests == []
    ensures Run(a, env, input).answer == ExhaustedApology
    ensures Run(a, env, input).agent.history == Opening(a, env, input) + [Plain(AssistantRole, ExhaustedApology)]
  {
  }

  /** The run sends at most `maxIterations` requests, the first with just the opening
      conversation, and each with a prefix of the conversation that ends up in history. */
  lemma RequestsBounded(a: Agent, env: Env, input: string)
    ensures var o := Loop(StepOf(a, env), a.maxIterations, 0, Opening(a, env, input), 0);
              && |o.requests| <= (if a.maxIterations > 0 then a.maxIterations else 0)
              && (a.maxIterations > 0 ==> |o.requests| > 0 && o.requests[0].messages == Opening(a, env, input))
              && forall i :: 0 <= i < |o.requests| ==> Seqs.Prefix(o.requests[i].messages, Run(a, env, input).agent.history)
  {
    StepGrows(a, env);
    var o := Loop(StepOf(a, env), a.maxIterations, 0, Opening(a, env, input), 0);
    var h := Run(a, env, input).agent.history;
    assert Seqs.Prefix(o.messages, h);
    forall i | 0 <= i < |o.requests| ensures Seqs.Prefix(o.requests[i].messages, h) {
      Seqs.PrefixTransitive(o.requests[i].messages, o.messages, h);
    }
  }

  /** Every answer of a run is `complete`'s reading of the model's reply to the request of
      its iteration. */
  lemma RunAsksModel(a: Agent, env: Env, input: string)
    ensures var o := Loop(StepOf(a, env), a.maxIterations, 0, Opening(a, env, input), 0);
            AnswersReplies(ReadingOf(a, env), 0, o.requests, o.answers)
  {
    StepReads(a, env);
    LoopAsksModel(StepOf(a, env), ReadingOf(a, env), a.maxIterations, 0, Opening(a, env, input), 0);
  }
}

=== FILE: agent_types.dfy ===
/** The records shared by every agent loop: the run status and the parsed model action. */
module AgentTypes {
  import opened Wrappers

  /** `StatusEnum`: the life cycle of one agent run. */
  datatype Status = Running | End | Init | MaxLoop | Error

  /** The optional inputs of a parsed action. Coordinates arrive either as box strings
      (`start_box`, `end_box`) or, for the browser operator, as numbers (`start_coords`). */
  datatype ActionInputs = ActionInputs(
    content: Option<string>,
    startBox: Option<string>,
    endBox: Option<string>,
    key: Option<string>,
    hotkey: Option<string>,
    direction: Option<string>,
    url: Option<string>,
    startCoords: Option<seq<real>>)

  /** One action parsed from the model's text: `action_type(action_inputs)` together with
      the `Thought:` and `Reflection:` parts. The parser itself is not part of this model. */
  datatype PredictionParsed = PredictionParsed(
    actionInputs: ActionInputs,
    reflection: Option<string>,
    actionType: string,
    thought: string)

  function NoInputs(): ActionInputs {
    ActionInputs(None, None, None, None, None, None, None, None)
  }

  /** JavaScript truthiness of an optional string: present and non-empty. */
  predicate Truthy(s: Option<string>) {
    s.Some? && |s.value| > 0
  }

  /** `a || b` on optional strings. */
  function OrElse(a: Option<string>, b: Option<string>): (r: Option<string>)
    ensures Truthy(r) <==> Truthy(a) || Truthy(b)
    ensures Truthy(a) ==> r == a
  {
    if Truthy(a) then a else b
  }

  /** An optional string inside a template literal: absent renders as `undefined`. */
  function Rendered(s: Option<string>): string {
    match s
    case Some(v) => v
    case None => "undefined"
  }
}

=== FILE: browser_gui_agent.dfy ===
/** The browser agent built on the SDK agent (`BrowserGUIAgent` of the browser-gui-agent
    package): option validation, the choice of model adapter and coordinate factors,
    the operation steps recorded from the operator's callbacks, the plugin hooks those
    callbacks fire, the status guards of `run` and `abort`, and the request `summary`
    builds from the steps. Launching the browser, the SDK agent's run and the network
    calls are parameters: what they report back is an input. */
module BrowserGUIAgent {
  import opened Wrappers
  import opened AgentTypes
  import Text
  import OrderedMap
  import PluginManager
  import Session

  /** `ModelConfig`: where a model is served and which one; any field may be missing. */
  datatype ModelConfig = ModelConfig(baseURL: Option<string>, apiKey: Option<string>, model: Option<string>)

  /** `BrowserGUIAgentOptions`, without the logger, the signal and the presets (whose
      bodies are commented out, so they change nothing). */
  datatype Options = Options(
    model: Option<ModelConfig>,
    summaryModel: Option<ModelConfig>,
    plugins: Option<seq<PluginManager.Plugin>>,
    extractionConcurrency: Option<int>,
    hasExtractionProvider: bool)

  /** What the extraction provider found on the page of a screenshot, with the page URL. */
  datatype Extracted = Extracted(content: string, url: string)

  /** An operation step: the screenshot, the thought of the action taken on it, and the
      extraction (the awaited value of the queued promise). */
  datatype Step = Step(screenshot: string, thought: Option<string>, extraction: Option<Extracted>)

  datatype Agent = Agent(
    baseURL: string,
    apiKey: string,
    modelName: string,
    summaryModel: Option<ModelConfig>,
    plugins: PluginManager.Manager,
    concurrency: int,
    hasExtractionProvider: bool,
    status: Status,
    instruction: string,
    steps: seq<Step>)

  const InvalidModelMessage: string :=
    "Invalid model configuration. Please provide baseURL, apiKey and model, or use a valid preset."
  const SummaryMissingMessage: string := "Summary model not configured"
  const DefaultConcurrency: int := 100

  /** The constructor's check: a model config with truthy `baseURL`, `apiKey` and `model`. */
  predicate ValidModel(model: Option<ModelConfig>) {
    model.Some? && Truthy(model.value.baseURL) && Truthy(model.value.apiKey) && Truthy(model.value.model)
  }

  /** A summary client is created only for a config with truthy `apiKey` and `baseURL`. */
  predicate SummaryConfigured(summaryModel: Option<ModelConfig>) {
    summaryModel.Some? && Truthy(summaryModel.value.apiKey) && Truthy(summaryModel.value.baseURL)
  }

  /** `new BrowserGUIAgent(options)`: the model config is validated first; then the
      plugins are registered in order, the summary client is set up when configured, and
      the extraction queue gets `extractionConcurrency ?? 100` slots. */
  function Create(options: Options): (r: Result<Agent, string>)
    ensures r.Failure? <==> !ValidModel(options.model)
    ensures r.Failure? ==> r.error == InvalidModelMessage
    ensures r.Success? ==>
              var a, m := r.value, options.model.value;
              && a.baseURL == m.baseURL.value && a.apiKey == m.apiKey.value && a.modelName == m.model.value
              && (a.summaryModel.Some? <==> SummaryConfigured(options.summaryModel))
              && (a.summaryModel.Some? ==> a.summaryModel == options.summaryModel)
              && a.concurrency == options.extractionConcurrency.GetOr(DefaultConcurrency)
              && a.hasExtractionProvider == options.hasExtractionProvider
              && a.status == Init && a.instruction == "" && a.steps == []
              && OrderedMap.Distinct(a.plugins) && PluginManager.WellKeyed(a.plugins)
              && forall k :: OrderedMap.Get(a.plugins, k) ==
                               OrderedMap.LastKeyed(options.plugins.GetOr([]), PluginManager.PluginName, k)
  {
    if !ValidModel(options.model) then Failure(InvalidModelMessage)
    else
      var m := options.model.value;
      var plugins := PluginManager.RegisterAll(OrderedMap.Empty(), options.plugins.GetOr([]));
      var summary := if SummaryConfigured(options.summaryModel) then options.summaryModel else None;
      Success(Agent(m.baseURL.value, m.apiKey.value, m.model.value, summary, plugins,
                    options.extractionConcurrency.GetOr(DefaultConcurrency),
                    options.hasExtractionProvider, Init, "", []))
  }

  /** Coordinate factors: the Claude screen size for Claude models, otherwise the
      thousandths UI-TARS predicts in. */
  function Factors(modelName: string): (r: (int, int))
    ensures Text.Contains(modelName, "claude") ==> r == (1366, 768)
    ensures !Text.Contains(modelName, "claude") ==> r == (1000, 1000)
  {
    if Text.Contains(modelName, "claude") then (1366, 768) else (1000, 1000)
  }

  /** The model handed to the SDK agent: an `AzureOpenAIModel` for `aws…` deployments, or
      the configuration itself. */
  datatype ModelChoice =
    | AzureModel(endpoint: string, apiKey: string, apiVersion: string, model: string,
                 maxTokens: int, factors: (int, int))
    | ConfiguredModel(config: ModelConfig)

  function ChooseModel(a: Agent): (r: ModelChoice)
    ensures r.AzureModel? <==> Text.StartsWith(a.modelName, "aws")
    ensures r.AzureModel? ==>
              r == AzureModel(a.baseURL, a.apiKey, "claude", a.modelName, 1000, Factors(a.modelName))
    ensures r.ConfiguredModel? ==>
              r.config == ModelConfig(Some(a.baseURL), Some(a.apiKey), Some(a.modelName))
  {
    if Text.StartsWith(a.modelName, "aws") then
      AzureModel(a.baseURL, a.apiKey, "claude", a.modelName, 1000, Factors(a.modelName))
    else ConfiguredModel(ModelConfig(Some(a.baseURL), Some(a.apiKey), Some(a.modelName)))
  }

  /** The screen size the agent assumes: an `aws…` deployment gets the Azure adapter,
      with the Claude screen size exactly when its name mentions `claude`; any other
      model is handed over as configured, and the factors play no part. */
  lemma AzureAdapterScreenSize(a: Agent)
    ensures Text.StartsWith(a.modelName, "aws") && Text.Contains(a.modelName, "claude") ==>
              ChooseModel(a) == AzureModel(a.baseURL, a.apiKey, "claude", a.modelName, 1000, (1366, 768))
    ensures Text.StartsWith(a.modelName, "aws") && !Text.Contains(a.modelName, "claude") ==>
              ChooseModel(a) == AzureModel(a.baseURL, a.apiKey, "claude", a.modelName, 1000, (1000, 1000))
    ensures !Text.StartsWith(a.modelName, "aws") ==>
              ChooseModel(a) == ConfiguredModel(ModelConfig(Some(a.baseURL), Some(a.apiKey), Some(a.modelName)))
  {
  }

  /** What `prepare` reaches: the `init` calls of the plugins and the model adapter. */
  datatype Prepared = Prepared(agent: Agent, initCalls: seq<PluginManager.Invocation<()>>, model: ModelChoice)

  /** `prepare()`: launch the browser and open the start page (their failure is an
      input), initialise the plugins in order, then choose the model. A failure sets
      END and is rethrown. */
  function Prepare(a: Agent, launchError: Option<string>): (r: Result<Prepared, (Agent, string)>)
    ensures launchError.Some? ==> r == Failure((a.(status := End), launchError.value))
    ensures launchError.None? ==>
              && r.Success? && r.value.agent == a && r.value.model == ChooseModel(a)
              && r.value.initCalls == PluginManager.Dispatch(OrderedMap.Values(a.plugins), PluginManager.InitMethod, ())
  {
    match launchError
    case Some(e) => Failure((a.(status := End), e))
    case None =>
      Success(Prepared(a, PluginManager.Dispatch(OrderedMap.Values(a.plugins), PluginManager.InitMethod, ()),
                       ChooseModel(a)))
  }

  /** The screenshot the browser operator hands to `onScreenshot`: the image and the
      device scale factor it was taken at. */
  datatype ScreenshotOutput = ScreenshotOutput(base64: string, scaleFactor: real)

  /** The arguments the agent's callbacks pass to `callHook`. */
  datatype HookArgs =
    | ScreenshotArg(screenshot: ScreenshotOutput)
    | AgentDataArg(data: Session.Data)
    | ActionArg(prediction: PredictionParsed)

  datatype Callback = Callback(agent: Agent, hookCalls: seq<PluginManager.Invocation<HookArgs>>)

  /** The operator's `onScreenshot`: one new step holding the screenshot, its extraction
      when a provider is set and `extract` resolved (a rejection is ignored), then the
      `onScreenshot` hook, which receives the whole screenshot. */
  function OnScreenshot(a: Agent, shot: ScreenshotOutput, extract: Result<string, string>, url: string): (r: Callback)
    ensures r.agent == a.(steps := r.agent.steps)
    ensures |r.agent.steps| == |a.steps| + 1 && r.agent.steps[..|a.steps|] == a.steps
    ensures var s := r.agent.steps[|a.steps|];
              && s.screenshot == shot.base64 && s.thought.None?
              && (s.extraction.Some? <==> a.hasExtractionProvider && extract.Success?)
              && (s.extraction.Some? ==> s.extraction.value == Extracted(extract.value, url))
    ensures r.hookCalls ==
              PluginManager.Dispatch(OrderedMap.Values(a.plugins), PluginManager.HookMethod(PluginManager.OnScreenshot), ScreenshotArg(shot))
  {
    var extraction := if a.hasExtractionProvider && extract.Success? then Some(Extracted(extract.value, url)) else None;
    var steps := a.steps + [Step(shot.base64, None, extraction)];
    assert steps[..|a.steps|] == a.steps;
    Callback(a.(steps := steps),
             PluginManager.Dispatch(OrderedMap.Values(a.plugins), PluginManager.HookMethod(PluginManager.OnScreenshot), ScreenshotArg(shot)))
  }

  /** The operator's `onOperatorAction`: the action's thought goes on the last step, if
      there is one, then the `onOperatorAction` hook. */
  function OnOperatorAction(a: Agent, p: PredictionParsed): (r: Callback)
    ensures r.agent == a.(steps := r.agent.steps)
    ensures |r.agent.steps| == |a.steps|
    ensures |a.steps| > 0 ==>
              && r.agent.steps[..|a.steps| - 1] == a.steps[..|a.steps| - 1]
              && r.agent.steps[|a.steps| - 1] == a.steps[|a.steps| - 1].(thought := Some(p.thought))
    ensures r.hookCalls ==
              PluginManager.Dispatch(OrderedMap.Values(a.plugins), PluginManager.HookMethod(PluginManager.OnOperatorAction), ActionArg(p))
  {
    var steps := if |a.steps| > 0 then a.steps[|a.steps| - 1 := a.steps[|a.steps| - 1].(thought := Some(p.thought))] else a.steps;
    Callback(a.(steps := steps),
             PluginManager.Dispatch(OrderedMap.Values(a.plugins), PluginManager.HookMethod(PluginManager.OnOperatorAction), ActionArg(p)))
  }

  /** The SDK agent's `onData`: the agent takes over the reported status and passes the
      data to the `onAgentData` hook. */
  function OnAgentData(a: Agent, data: Session.Data): (r: Callback)
    ensures r.agent == a.(status := data.status)
    ensures r.hookCalls ==
              PluginManager.Dispatch(OrderedMap.Values(a.plugins), PluginManager.HookMethod(PluginManager.OnAgentData), AgentDataArg(data))
  {
    Callback(a.(status := data.status),
             PluginManager.Dispatch(OrderedMap.Values(a.plugins), PluginManager.HookMethod(PluginManager.OnAgentData), AgentDataArg(data)))
  }

  /** The SDK agent's `onError`: the status becomes END. */
  function OnError(a: Agent): (r: Agent)
    ensures r == a.(status := End)
  {
    a.(status := End)
  }

  /** A screenshot followed by the action taken on it: one new step, carrying both the
      screenshot and the action's thought. */
  lemma ScreenshotThenAction(a: Agent, shot: ScreenshotOutput, extract: Result<string, string>, url: string, p: PredictionParsed)
    ensures var a1 := OnScreenshot(a, shot, extract, url).agent;
            var a2 := OnOperatorAction(a1, p).agent;
              && |a2.steps| == |a.steps| + 1 && a2.steps[..|a.steps|] == a.steps
              && a2.steps[|a.steps|].screenshot == shot.base64 && a2.steps[|a.steps|].thought == Some(p.thought)
  {
    var a1 := OnScreenshot(a, shot, extract, url).agent;
    var a2 := OnOperatorAction(a1, p).agent;
    assert a2.steps[..|a.steps|] == a1.steps[..|a1.steps| - 1][..|a.steps|];
  }

  /** What the SDK agent's run leaves behind through the callbacks: the steps, the last
      status reported, and the error it threw, if any. */
  datatype Delegated = Delegated(steps: seq<Step>, status: Status, error: Option<string>)

  datatype RunResult = RunResult(agent: Agent, outcome: Result<seq<Step>, string>)

  /** The state `run` hands to the SDK agent: the task as instruction, no steps, RUNNING. */
  function Fresh(a: Agent, task: string): (r: Agent)
    ensures r.instruction == task && r.steps == [] && r.status == Running
    ensures r == a.(instruction := task, steps := [], status := Running)
  {
    a.(instruction := task, steps := [], status := Running)
  }

  /** `run(task)`: start fresh, delegate to the SDK agent, and return the steps; a thrown
      error sets END and is rethrown. */
  function Run(a: Agent, task: string, delegate: Agent -> Delegated): (r: RunResult)
    ensures var d := delegate(Fresh(a, task));
              && r.agent == Fresh(a, task).(steps := d.steps, status := r.agent.status)
              && (d.error.Some? ==> r.agent.status == End && r.outcome == Failure(d.error.value))
              && (d.error.None? ==> r.agent.status == d.status && r.outcome == Success(d.steps))
  {
    var d := delegate(Fresh(a, task));
    var a1 := Fresh(a, task).(steps := d.steps, status := d.status);
    match d.error
    case Some(e) => RunResult(a1.(status := End), Failure(e))
    case None => RunResult(a1, Success(d.steps))
  }

  /** Steps and status from an earlier run never leak into the next one. */
  lemma RunForgetsEarlierRuns(a: Agent, b: Agent, task: string, delegate: Agent -> Delegated)
    requires a.(steps := b.steps, status := b.status, instruction := b.instruction) == b
    ensures Run(a, task, delegate) == Run(b, task, delegate)
  {
    assert Fresh(a, task) == Fresh(b, task);
  }

  datatype Closed = Closed(agent: Agent, cleanupCalls: seq<PluginManager.Invocation<()>>, error: Option<string>)

  /** `close()`: the plugins' `cleanup` in order, then the browser (its failure is an
      input); END only once both are done. */
  function Close(a: Agent, browserError: Option<string>): (r: Closed)
    ensures r.cleanupCalls == PluginManager.Dispatch(OrderedMap.Values(a.plugins), PluginManager.CleanupMethod, ())
    ensures r.error == browserError
    ensures r.agent == if browserError.None? then a.(status := End) else a
  {
    var calls := PluginManager.Dispatch(OrderedMap.Values(a.plugins), PluginManager.CleanupMethod, ());
    Closed(if browserError.None? then a.(status := End) else a, calls, browserError)
  }

  /** `abort()`: only a RUNNING agent is stopped; it is marked END before closing, so it
      is END even when closing fails. */
  function Abort(a: Agent, browserError: Option<string>): (r: Closed)
    ensures a.status != Running ==> r == Closed(a, [], None)
    ensures a.status == Running ==>
              && r.agent == a.(status := End) && r.error == browserError
              && r.cleanupCalls == PluginManager.Dispatch(OrderedMap.Values(a.plugins), PluginManager.CleanupMethod, ())
  {
    if a.status == Running then Close(a.(status := End), browserError) else Closed(a, [], None)
  }

  /** The fixed system prompt of the summary request. */
  const SummarySystemPrompt: string :=
    "Summarize the key information from the operation steps, Especially highlight the final information that summarizes which users will pay attention to."

  /** The chat request `summary` sends: the summary model, the fixed system prompt, the
      steps as user content, and the streaming flag. */
  datatype SummaryRequest = SummaryRequest(model: Option<string>, system: string, user: string, stream: Option<bool>)

  /** The heading of the block for the step at `index`: the language, the task, and the
      step's number counted from 1. */
  function BlockHeading(instruction: string, index: nat): string {
    "\nLanguage: Chinese\nUser intent: " + instruction + "\n" + StepLabel(index)
  }

  function StepLabel(index: nat): string {
    "Step " + Text.NatToString(index + 1) + ":\n"
  }

  function ThoughtLine(step: Step): string {
    if Truthy(step.thought) then "Thought: " + step.thought.value else ""
  }

  function InfoLine(step: Step): string {
    if step.extraction.Some? && |step.extraction.value.content| > 0
    then "Extracted Info: " + step.extraction.value.content else ""
  }

  /** The text for one step. */
  function StepBlock(instruction: string, step: Step, index: nat): string {
    BlockHeading(instruction, index) + ThoughtLine(step) + "\n" + InfoLine(step) + "\n"
  }

  function StepBlocks(instruction: string, steps: seq<Step>): (r: seq<string>)
    ensures |r| == |steps|
    ensures forall i :: 0 <= i < |steps| ==> r[i] == StepBlock(instruction, steps[i], i)
  {
    seq(|steps|, i requires 0 <= i < |steps| => StepBlock(instruction, steps[i], i))
  }

  /** `summary(steps, options)`: refused without a summary client; otherwise one block
      per step, joined by newlines. The reply and its streaming are not modelled. */
  function Summary(a: Agent, steps: seq<Step>, stream: Option<bool>): (r: Result<SummaryRequest, string>)
    ensures a.summaryModel.None? ==> r == Failure(SummaryMissingMessage)
    ensures a.summaryModel.Some? ==>
              && r.Success? && r.value.model == a.summaryModel.value.model
              && r.value.system == SummarySystemPrompt && r.value.stream == stream
              && r.value.user == Text.Join(StepBlocks(a.instruction, steps), "\n")
  {
    match a.summaryModel
    case None => Failure(SummaryMissingMessage)
    case Some(m) =>
      Success(SummaryRequest(m.model, SummarySystemPrompt, Text.Join(StepBlocks(a.instruction, steps), "\n"), stream))
  }

  /** A step's block holds its number, its thought when truthy, and its extracted
      content when non-empty. */
  lemma BlockCoversStep(instruction: string, step: Step, i: nat)
    ensures var block := StepBlock(instruction, step, i);
              && Text.Contains(block, StepLabel(i))
              && (Truthy(step.thought) ==> Text.Contains(block, "Thought: " + step.thought.value))
              && (step.extraction.Some? && |step.extraction.value.content| > 0 ==>
                    Text.Contains(block, "Extracted Info: " + step.extraction.value.content))
  {
    var lead := "\nLanguage: Chinese\nUser intent: " + instruction + "\n";
    var thought, info := ThoughtLine(step), InfoLine(step);
    var block := StepBlock(instruction, step, i);
    assert block == lead + StepLabel(i) + (thought + "\n" + info + "\n");
    Text.ContainsMiddle(lead, StepLabel(i), thought + "\n" + info + "\n");
    assert block == BlockHeading(instruction, i) + thought + ("\n" + info + "\n");
    Text.ContainsMiddle(BlockHeading(instruction, i), thought, "\n" + info + "\n");
    assert block == (BlockHeading(instruction, i) + thought + "\n") + info + "\n";
    Text.ContainsMiddle(BlockHeading(instruction, i) + thought + "\n", info, "\n");
  }

  /** The summary request numbers every step from 1 and carries its thought and its
      extracted content whenever they are non-empty. */
  lemma SummaryCoversEveryStep(a: Agent, steps: seq<Step>, stream: Option<bool>, i: nat)
    requires a.summaryModel.Some? && i < |steps|
    ensures var user := Summary(a, steps, stream).value.user;
              && Text.Contains(user, StepLabel(i))
              && (Truthy(steps[i].thought) ==> Text.Contains(user, "Thought: " + steps[i].thought.value))
              && (steps[i].extraction.Some? && |steps[i].extraction.value.content| > 0 ==>
                    Text.Contains(user, "Extracted Info: " + steps[i].extraction.value.content))
  {
    var blocks := StepBlocks(a.instruction, steps);
    var user := Text.Join(blocks, "\n");
    var block := blocks[i];
    Text.JoinedPartContained([], blocks, "\n", [], i);
    assert [] + user + [] == user;
    BlockCoversStep(a.instruction, steps[i], i);
    Text.ContainsTransitive(user, block, StepLabel(i));
    if Truthy(steps[i].thought) {
      Text.ContainsTransitive(user, block, "Thought: " + steps[i].thought.value);
    }
    if steps[i].extraction.Some? && |steps[i].extraction.value.content| > 0 {
      Text.ContainsTransitive(user, block, "Extracted Info: " + steps[i].extraction.value.content);
    }
  }

  /** Distinct steps carry distinct numbers. */
  lemma StepLabelsDistinct(i: nat, j: nat)
    requires i != j
    ensures StepLabel(i) != StepLabel(j)
  {
    var a, b := Text.NatToString(i + 1), Text.NatToString(j + 1);
    if StepLabel(i) == StepLabel(j) {
      assert StepLabel(i) == "Step " + a + ":\n" && StepLabel(j) == "Step " + b + ":\n";
      assert |a| == |b|;
      assert a == StepLabel(i)[5..5 + |a|] && b == StepLabel(j)[5..5 + |b|];
      Text.NatToStringInjective(i + 1, j + 1);
    }
  }
}

=== FILE: browser_operator.dfy ===
/** The puppeteer-backed operator of the experimental browser agent (`BrowserOperator`):
    how a parsed action becomes mouse, keyboard and navigation primitives. The page is
    abstracted into the sequence of primitives requested from it; delays, highlighting
    scripts and the wait for a navigation after Enter are not part of the model. */
module BrowserOperator {
  import opened Wrappers
  import opened AgentTypes
  import Text
  import Keystrokes

  datatype MouseButton = LeftButton | RightButton

  /** One primitive requested from the page, or one effect visible to the outside. */
  datatype Event =
    | OperatorAction(prediction: PredictionParsed)
    | Goto(url: Option<string>)
    | MouseMove(x: real, y: real)
    | MouseClick(x: real, y: real, button: MouseButton, clickCount: nat)
    | KeyboardType(text: string)
    | KeyPress(key: string)
    | KeyDown(key: string)
    | KeyUp(key: string)
    | Wheel(deltaY: int)
    | Warn(message: string)

  /** What `execute` did, and the message of the error it rejected with, if any. */
  datatype Outcome = Outcome(events: seq<Event>, error: Option<string>)

  /** The `onOperatorAction` option: not installed, installed, or installed and throwing. */
  datatype Hook = NoHook | HookReturns | HookThrows(message: string)

  const ScrollAmount: int := 500

  /** `KEY_MAPPINGS`: lower-case names to puppeteer key names. */
  function KeyMapping(name: string): (r: Option<string>)
    ensures r.Some? ==> |r.value| > 0
  {
    match name
    case "enter" => Some("Enter")
    case "tab" => Some("Tab")
    case "escape" => Some("Escape")
    case "up" => Some("ArrowUp")
    case "down" => Some("ArrowDown")
    case "left" => Some("ArrowLeft")
    case "right" => Some("ArrowRight")
    case "backspace" => Some("Backspace")
    case "delete" => Some("Delete")
    case _ => None
  }

  /** Every entry of the table is reachable: its name, typed as a hotkey token, is
      normalised to the entry's key. */
  lemma EveryKeyMappingReachable(name: string)
    requires KeyMapping(name).Some?
    ensures NormalizeKey(name) == KeyMapping(name).value
  {
    forall k | 0 <= k < |name| ensures Text.LowerChar(name[k]) == name[k] {
    }
    assert Text.ToLower(name) == name;
  }

  /** `normalizeKey`: the mapped name of the lower-cased token, else the token unchanged. */
  function NormalizeKey(key: string): (r: string)
    ensures KeyMapping(Text.ToLower(key)).Some? ==> r == KeyMapping(Text.ToLower(key)).value
    ensures KeyMapping(Text.ToLower(key)).None? ==> r == key
  {
    match KeyMapping(Text.ToLower(key))
    case Some(k) => k
    case None => key
  }

  /** The tokens of a hotkey string, each normalised. */
  function HotkeyKeys(keyStr: string): (r: seq<string>)
    ensures |r| == Text.CountWhere(keyStr, Keystrokes.IsHotkeySeparator) + 1
    ensures forall i :: 0 <= i < |r| ==> r[i] == NormalizeKey(Keystrokes.Tokens(keyStr)[i])
  {
    var tokens := Keystrokes.Tokens(keyStr);
    seq(|tokens|, i requires 0 <= i < |tokens| => NormalizeKey(tokens[i]))
  }

  function Downs(keys: seq<string>): (r: seq<Event>)
    ensures |r| == |keys| && forall i :: 0 <= i < |keys| ==> r[i] == KeyDown(keys[i])
  {
    seq(|keys|, i requires 0 <= i < |keys| => KeyDown(keys[i]))
  }

  /** Key releases for `keys.reverse()`. */
  function UpsReversed(keys: seq<string>): (r: seq<Event>)
    ensures |r| == |keys| && forall i :: 0 <= i < |keys| ==> r[i] == KeyUp(keys[|keys| - 1 - i])
  {
    seq(|keys|, i requires 0 <= i < |keys| => KeyUp(keys[|keys| - 1 - i]))
  }

  /** `handleHotkey`: `key`, else `hotkey`; every key goes down in order, then up in
      reverse order. */
  function HandleHotkey(inputs: ActionInputs): (r: seq<Event>)
    ensures !Truthy(inputs.key) && !Truthy(inputs.hotkey) ==> r == [Warn("No hotkey specified")]
    ensures Truthy(OrElse(inputs.key, inputs.hotkey)) ==>
              var keys := HotkeyKeys(OrElse(inputs.key, inputs.hotkey).value);
              r == Downs(keys) + UpsReversed(keys)
  {
    var keyStr := OrElse(inputs.key, inputs.hotkey);
    if !Truthy(keyStr) then [Warn("No hotkey specified")]
    else
      var keys := HotkeyKeys(keyStr.value);
      Downs(keys) + UpsReversed(keys)
  }

  /** The second half of `r` releases, last first, the keys the first half pressed. */
  predicate Mirrors(r: seq<Event>) {
    var n := |r| / 2; var downs, ups := r[..n], r[n..];
    && |r| % 2 == 0
    && (forall i :: 0 <= i < |downs| ==> downs[i].KeyDown?)
    && |ups| == |downs|
    && (forall i :: 0 <= i < |ups| ==> ups[i] == KeyUp(downs[|downs| - 1 - i].key))
  }

  /** Every key pressed by a hotkey is released, the last pressed first: the second half
      of the events mirrors the first. */
  lemma HotkeyReleasesInReverse(inputs: ActionInputs)
    requires Truthy(OrElse(inputs.key, inputs.hotkey))
    ensures Mirrors(HandleHotkey(inputs))
  {
    var keys := HotkeyKeys(OrElse(inputs.key, inputs.hotkey).value);
    Mirrored(keys, HandleHotkey(inputs));
  }

  lemma Mirrored(keys: seq<string>, r: seq<Event>)
    requires r == Downs(keys) + UpsReversed(keys)
    ensures Mirrors(r)
  {
    var d, u := Downs(keys), UpsReversed(keys);
    assert |r| / 2 == |keys|;
    assert r[..|keys|] == d;
    assert r[|keys|..] == u;
  }

  /** A hotkey written with `+` only and no mapped names is pressed exactly as written:
      joining the pressed keys with `+` gives back the hotkey string. */
  lemma {:induction false} PlusHotkeyRoundTrip(keyStr: string)
    requires forall k :: 0 <= k < |keyStr| ==> !Text.IsSpace(keyStr[k])
    requires forall t :: t in Keystrokes.Tokens(keyStr) ==> KeyMapping(Text.ToLower(t)).None?
    ensures Text.Join(HotkeyKeys(keyStr), "+") == keyStr
  {
    var tokens := Keystrokes.Tokens(keyStr);
    assert HotkeyKeys(keyStr) == tokens by {
      forall i | 0 <= i < |tokens| ensures HotkeyKeys(keyStr)[i] == tokens[i] {
        assert tokens[i] in tokens;
      }
    }
    Text.SplitJoinRoundTrip(keyStr, Keystrokes.IsHotkeySeparator, '+');
  }

  /** `handleType`: a warning when there is nothing to type; otherwise the text the shared
      typing rule gives, followed by Enter exactly when the rule asks for it. */
  function HandleType(inputs: ActionInputs): (r: seq<Event>)
    ensures Keystrokes.TypingOf(inputs.content).None? ==> r == [Warn("No content to type")]
    ensures Keystrokes.TypingOf(inputs.content).Some? ==>
              var t := Keystrokes.TypingOf(inputs.content).value;
              r == [KeyboardType(t.text)] + (if t.enter then [KeyPress("Enter")] else [])
  {
    if inputs.content.None? then [Warn("No content to type")]
    else
      var content := Text.Trim(inputs.content.value);
      if |content| == 0 then [Warn("No content to type")]
      else [KeyboardType(Keystrokes.StripNewline(content))] + (if Keystrokes.WantsEnter(content) then [KeyPress("Enter")] else [])
  }

  /** `direction?.toLowerCase()` against `up` and `down`. */
  function HandleScroll(inputs: ActionInputs): (r: seq<Event>)
    ensures inputs.direction.Some? && Text.ToLower(inputs.direction.value) == "up" ==> r == [Wheel(-ScrollAmount)]
    ensures inputs.direction.Some? && Text.ToLower(inputs.direction.value) == "down" ==> r == [Wheel(ScrollAmount)]
    ensures !(inputs.direction.Some? && Text.ToLower(inputs.direction.value) in ["up", "down"]) ==>
              r == [Warn("Unsupported scroll direction: " + Rendered(inputs.direction))]
  {
    match inputs.direction
    case Some(d) =>
      var lower := Text.ToLower(d);
      if lower == "up" then [Wheel(-ScrollAmount)]
      else if lower == "down" then [Wheel(ScrollAmount)]
      else [Warn("Unsupported scroll direction: " + d)]
    case None => [Warn("Unsupported scroll direction: " + Rendered(None))]
  }

  /** `start_coords[i]`, if present. */
  function Coordinate(inputs: ActionInputs, i: nat): Option<real> {
    match inputs.startCoords
    case Some(cs) => if i < |cs| then Some(cs[i]) else None
    case None => None
  }

  /** `startX && startY`: both present and non-zero. */
  predicate HasClickPoint(inputs: ActionInputs) {
    && Coordinate(inputs, 0).Some? && Coordinate(inputs, 0).value != 0.0
    && Coordinate(inputs, 1).Some? && Coordinate(inputs, 1).value != 0.0
  }

  /** The clicks of the click family, by action type, with the message thrown when the
      point is missing. */
  function ClickKind(actionType: string): Option<(MouseButton, nat, string)> {
    match actionType
    case "click" => Some((LeftButton, 1, "Missing click coordinates"))
    case "left_click" => Some((LeftButton, 1, "Missing click coordinates"))
    case "left_single" => Some((LeftButton, 1, "Missing click coordinates"))
    case "double_click" => Some((LeftButton, 2, "Missing double-click coordinates"))
    case "left_double" => Some((LeftButton, 2, "Missing double-click coordinates"))
    case "right_click" => Some((RightButton, 1, "Missing right-click coordinates"))
    case _ => None
  }

  /** The primitives for one action once the page has been found, or the error thrown. */
  function Dispatch(p: PredictionParsed): (r: Result<seq<Event>, string>)
    ensures ClickKind(p.actionType).Some? && !HasClickPoint(p.actionInputs) ==>
              r == Failure(ClickKind(p.actionType).value.2)
    ensures ClickKind(p.actionType).Some? && HasClickPoint(p.actionInputs) ==>
              var x, y := Coordinate(p.actionInputs, 0).value, Coordinate(p.actionInputs, 1).value;
              var (button, count, _) := ClickKind(p.actionType).value;
              r == Success([MouseMove(x, y), MouseClick(x, y, button, count)])
    ensures ClickKind(p.actionType).None? ==> r.Success?
  {
    match ClickKind(p.actionType)
    case Some((button, count, missing)) =>
      if HasClickPoint(p.actionInputs) then
        var x, y := Coordinate(p.actionInputs, 0).value, Coordinate(p.actionInputs, 1).value;
        Success([MouseMove(x, y), MouseClick(x, y, button, count)])
      else Failure(missing)
    case None => Success(Primitives(p))
  }

  /** The actions outside the click family, which never throw. */
  function Primitives(p: PredictionParsed): seq<Event> {
    match p.actionType
    case "navigate" => [Goto(p.actionInputs.url)]
    case "type" => HandleType(p.actionInputs)
    case "hotkey" => HandleHotkey(p.actionInputs)
    case "scroll" => HandleScroll(p.actionInputs)
    case "wait" => []
    case _ => [Warn("Unsupported action: " + p.actionType)]
  }

  /** `execute(parsedPrediction, …)`: the hook first, then the page lookup, then the
      dispatch. The screen size arguments are not used by this operator. */
  function Execute(p: PredictionParsed, hook: Hook, pageFound: bool): (r: Outcome)
    // the hook sees the action once, before anything reaches the page
    ensures hook != NoHook ==> |r.events| >= 1 && r.events[0] == OperatorAction(p)
    ensures forall i :: 0 < i < |r.events| ==> !r.events[i].OperatorAction?
    ensures hook == NoHook ==> forall i :: 0 <= i < |r.events| ==> !r.events[i].OperatorAction?
    ensures hook.HookThrows? ==> r == Outcome([OperatorAction(p)], Some(hook.message))
    ensures !hook.HookThrows? && !pageFound ==> r.error == Some("No active page found")
    ensures !hook.HookThrows? && pageFound ==>
              r.error == (if Dispatch(p).Failure? then Some(Dispatch(p).error) else None)
  {
    var before := if hook == NoHook then [] else [OperatorAction(p)];
    if hook.HookThrows? then Outcome(before, Some(hook.message))
    else if !pageFound then Outcome(before, Some("No active page found"))
    else match Dispatch(p)
      case Failure(msg) => Outcome(before, Some(msg))
      case Success(events) =>
        NoHookEventsInDispatch(p);
        Outcome(before + events, None)
  }

  /** No primitive of a dispatch is an `onOperatorAction` call. */
  predicate PageOnly(events: seq<Event>) {
    forall i :: 0 <= i < |events| ==> !events[i].OperatorAction?
  }

  lemma NoHookEventsInDispatch(p: PredictionParsed)
    ensures Dispatch(p).Success? ==> PageOnly(Dispatch(p).value)
  {
    if ClickKind(p.actionType).None? {
      PrimitivesPageOnly(p);
    }
  }

  lemma PrimitivesPageOnly(p: PredictionParsed)
    ensures PageOnly(Primitives(p))
  {
    match p.actionType
    case "type" => TypePageOnly(p.actionInputs);
    case "hotkey" => HotkeyPageOnly(p.actionInputs);
    case "scroll" => ScrollPageOnly(p.actionInputs);
    case _ =>
  }

  lemma TypePageOnly(inputs: ActionInputs)
    ensures PageOnly(HandleType(inputs))
  {
    var typing := Keystrokes.TypingOf(inputs.content);
    if typing.Some? {
      TypedPageOnly(typing.value.text, typing.value.enter, HandleType(inputs));
    }
  }

  lemma TypedPageOnly(text: string, enter: bool, r: seq<Event>)
    requires r == [KeyboardType(text)] + (if enter then [KeyPress("Enter")] else [])
    ensures PageOnly(r)
  {
  }

  lemma ScrollPageOnly(inputs: ActionInputs)
    ensures PageOnly(HandleScroll(inputs))
  {
  }

  lemma HotkeyPageOnly(inputs: ActionInputs)
    ensures PageOnly(HandleHotkey(inputs))
  {
    var keyStr := OrElse(inputs.key, inputs.hotkey);
    if Truthy(keyStr) {
      var keys := HotkeyKeys(keyStr.value);
      var d, u := Downs(keys), UpsReversed(keys);
      assert HandleHotkey(inputs) == d + u;
    }
  }

  /** A coordinate of exactly 0 counts as missing: a click at the left or top edge is
      rejected, and nothing reaches the page. */
  lemma ZeroCoordinateRejected(p: PredictionParsed, hook: Hook)
    requires ClickKind(p.actionType).Some?
    requires Coordinate(p.actionInputs, 0) == Some(0.0) || Coordinate(p.actionInputs, 1) == Some(0.0)
    requires !hook.HookThrows?
    ensures var r := Execute(p, hook, true);
              && r.error == Some(ClickKind(p.actionType).value.2)
              && forall i :: 0 <= i < |r.events| ==> r.events[i].OperatorAction?
  {
  }

  /** `right_single` and unknown action types only warn; `execute` resolves. */
  lemma UnsupportedActionOnlyWarns(p: PredictionParsed, hook: Hook)
    requires p.actionType !in ["navigate", "click", "left_click", "left_single", "double_click",
                               "left_double", "right_click", "type", "hotkey", "scroll", "wait"]
    requires !hook.HookThrows?
    ensures var r := Execute(p, hook, true);
              && r.error.None?
              && |r.events| >= 1
              && r.events[|r.events| - 1] == Warn("Unsupported action: " + p.actionType)
              && forall i :: 0 <= i < |r.events| - 1 ==> r.events[i].OperatorAction?
  {
  }

  /** The browser viewport, when the page reports one. */
  datatype Viewport = Viewport(width: int, height: int, deviceScaleFactor: Option<real>)

  datatype ScreenshotResult = ScreenshotResult(base64: string, width: int, height: int, scaleFactor: real)

  /** `screenshot()`: the viewport's size and `deviceScaleFactor || 1`. The
      `onScreenshot` callback's errors are caught, so its outcome does not appear. */
  function Screenshot(pageFound: bool, viewport: Option<Viewport>, buffer: string): (r: Result<ScreenshotResult, string>)
    ensures !pageFound ==> r == Failure("No active page found")
    ensures pageFound && viewport.None? ==> r == Failure("Missing viewport")
    ensures pageFound && viewport.Some? ==>
              && r.Success?
              && r.value.base64 == buffer
              && r.value.width == viewport.value.width && r.value.height == viewport.value.height
              && r.value.scaleFactor != 0.0
              && (viewport.value.deviceScaleFactor.Some? && viewport.value.deviceScaleFactor.value != 0.0 ==>
                    r.value.scaleFactor == viewport.value.deviceScaleFactor.value)
              && (viewport.value.deviceScaleFactor.None? || viewport.value.deviceScaleFactor.value == 0.0 ==>
                    r.value.scaleFactor == 1.0)
  {
    if !pageFound then Failure("No active page found")
    else match viewport
      case None => Failure("Missing viewport")
      case Some(v) =>
        var dsf := v.deviceScaleFactor;
        var scale := if dsf.Some? && dsf.value != 0.0 then dsf.value else 1.0;
        Success(ScreenshotResult(buffer, v.width, v.height, scale))
  }
}

=== FILE: experimental_browser_agent.dfy ===
/** The experimental browser agent's own loop (`BrowserGUIAgent.run` in the experimental
    package): screenshot, ask the UI-TARS model for one action, stop on `finished`,
    otherwise hand the action to the browser operator. The page, the model and the
    abort signal are a scripted environment: the k-th screenshot sees the k-th page
    state, the k-th model call and the k-th execution are looked up by their index, and
    `signal.aborted` by the iteration count at the top of the loop. Every screenshot,
    model call, execution, `onData` and `onError` call is recorded in order. Thrown
    values are `Error` objects, represented by their message. */
module ExperimentalBrowserAgent {
  import opened Wrappers
  import opened AgentTypes
  import BrowserOperator
  import Seqs

  const DefaultMaxIterations: int := 25
  const CompletedResult: string := "Task completed successfully"
  const ExhaustedResult: string := "Maximum iterations reached without completing the task"
  const ParseFailure: string := "Failed to parse action"

  /** What the browser shows when a screenshot is taken: whether a page is open, its
      viewport, and the encoded image. */
  datatype Page = Page(found: bool, viewport: Option<BrowserOperator.Viewport>, buffer: string)

  /** What the model adapter's `invoke` resolved to: the raw text and the one parsed action. */
  datatype Prediction = Prediction(prediction: string, parsed: PredictionParsed)

  datatype Env = Env(
    aborted: nat -> bool,
    page: nat -> Page,
    invoke: (nat, BrowserOperator.ScreenshotResult) -> Result<Prediction, string>,
    pageAtExecute: nat -> bool)

  /** The agent builds its operator from the browser and the logger only, so no
      `onOperatorAction` hook is ever installed. */
  const OperatorHook: BrowserOperator.Hook := BrowserOperator.NoHook

  /** The options that shape a run: the iteration cap and which callbacks are installed. */
  datatype Config = Config(maxIterations: int, hasOnData: bool, hasOnError: bool)

  /** `options.maxIterations ?? 25`: only an absent option falls back, 0 is kept. */
  function MaxIterations(option: Option<int>): (r: int)
    ensures option.None? ==> r == DefaultMaxIterations
    ensures option.Some? ==> r == option.value
  {
    option.GetOr(DefaultMaxIterations)
  }

  /** The payloads handed to `onData`. */
  datatype Data =
    | Started(status: Status, instruction: string)
    | Predicted(status: Status, prediction: string, parsed: PredictionParsed)
    | Concluded(status: Status, result: string)
    | Failed(status: Status, error: string)
    | Stopped(status: Status)

  /** The observable interactions of the agent, in the order they happen. */
  datatype Call =
    | TakeScreenshot
    | Invoke(instruction: string, shot: BrowserOperator.ScreenshotResult)
    | Execute(prediction: PredictionParsed, screenWidth: int, screenHeight: int, events: seq<BrowserOperator.Event>)
    | OnData(data: Data)
    | OnError(error: string)

  /** The agent's state during a run: its status, the loop's iteration counter and
      result, how much of each script has been consumed, and the interactions so far. */
  datatype State = State(
    status: Status,
    iteration: nat,
    result: string,
    shots: nat,
    invokes: nat,
    execs: nat,
    calls: seq<Call>)

  datatype Step = Next(st: State) | Raised(st: State, error: string)

  datatype RunResult = RunResult(final: State, outcome: Result<string, string>)

  /** `emitData(data)`: one `onData` call when a callback is installed. An error the
      callback throws is caught and logged, so whether it throws changes nothing else. */
  function Emit(cfg: Config, st: State, d: Data): (r: State)
    ensures r.(calls := st.calls) == st
    ensures cfg.hasOnData ==> r.calls == st.calls + [OnData(d)]
    ensures !cfg.hasOnData ==> r.calls == st.calls
  {
    if cfg.hasOnData then st.(calls := st.calls + [OnData(d)]) else st
  }

  /** `takeScreenshot()`: the next page state through the operator's `screenshot`. */
  function TakeShot(env: Env, st: State): (r: (Result<BrowserOperator.ScreenshotResult, string>, State))
    ensures r.1 == st.(shots := st.shots + 1, calls := st.calls + [TakeScreenshot])
    ensures var p := env.page(st.shots); r.0 == BrowserOperator.Screenshot(p.found, p.viewport, p.buffer)
  {
    var p := env.page(st.shots);
    (BrowserOperator.Screenshot(p.found, p.viewport, p.buffer),
     st.(shots := st.shots + 1, calls := st.calls + [TakeScreenshot]))
  }

  /** The result of a `finished` action: its thought, or the fixed text when it is empty. */
  function FinishedResult(parsed: PredictionParsed): (r: string)
    ensures |r| > 0
    ensures |parsed.thought| > 0 ==> r == parsed.thought
  {
    if |parsed.thought| > 0 then parsed.thought else CompletedResult
  }

  /** No `finished` action reaches the operator among the interactions from `from` on. */
  predicate FinishedNeverExecutedFrom(calls: seq<Call>, from: nat) {
    forall i :: from <= i < |calls| ==> calls[i].Execute? ==> calls[i].prediction.actionType != "finished"
  }

  /** No `onError` call among the interactions from `from` on. */
  predicate NoErrorCallFrom(calls: seq<Call>, from: nat) {
    forall i :: from <= i < |calls| ==> !calls[i].OnError?
  }

  /** `st2` continues `st1`: interactions only appended, scripts only consumed. */
  predicate Extends(st1: State, st2: State) {
    && Seqs.Prefix(st1.calls, st2.calls)
    && st1.shots <= st2.shots && st1.invokes <= st2.invokes && st1.execs <= st2.execs
  }

  /** The body of one pass after the abort check: count it, take a screenshot, ask the
      model, and either finish or execute the action. */
  function Iterate(cfg: Config, env: Env, instruction: string, st: State): (r: Step)
    requires st.status == Running
    ensures r.st.iteration == st.iteration + 1
    ensures Extends(st, r.st) && r.st.invokes <= st.invokes + 1
    ensures FinishedNeverExecutedFrom(r.st.calls, |st.calls|) && NoErrorCallFrom(r.st.calls, |st.calls|)
    ensures r.st.status == Running || r.st.status == End
    ensures r.st.invokes == st.invokes + 1 ==>
              |r.st.calls| >= |st.calls| + 2 && r.st.calls[|st.calls| + 1].Invoke?
    ensures r.st.invokes == st.invokes ==> r.Raised?
    ensures r.st.status == End ==> r.Next?
    ensures r.st.status == End ==> r.st.invokes == st.invokes + 1
    ensures r.st.invokes == st.invokes + 1 ==>
              var reply := env.invoke(st.invokes, r.st.calls[|st.calls| + 1].shot);
              && (r.st.status == End <==> reply.Success? && reply.value.parsed.actionType == "finished")
              && (r.st.status == End ==> r.st.result == FinishedResult(reply.value.parsed))
    ensures r.st.status == Running ==> r.st.result == st.result
    ensures |r.st.calls| > |st.calls| && r.st.calls[|st.calls|] == TakeScreenshot
  {
    var st1 := st.(iteration := st.iteration + 1);
    var (shot, st2) := TakeShot(env, st1);
    match shot
    case Failure(e) => Raised(st2, e)
    case Success(s) =>
      var reply := env.invoke(st2.invokes, s);
      var st3 := st2.(invokes := st2.invokes + 1, calls := st2.calls + [Invoke(instruction, s)]);
      assert st3.calls[|st.calls| + 1] == Invoke(instruction, s);
      match reply
      case Failure(e) => Raised(st3, e)
      case Success(Prediction(prediction, parsed)) =>
        var st4 := Emit(cfg, st3, Predicted(Running, prediction, parsed));
        assert st4.calls[|st.calls| + 1] == st3.calls[|st.calls| + 1];
        if parsed.actionType == "finished" then
          Next(st4.(status := End, result := FinishedResult(parsed)))
        else
          var out := BrowserOperator.Execute(parsed, OperatorHook, env.pageAtExecute(st4.execs));
          var st5 := st4.(execs := st4.execs + 1, calls := st4.calls + [Execute(parsed, s.width, s.height, out.events)]);
          if out.error.Some? then Raised(st5, out.error.value) else Next(st5)
  }

  /** What is left of the iteration budget. */
  function Budget(cfg: Config, st: State): nat {
    if st.iteration < cfg.maxIterations then cfg.maxIterations - st.iteration else 0
  }

  /** `while (status === RUNNING && iteration < maxIterations)`, with the abort check at
      the top of every pass, up to the point where the loop is left or a pass throws. */
  function LoopFrom(cfg: Config, env: Env, instruction: string, st: State): (r: Step)
    requires st.status == Running
    ensures Extends(st, r.st)
    ensures FinishedNeverExecutedFrom(r.st.calls, |st.calls|) && NoErrorCallFrom(r.st.calls, |st.calls|)
    ensures st.iteration <= r.st.iteration
    ensures st.iteration <= cfg.maxIterations ==> r.st.iteration <= cfg.maxIterations
    ensures r.st.invokes - st.invokes <= r.st.iteration - st.iteration
    ensures r.st.status == Running || r.st.status == End
    ensures r.Next? && r.st.status == Running ==> r.st.iteration >= cfg.maxIterations
    ensures r.Next? && r.st.iteration < cfg.maxIterations ==> r.st.status == End
    ensures r.st.status == Running ==> r.st.result == st.result
    decreases Budget(cfg, st)
  {
    if st.iteration >= cfg.maxIterations then Next(st)
    else if env.aborted(st.iteration) then Next(st.(status := End))
    else
      match Iterate(cfg, env, instruction, st)
      case Raised(st2, e) => Raised(st2, e)
      case Next(st2) =>
        if st2.status != Running then Next(st2)
        else
          var r := LoopFrom(cfg, env, instruction, st2);
          Seqs.PrefixTransitive(st.calls, st2.calls, r.st.calls);
          r
  }

  /** The catch block: status ERROR, one last emit, `onError` when installed, rethrow. */
  function Fail(cfg: Config, st: State, e: string): (r: RunResult)
    ensures r.final.status == Error && r.outcome == Failure(e)
    ensures Extends(st, r.final)
    ensures FinishedNeverExecutedFrom(st.calls, 0) ==> FinishedNeverExecutedFrom(r.final.calls, 0)
    ensures r.final.calls == st.calls
                               + (if cfg.hasOnData then [OnData(Failed(Error, e))] else [])
                               + (if cfg.hasOnError then [OnError(e)] else [])
  {
    var st1 := Emit(cfg, st.(status := Error), Failed(Error, e));
    var st2 := if cfg.hasOnError then st1.(calls := st1.calls + [OnError(e)]) else st1;
    RunResult(st2, Failure(e))
  }

  /** After the loop: the cap check, then the final emit. */
  function Conclude(cfg: Config, st: State): (r: RunResult)
    requires st.status == Running || st.status == End
    ensures r.outcome == Success(r.final.result)
    ensures r.final.status == (if st.iteration >= cfg.maxIterations && st.status != End then MaxLoop else st.status)
    ensures r.final.result == (if r.final.status == MaxLoop then ExhaustedResult else st.result)
    ensures Extends(st, r.final) && r.final.iteration == st.iteration
    ensures FinishedNeverExecutedFrom(st.calls, 0) ==> FinishedNeverExecutedFrom(r.final.calls, 0)
    ensures r.final.calls == st.calls + (if cfg.hasOnData then [OnData(Concluded(r.final.status, r.final.result))] else [])
  {
    var st1 := if st.iteration >= cfg.maxIterations && st.status != End
               then st.(status := MaxLoop, result := ExhaustedResult) else st;
    var st2 := Emit(cfg, st1, Concluded(st1.status, st1.result));
    RunResult(st2, Success(st2.result))
  }

  /** `run(instruction)`: status RUNNING and a first emit, an initial screenshot, the
      loop, then either the concluding emit or the catch block. */
  function Run(cfg: Config, env: Env, instruction: string): (r: RunResult)
    ensures r.final.status == End || r.final.status == MaxLoop || r.final.status == Error
    ensures r.outcome.Failure? <==> r.final.status == Error
    ensures r.outcome.Success? ==> r.outcome.value == r.final.result
    ensures r.final.status == MaxLoop ==> r.final.result == ExhaustedResult
    ensures FinishedNeverExecutedFrom(r.final.calls, 0)
    ensures cfg.maxIterations >= 0 ==> r.final.invokes <= cfg.maxIterations
  {
    var st0 := State(Running, 0, "", 0, 0, 0, []);
    var st1 := Emit(cfg, st0, Started(Running, instruction));
    var (initial, st2) := TakeShot(env, st1);
    match initial
    case Failure(e) => Fail(cfg, st2, e)
    case Success(_) =>
      var l := LoopFrom(cfg, env, instruction, st2);
      NeverExecutedJoin(st2.calls, l.st.calls);
      match l
      case Raised(st3, e) => Fail(cfg, st3, e)
      case Next(st3) => Conclude(cfg, st3)
  }

  lemma NeverExecutedJoin(calls: seq<Call>, whole: seq<Call>)
    requires Seqs.Prefix(calls, whole)
    requires FinishedNeverExecutedFrom(calls, 0) && FinishedNeverExecutedFrom(whole, |calls|)
    ensures FinishedNeverExecutedFrom(whole, 0)
  {
  }

  /** The first emit announces RUNNING with the instruction, before any screenshot. */
  lemma RunAnnouncesFirst(cfg: Config, env: Env, instruction: string)
    ensures var calls := Run(cfg, env, instruction).final.calls;
              cfg.hasOnData ==> |calls| >= 2 && calls[0] == OnData(Started(Running, instruction)) && calls[1] == TakeScreenshot
    ensures var calls := Run(cfg, env, instruction).final.calls;
              !cfg.hasOnData ==> |calls| >= 1 && calls[0] == TakeScreenshot
  {
    var st1 := Emit(cfg, State(Running, 0, "", 0, 0, 0, []), Started(Running, instruction));
    var (_, st2) := TakeShot(env, st1);
    assert Seqs.Prefix(st2.calls, Run(cfg, env, instruction).final.calls);
  }

  /** Every run ends with an emit that carries its final status, followed only by the
      `onError` call of a failed run. */
  lemma RunEmitsFinalStatus(cfg: Config, env: Env, instruction: string)
    requires cfg.hasOnData
    ensures var r := Run(cfg, env, instruction); var calls := r.final.calls;
              var last := if r.final.status == Error && cfg.hasOnError then |calls| - 2 else |calls| - 1;
              && 0 <= last < |calls|
              && calls[last].OnData? && calls[last].data.status == r.final.status
              && (r.final.status == Error ==> calls[last].data == Failed(Error, r.outcome.error))
              && (r.final.status != Error ==> calls[last].data == Concluded(r.final.status, r.final.result))
  {
  }

  /** The catch block adds `onError` as the very last interaction and nowhere else. */
  lemma FailReportsOnce(cfg: Config, st: State, e: string)
    requires NoErrorCallFrom(st.calls, 0)
    ensures var calls := Fail(cfg, st, e).final.calls;
              cfg.hasOnError ==>
                && |calls| >= 1 && calls[|calls| - 1] == OnError(e)
                && NoErrorCallFrom(calls[..|calls| - 1], 0)
    ensures !cfg.hasOnError ==> NoErrorCallFrom(Fail(cfg, st, e).final.calls, 0)
  {
    var calls := Fail(cfg, st, e).final.calls;
    if cfg.hasOnError {
      assert calls[..|calls| - 1] == st.calls + (if cfg.hasOnData then [OnData(Failed(Error, e))] else []);
    }
  }

  /** A failed run calls `onError` exactly once, as its last interaction, with the
      rethrown error; a run that returns never calls it. */
  lemma RunReportsErrorsOnce(cfg: Config, env: Env, instruction: string)
    ensures var r := Run(cfg, env, instruction);
              r.outcome.Success? ==> NoErrorCallFrom(r.final.calls, 0)
    ensures var r := Run(cfg, env, instruction);
              r.outcome.Failure? && cfg.hasOnError ==>
                && |r.final.calls| >= 1
                && r.final.calls[|r.final.calls| - 1] == OnError(r.outcome.error)
                && NoErrorCallFrom(r.final.calls[..|r.final.calls| - 1], 0)
    ensures var r := Run(cfg, env, instruction);
              r.outcome.Failure? && !cfg.hasOnError ==> NoErrorCallFrom(r.final.calls, 0)
  {
    var st1 := Emit(cfg, State(Running, 0, "", 0, 0, 0, []), Started(Running, instruction));
    var (initial, st2) := TakeShot(env, st1);
    assert NoErrorCallFrom(st2.calls, 0);
    if initial.Failure? {
      FailReportsOnce(cfg, st2, initial.error);
    } else {
      var l := LoopFrom(cfg, env, instruction, st2);
      assert NoErrorCallFrom(l.st.calls, 0);
      if l.Raised? {
        FailReportsOnce(cfg, l.st, l.error);
      }
    }
  }

  /** With no iteration budget the model is never asked and the run ends at MAX_LOOP. */
  lemma NoBudgetEndsAtMaxLoop(cfg: Config, env: Env, instruction: string)
    requires cfg.maxIterations <= 0
    requires var p := env.page(0); p.found && p.viewport.Some?
    ensures var r := Run(cfg, env, instruction);
              && r.final.status == MaxLoop && r.outcome == Success(ExhaustedResult)
              && r.final.invokes == 0
  {
  }

  /** An abort seen at the first loop check ends the run with status END, an empty
      result and no model call. */
  lemma AbortedBeforeFirstPass(cfg: Config, env: Env, instruction: string)
    requires cfg.maxIterations > 0 && env.aborted(0)
    requires var p := env.page(0); p.found && p.viewport.Some?
    ensures var r := Run(cfg, env, instruction);
              && r.final.status == End && r.outcome == Success("")
              && r.final.invokes == 0 && r.final.iteration == 0
  {
  }

  /** An abort the loop sees at the top of iteration `k`, below the cap: the loop never
      gets past iteration `k`, asks the model at most once per iteration before it, and
      ends at END unless a pass throws. */
  lemma {:induction false} LoopStopsAtAbort(cfg: Config, env: Env, instruction: string, st: State, k: nat)
    requires st.status == Running
    requires st.iteration <= k < cfg.maxIterations && env.aborted(k)
    ensures var r := LoopFrom(cfg, env, instruction, st);
              && r.st.iteration <= k
              && r.st.invokes - st.invokes <= k - st.iteration
              && (r.Next? ==> r.st.status == End)
    decreases k - st.iteration
  {
    if !env.aborted(st.iteration) {
      var i := Iterate(cfg, env, instruction, st);
      LoopFromContinues(cfg, env, instruction, st);
      if i.Next? && i.st.status == Running {
        LoopStopsAtAbort(cfg, env, instruction, i.st, k);
      }
    }
  }

  /** One unaborted pass below the cap, and the loop goes on from where it left off. */
  lemma LoopFromContinues(cfg: Config, env: Env, instruction: string, st: State)
    requires st.status == Running && st.iteration < cfg.maxIterations && !env.aborted(st.iteration)
    ensures var i := Iterate(cfg, env, instruction, st);
              LoopFrom(cfg, env, instruction, st) ==
                if i.Next? && i.st.status == Running then LoopFrom(cfg, env, instruction, i.st) else i
  {
  }

  /** An abort seen at the top of any iteration `k` below the cap: the whole run asks the
      model at most `k` times, and unless it fails it ends at END, with no `onError` call. */
  lemma AbortEndsRun(cfg: Config, env: Env, instruction: string, k: nat)
    requires k < cfg.maxIterations && env.aborted(k)
    ensures var r := Run(cfg, env, instruction);
              && r.final.invokes <= k && r.final.iteration <= k
              && (r.final.status == End || r.final.status == Error)
              && (r.outcome.Success? ==> r.final.status == End && NoErrorCallFrom(r.final.calls, 0))
  {
    var st1 := Emit(cfg, State(Running, 0, "", 0, 0, 0, []), Started(Running, instruction));
    var (initial, st2) := TakeShot(env, st1);
    if initial.Success? {
      LoopStopsAtAbort(cfg, env, instruction, st2, k);
    }
    RunReportsErrorsOnce(cfg, env, instruction);
  }

  /** A `finished` action ends the run with status END and the action's thought (or
      the fixed text) as its result; the action is not executed. */
  lemma FinishedEndsRun(cfg: Config, env: Env, instruction: string)
    requires cfg.maxIterations > 0 && !env.aborted(0)
    requires var p := env.page(0); p.found && p.viewport.Some?
    requires var p := env.page(1); p.found && p.viewport.Some?
    ensures var p := env.page(1);
              var shot := BrowserOperator.Screenshot(p.found, p.viewport, p.buffer).value;
              var reply := env.invoke(0, shot);
              reply.Success? && reply.value.parsed.actionType == "finished" ==>
                var r := Run(cfg, env, instruction);
                && r.final.status == End && r.outcome == Success(FinishedResult(reply.value.parsed))
                && r.final.execs == 0 && r.final.iteration == 1
  {
  }

  /** `call_user` is not terminal here: once executed without error, the run goes on. */
  lemma CallUserContinues(cfg: Config, env: Env, instruction: string, st: State)
    requires st.status == Running
    ensures var r := Iterate(cfg, env, instruction, st);
              r.Next? && r.st.invokes == st.invokes + 1 &&
              env.invoke(st.invokes, r.st.calls[|st.calls| + 1].shot).value.parsed.actionType == "call_user"
              ==> r.st.status == Running && r.st.execs == st.execs + 1
  {
  }

  /** `stop()`: only a RUNNING agent moves to END, with one emit announcing it. */
  function Stop(cfg: Config, st: State): (r: State)
    ensures st.status == Running ==> r == Emit(cfg, st.(status := End), Stopped(End))
    ensures st.status != Running ==> r == st
  {
    if st.status == Running then Emit(cfg, st.(status := End), Stopped(End)) else st
  }

  /** Stopping twice is stopping once. */
  lemma StopIdempotent(cfg: Config, st: State)
    ensures Stop(cfg, Stop(cfg, st)) == Stop(cfg, st)
    ensures Stop(cfg, st).status != Running
  {
  }

  /** What the `executeAction` tool returns. */
  datatype ActionReport = Done(action: string) | NotDone(error: string)

  /** `String(error)` for an `Error` object. */
  function ErrorString(message: string): string {
    "Error: " + message
  }

  /** `executeAction(actionString)`: parse the text (the parser is a parameter), take a
      screenshot for the screen size and execute the first parsed action. It never
      rejects: every failure becomes a `{success: false}` report. */
  function ExecuteAction(actionString: string, parse: string -> seq<PredictionParsed>, page: Page,
                         pageFound: bool): (r: (ActionReport, seq<Call>))
    ensures |parse(actionString)| == 0 ==> r == (NotDone(ErrorString(ParseFailure)), [])
    ensures var shot := BrowserOperator.Screenshot(page.found, page.viewport, page.buffer);
              r.0.Done? <==>
                && |parse(actionString)| > 0
                && shot.Success?
                && BrowserOperator.Execute(parse(actionString)[0], OperatorHook, pageFound).error.None?
    ensures r.0.Done? ==> r.0.action == parse(actionString)[0].actionType
    ensures |parse(actionString)| > 0 ==> |r.1| >= 1 && r.1[0] == TakeScreenshot
  {
    var parsed := parse(actionString);
    if |parsed| == 0 then (NotDone(ErrorString(ParseFailure)), [])
    else
      match BrowserOperator.Screenshot(page.found, page.viewport, page.buffer)
      case Failure(e) => (NotDone(ErrorString(e)), [TakeScreenshot])
      case Success(s) =>
        var out := BrowserOperator.Execute(parsed[0], OperatorHook, pageFound);
        var calls := [TakeScreenshot, Execute(parsed[0], s.width, s.height, out.events)];
        match out.error
        case Some(e) => (NotDone(ErrorString(e)), calls)
        case None => (Done(parsed[0].actionType), calls)
  }
}

=== FILE: gui_agent.dfy ===
/** The SDK agent's `run` loop (`GUIAgent.run`). The operator, the model, the abort
    signal and the prediction summariser are a scripted environment: the k-th
    screenshot, the k-th model reply, the k-th execution and the k-th inspection of
    `signal.aborted` are looked up by their index. Every `onData` and `onError` call,
    every screenshot, sleep, model call and execution is recorded, in order. */
module GUIAgent {
  import opened Wrappers
  import opened AgentTypes
  import opened Session
  import Text
  import Seqs

  /** A thrown value: an `Error` instance (with its `name` and `message`) or anything else. */
  datatype Thrown = ErrorObject(name: string, message: string) | NonError(rendering: string)

  /** The catch block's test for a cancelled request. */
  predicate IsAbort(e: Thrown) {
    e.ErrorObject? && (e.name == "AbortError" || Text.Contains(e.message, "aborted"))
  }

  /** `${error}`: `Error.prototype.toString` for error objects. */
  function Render(e: Thrown): string {
    match e
    case NonError(s) => s
    case ErrorObject(name, msg) =>
      if |name| == 0 then msg else if |msg| == 0 then name else name + ": " + msg
  }

  /** The fixed `error` text handed to `onError` ("service error"). */
  const ServiceError: string := "服务异常"
  const LoopCapMessage: string := "Exceeds the maximum number of loops"
  const ScreenshotCapMessage: string := "Too many screenshot failures"

  /** What `operator.screenshot()` resolved to; a missing field is the empty string or 0,
      which the validity test treats exactly like JavaScript's `undefined`. */
  datatype Screenshot = Screenshot(base64: string, width: int, height: int)

  /** `!!(snapshot?.base64 && snapshot?.width && snapshot?.height)` */
  predicate IsValidImage(s: Screenshot) {
    |s.base64| > 0 && s.width != 0 && s.height != 0
  }

  /** What `model.invoke` resolved to. */
  datatype Prediction = Prediction(prediction: string, parsedPredictions: seq<PredictionParsed>)

  datatype Env = Env(
    aborted: nat -> bool,
    screenshot: nat -> Result<Screenshot, Thrown>,
    invoke: nat -> Result<Prediction, Thrown>,
    execute: nat -> Result<(), Thrown>,
    summary: string -> string)

  /** The two loop caps are configuration constants whose values are not part of this
      model, so they are parameters; so is the image placeholder text. */
  datatype Config = Config(
    systemPrompt: string,
    modelName: string,
    imagePlaceholder: string,
    maxLoopCount: nat,
    maxSnapshotErrCnt: nat,
    hasOnData: bool,
    hasOnError: bool)

  /** The observable interactions of a run, in the order they happen. */
  datatype Call =
    | TakeScreenshot
    | Sleep(ms: nat)
    | Invoke(conversations: seq<Conversation>, systemPrompt: string)
    | Execute(prediction: PredictionParsed, screenWidth: int, screenHeight: int)
    | OnData(data: Data)
    | OnError(data: Data, code: int, error: string, stack: string)

  /** The loop's state: the observed object, the two counters, how much of each script
      has been consumed, and the interactions so far. */
  datatype Loop = Loop(
    data: Data,
    loopCnt: nat,
    snapshotErrCnt: nat,
    checks: nat,
    shots: nat,
    invokes: nat,
    execs: nat,
    calls: seq<Call>,
    hasOnData: bool)

  datatype Outcome = Returned | Threw(error: Thrown)

  datatype RunResult = RunResult(final: Loop, outcome: Outcome)

  /** The `onData?.(…)` calls for the given notifications: one per notification, in
      order, when a callback is configured, and none otherwise. */
  function Notices(ns: seq<Data>, hasOnData: bool): (r: seq<Call>)
    ensures |r| == if hasOnData then |ns| else 0
    ensures hasOnData ==> forall i :: 0 <= i < |ns| ==> r[i] == OnData(ns[i])
  {
    if hasOnData then seq(|ns|, i requires 0 <= i < |ns| => OnData(ns[i])) else []
  }

  /** A write to the observed object, with the `onData` calls it triggers. */
  function Perform(st: Loop, w: Write): (r: Loop)
    ensures var u := Apply(st.data, w); r == st.(data := u.data, calls := st.calls + Notices(u.notified, st.hasOnData))
  {
    var u := Apply(st.data, w);
    st.(data := u.data, calls := st.calls + Notices(u.notified, st.hasOnData))
  }

  /** `data.status = s`, with the `onData` call it triggers when the value changes. */
  function Announce(st: Loop, s: Status): (r: Loop)
    ensures r.data == st.data.(status := s)
    ensures r.calls == st.calls + (if s == st.data.status || !st.hasOnData then [] else [OnData(r.data.(conversations := []))])
    ensures Seqs.Prefix(st.calls, r.calls) && forall i :: |st.calls| <= i < |r.calls| ==> r.calls[i].OnData?
    ensures SameBudgets(st, r) && SameScripts(st, r)
  {
    Perform(st, SetStatus(s))
  }

  /** `data.conversations.push(e)`: one `onData` call carrying exactly the new turn. */
  function Record(st: Loop, e: Conversation): (r: Loop)
    ensures r.data == st.data.(conversations := st.data.conversations + [e])
    ensures r.calls == st.calls + (if st.hasOnData then [OnData(r.data.(conversations := [e]))] else [])
    ensures Seqs.Prefix(st.calls, r.calls) && forall i :: |st.calls| <= i < |r.calls| ==> r.calls[i].OnData?
    ensures SameBudgets(st, r) && SameScripts(st, r)
  {
    Perform(st, Push([e]))
  }

  /** `Object.assign(data, {status: MAX_LOOP, errMsg})`. */
  function RecordCap(st: Loop, msg: string): (r: Loop)
    ensures r.data == st.data.(status := MaxLoop, errMsg := Some(msg))
    ensures Seqs.Prefix(st.calls, r.calls) && |r.calls| <= |st.calls| + 2
    ensures forall i :: |st.calls| <= i < |r.calls| ==> r.calls[i].OnData? && r.calls[i].data.conversations == []
    ensures SameBudgets(st, r) && SameScripts(st, r)
  {
    Perform(st, Assign(MaxLoop, msg))
  }

  predicate SameBudgets(a: Loop, b: Loop) {
    a.loopCnt == b.loopCnt && a.snapshotErrCnt == b.snapshotErrCnt
  }

  predicate SameScripts(a: Loop, b: Loop) {
    a.checks == b.checks && a.shots == b.shots && a.invokes == b.invokes && a.execs == b.execs
  }

  /** `st2` continues `st1`: fixed fields kept, the log and the interactions only grown,
      the scripts only consumed further. */
  predicate Extends(st1: Loop, st2: Loop) {
    && st2.data.systemPrompt == st1.data.systemPrompt
    && st2.data.instruction == st1.data.instruction
    && st2.data.modelName == st1.data.modelName
    && Seqs.Prefix(st1.data.conversations, st2.data.conversations)
    && Seqs.Prefix(st1.calls, st2.calls)
    && st1.checks <= st2.checks && st1.shots <= st2.shots
    && st1.invokes <= st2.invokes && st1.execs <= st2.execs
  }

  /** No `onError` call among the interactions from position `from` on. */
  predicate NoErrorCallFrom(calls: seq<Call>, from: nat) {
    forall i :: from <= i < |calls| ==> !calls[i].OnError?
  }

  /** Neither the model nor the operator's `execute` is called from position `from` on. */
  predicate NoModelOrOperatorFrom(calls: seq<Call>, from: nat) {
    forall i :: from <= i < |calls| ==> !calls[i].Invoke? && !calls[i].Execute?
  }

  /** The status an action leaves behind. */
  function StatusAfter(actionType: string): (s: Status)
    ensures s == End <==> actionType == "error_env" || actionType == "call_user" || actionType == "finished"
    ensures s == MaxLoop <==> actionType == "max_loop"
    ensures s == End || s == MaxLoop || s == Running
  {
    match actionType
    case "error_env" => End
    case "call_user" => End
    case "finished" => End
    case "max_loop" => MaxLoop
    case _ => Running
  }

  /** The cap test at the top of each iteration and the message it records. The loop cap
      is tested first, so it wins when both caps are reached together. */
  function CapMessage(cfg: Config, loopCnt: nat, snapshotErrCnt: nat): (r: Option<string>)
    ensures r.None? <==> loopCnt < cfg.maxLoopCount && snapshotErrCnt < cfg.maxSnapshotErrCnt
    ensures loopCnt >= cfg.maxLoopCount ==> r == Some(LoopCapMessage)
    ensures loopCnt < cfg.maxLoopCount && snapshotErrCnt >= cfg.maxSnapshotErrCnt ==> r == Some(ScreenshotCapMessage)
  {
    if loopCnt >= cfg.maxLoopCount then Some(LoopCapMessage)
    else if snapshotErrCnt >= cfg.maxSnapshotErrCnt then Some(ScreenshotCapMessage)
    else None
  }

  function HumanEntry(cfg: Config, shot: Screenshot): Conversation {
    Conversation(Human, cfg.imagePlaceholder, Some(shot.base64), Some(Size(shot.width, shot.height)), None)
  }

  function GptEntry(summary: string, shot: Screenshot, parsed: seq<PredictionParsed>): Conversation {
    Conversation(Gpt, summary, None, Some(Size(shot.width, shot.height)), Some(parsed))
  }

  datatype Step = Next(st: Loop) | Raised(st: Loop, error: Thrown)

  /** The actions to dispatch when nothing aborts: every action but `wait`, in order. */
  function ExpectedExecutes(actions: seq<PredictionParsed>, w: int, h: int): seq<Call>
    decreases |actions|
  {
    if |actions| == 0 then []
    else (if actions[0].actionType == "wait" then [] else [Execute(actions[0], w, h)])
         + ExpectedExecutes(actions[1..], w, h)
  }

  /** The `execute` calls among some interactions, in order. */
  function Executes(calls: seq<Call>): seq<Call>
    decreases |calls|
  {
    if |calls| == 0 then []
    else (if calls[0].Execute? then [calls[0]] else []) + Executes(calls[1..])
  }

  lemma {:induction false} ExecutesAppend(a: seq<Call>, b: seq<Call>)
    ensures Executes(a + b) == Executes(a) + Executes(b)
    decreases |a|
  {
    if |a| == 0 {
      assert a + b == b;
    } else {
      var h := if a[0].Execute? then [a[0]] else [];
      assert (a + b)[0] == a[0];
      assert (a + b)[1..] == a[1..] + b;
      assert Executes(a + b) == h + Executes(a[1..] + b);
      ExecutesAppend(a[1..], b);
      assert Executes(a) == h + Executes(a[1..]);
    }
  }

  /** The `for … of parsedPredictions` loop: set the status each action implies, then
      dispatch it unless it is `wait` or the signal has been aborted. */
  function RunActions(env: Env, st: Loop, shot: Screenshot, actions: seq<PredictionParsed>): (r: Step)
    ensures Extends(st, r.st)
    ensures r.st.data.conversations == st.data.conversations && r.st.data.errMsg == st.data.errMsg
    ensures SameBudgets(st, r.st) && r.st.shots == st.shots && r.st.invokes == st.invokes
    ensures NoErrorCallFrom(r.st.calls, |st.calls|)
    ensures forall i :: |st.calls| <= i < |r.st.calls| ==> !r.st.calls[i].Invoke?
    // only actions of this reply are dispatched, never `wait`, with the screenshot's size
    ensures forall i :: |st.calls| <= i < |r.st.calls| && r.st.calls[i].Execute? ==>
              && r.st.calls[i].prediction in actions
              && r.st.calls[i].prediction.actionType != "wait"
              && r.st.calls[i].screenWidth == shot.width
              && r.st.calls[i].screenHeight == shot.height
    decreases |actions|
  {
    if |actions| == 0 then Next(st)
    else
      var a := actions[0];
      var st1 := Announce(st, StatusAfter(a.actionType));
      if a.actionType == "wait" then
        var r := RunActions(env, st1, shot, actions[1..]);
        r
      else
        var aborted := env.aborted(st1.checks);
        var st2 := st1.(checks := st1.checks + 1);
        if aborted then
          RunActions(env, st2, shot, actions[1..])
        else
          var st3 := st2.(execs := st2.execs + 1, calls := st2.calls + [Execute(a, shot.width, shot.height)]);
          match env.execute(st2.execs)
          case Failure(e) => Raised(st3, e)
          case Success(_) => RunActions(env, st3, shot, actions[1..])
  }

  /** The state after one action, when the signal is not aborted and `execute` succeeds. */
  function Dispatched(st: Loop, a: PredictionParsed, shot: Screenshot): Loop {
    var st1 := Announce(st, StatusAfter(a.actionType));
    if a.actionType == "wait" then st1
    else st1.(checks := st1.checks + 1, execs := st1.execs + 1,
              calls := st1.calls + [Execute(a, shot.width, shot.height)])
  }

  lemma DispatchedStep(env: Env, st: Loop, shot: Screenshot, actions: seq<PredictionParsed>)
    requires |actions| > 0
    requires forall k :: !env.aborted(k)
    requires forall k :: env.execute(k).Success?
    ensures RunActions(env, st, shot, actions) == RunActions(env, Dispatched(st, actions[0], shot), shot, actions[1..])
  {
    var st1 := Announce(st, StatusAfter(actions[0].actionType));
    if actions[0].actionType != "wait" {
      assert env.execute(st1.checks).Success? && !env.aborted(st1.checks);
      assert env.execute(st1.execs).Success?;
    }
  }

  lemma DispatchedExecutes(st: Loop, a: PredictionParsed, shot: Screenshot)
    ensures var d := Dispatched(st, a, shot);
              && Executes(d.calls) == Executes(st.calls) + ExpectedExecutes([a], shot.width, shot.height)
              && d.data.status == StatusAfter(a.actionType)
  {
    var st1 := Announce(st, StatusAfter(a.actionType));
    AnnounceExecutesNothing(st, StatusAfter(a.actionType));
    assert ExpectedExecutes([a], shot.width, shot.height)
        == (if a.actionType == "wait" then [] else [Execute(a, shot.width, shot.height)]) + ExpectedExecutes([], shot.width, shot.height);
    if a.actionType != "wait" {
      var e := Execute(a, shot.width, shot.height);
      ExecutesAppend(st1.calls, [e]);
      assert Executes([e]) == [e] + Executes([]);
    }
  }

  /** A status write adds no `execute` call. */
  lemma AnnounceExecutesNothing(st: Loop, s: Status)
    ensures Executes(Announce(st, s).calls) == Executes(st.calls)
  {
    var st1 := Announce(st, s);
    var notice := st1.calls[|st.calls|..];
    assert st1.calls == st.calls + notice;
    assert Executes(notice) == [] by {
      if |notice| > 0 {
        assert notice == [notice[0]] && !notice[0].Execute?;
        assert Executes(notice) == [] + Executes(notice[1..]);
      }
    }
    ExecutesAppend(st.calls, notice);
  }

  lemma {:induction false} ExpectedExecutesCons(actions: seq<PredictionParsed>, w: int, h: int)
    requires |actions| > 0
    ensures ExpectedExecutes(actions, w, h) == ExpectedExecutes([actions[0]], w, h) + ExpectedExecutes(actions[1..], w, h)
  {
    assert [actions[0]][1..] == [];
  }

  /** Every action dispatched in turn, as a run with no abort and no failing execution
      goes. */
  function DispatchedAll(st: Loop, shot: Screenshot, actions: seq<PredictionParsed>): Loop
    decreases |actions|
  {
    if |actions| == 0 then st else DispatchedAll(Dispatched(st, actions[0], shot), shot, actions[1..])
  }

  lemma {:induction false} RunActionsDispatchesAll(env: Env, st: Loop, shot: Screenshot, actions: seq<PredictionParsed>)
    requires forall k :: !env.aborted(k)
    requires forall k :: env.execute(k).Success?
    ensures RunActions(env, st, shot, actions) == Next(DispatchedAll(st, shot, actions))
    decreases |actions|
  {
    if |actions| > 0 {
      DispatchedStep(env, st, shot, actions);
      RunActionsDispatchesAll(env, Dispatched(st, actions[0], shot), shot, actions[1..]);
    }
  }

  lemma {:induction false} DispatchedAllExecutes(st: Loop, shot: Screenshot, actions: seq<PredictionParsed>)
    ensures var d := DispatchedAll(st, shot, actions);
              && Executes(d.calls) == Executes(st.calls) + ExpectedExecutes(actions, shot.width, shot.height)
              && d.data.status == (if |actions| == 0 then st.data.status else StatusAfter(actions[|actions| - 1].actionType))
    decreases |actions|
  {
    if |actions| > 0 {
      var w, h := shot.width, shot.height;
      var d := Dispatched(st, actions[0], shot);
      assert DispatchedAll(st, shot, actions) == DispatchedAll(d, shot, actions[1..]);
      DispatchedExecutes(st, actions[0], shot);
      DispatchedAllExecutes(d, shot, actions[1..]);
      ExpectedExecutesCons(actions, w, h);
      var x, y, z := Executes(st.calls), ExpectedExecutes([actions[0]], w, h), ExpectedExecutes(actions[1..], w, h);
      assert (x + y) + z == x + (y + z);
      if |actions| > 1 {
        assert actions[1..][|actions[1..]| - 1] == actions[|actions| - 1];
      }
    }
  }

  /** With no abort and no failing execution, the actions of one reply are executed
      exactly: every action but `wait`, in list order, with the screenshot's size, and
      the last action decides the status. */
  lemma ActionsExecutedInOrder(env: Env, st: Loop, shot: Screenshot, actions: seq<PredictionParsed>)
    requires forall k :: !env.aborted(k)
    requires forall k :: env.execute(k).Success?
    ensures var r := RunActions(env, st, shot, actions);
              && r.Next?
              && Executes(r.st.calls) == Executes(st.calls) + ExpectedExecutes(actions, shot.width, shot.height)
              && r.st.data.status == (if |actions| == 0 then st.data.status else StatusAfter(actions[|actions| - 1].actionType))
  {
    RunActionsDispatchesAll(env, st, shot, actions);
    DispatchedAllExecutes(st, shot, actions);
  }

  /** How many of `n` dispatches the signal lets through when it reads aborted from
      check `k` on and the next check is `checks`. */
  function Admitted(k: nat, checks: nat, n: nat): (m: nat)
    ensures m <= n
    ensures m == 0 <==> n == 0 || k <= checks
  {
    if k <= checks then 0 else if k - checks < n then k - checks else n
  }

  /** The state after one action when `execute` succeeds, whatever the signal reads. */
  function Handled(env: Env, st: Loop, a: PredictionParsed, shot: Screenshot): Loop {
    var st1 := Announce(st, StatusAfter(a.actionType));
    if a.actionType == "wait" then st1
    else if env.aborted(st1.checks) then st1.(checks := st1.checks + 1)
    else st1.(checks := st1.checks + 1, execs := st1.execs + 1,
              calls := st1.calls + [Execute(a, shot.width, shot.height)])
  }

  lemma HandledStep(env: Env, st: Loop, shot: Screenshot, actions: seq<PredictionParsed>)
    requires |actions| > 0
    requires forall j :: env.execute(j).Success?
    ensures RunActions(env, st, shot, actions) == RunActions(env, Handled(env, st, actions[0], shot), shot, actions[1..])
  {
    var st1 := Announce(st, StatusAfter(actions[0].actionType));
    assert env.execute(st1.execs).Success?;
  }

  lemma HandledExecutes(env: Env, st: Loop, a: PredictionParsed, shot: Screenshot)
    ensures var d := Handled(env, st, a, shot);
              && d.checks == st.checks + (if a.actionType == "wait" then 0 else 1)
              && d.data.status == StatusAfter(a.actionType)
              && Executes(d.calls) == Executes(st.calls)
                   + (if a.actionType == "wait" || env.aborted(st.checks) then [] else [Execute(a, shot.width, shot.height)])
  {
    var st1 := Announce(st, StatusAfter(a.actionType));
    AnnounceExecutesNothing(st, StatusAfter(a.actionType));
    if a.actionType != "wait" && !env.aborted(st.checks) {
      var x := Execute(a, shot.width, shot.height);
      ExecutesAppend(st1.calls, [x]);
      assert Executes([x]) == [x] + Executes([]);
    }
  }

  /** The bookkeeping of one action in `ActionsExecutedUntilAbort`: `x` the executions
      before it, `dx` after it, `y` after the remaining actions. */
  lemma AdmittedStep(x: seq<Call>, dx: seq<Call>, y: seq<Call>, e: seq<Call>, e': seq<Call>, z: Call,
                     wait: bool, aborted: bool, k: nat, checks: nat)
    requires e == (if wait then [] else [z]) + e'
    requires dx == x + (if wait || aborted then [] else [z])
    requires !wait ==> (aborted <==> k <= checks)
    requires y == dx + e'[..Admitted(k, checks + (if wait then 0 else 1), |e'|)]
    ensures y == x + e[..Admitted(k, checks, |e|)]
  {
    var m := Admitted(k, checks + (if wait then 0 else 1), |e'|);
    if wait {
      assert e == e' && dx == x;
    } else if aborted {
      assert dx == x && m == 0 && Admitted(k, checks, |e|) == 0;
    } else {
      assert Admitted(k, checks, |e|) == m + 1;
      assert e[..m + 1] == [z] + e'[..m];
      assert y == x + ([z] + e'[..m]);
    }
  }

  /** A signal that turns aborted part-way through the actions: the actions dispatched
      before it turns are executed in list order, and none after. Once aborted, an
      `AbortSignal` stays aborted, so the executed actions are a prefix of the non-wait
      actions; the last action still decides the status. */
  lemma {:induction false} ActionsExecutedUntilAbort(env: Env, st: Loop, shot: Screenshot, actions: seq<PredictionParsed>, k: nat)
    requires forall j :: k <= j ==> env.aborted(j)
    requires forall j :: st.checks <= j < k ==> !env.aborted(j)
    requires forall j :: env.execute(j).Success?
    ensures var r := RunActions(env, st, shot, actions); var e := ExpectedExecutes(actions, shot.width, shot.height);
              && r.Next?
              && Executes(r.st.calls) == Executes(st.calls) + e[..Admitted(k, st.checks, |e|)]
              && r.st.data.status == (if |actions| == 0 then st.data.status else StatusAfter(actions[|actions| - 1].actionType))
    decreases |actions|
  {
    if |actions| > 0 {
      var w, h := shot.width, shot.height;
      var a := actions[0];
      var d := Handled(env, st, a, shot);
      HandledStep(env, st, shot, actions);
      HandledExecutes(env, st, a, shot);
      ActionsExecutedUntilAbort(env, d, shot, actions[1..], k);
      if |actions| > 1 {
        assert actions[1..][|actions[1..]| - 1] == actions[|actions| - 1];
      }
      var z := Execute(a, w, h);
      assert ExpectedExecutes(actions, w, h)
          == (if a.actionType == "wait" then [] else [z]) + ExpectedExecutes(actions[1..], w, h);
      AdmittedStep(Executes(st.calls), Executes(d.calls), Executes(RunActions(env, d, shot, actions[1..]).st.calls),
                   ExpectedExecutes(actions, w, h), ExpectedExecutes(actions[1..], w, h), z,
                   a.actionType == "wait", env.aborted(st.checks), k, st.checks);
    }
  }

  /** An aborted signal keeps every action from the operator: each action still sets the
      status it implies, but the actions add nothing except `onData` calls and never
      throw. */
  lemma {:induction false} AbortedActionsNotExecuted(env: Env, st: Loop, shot: Screenshot, actions: seq<PredictionParsed>)
    requires forall k :: st.checks <= k ==> env.aborted(k)
    ensures var r := RunActions(env, st, shot, actions);
              && r.Next?
              && r.st.execs == st.execs
              && (forall i :: |st.calls| <= i < |r.st.calls| ==> r.st.calls[i].OnData?)
              && r.st.data.status == (if |actions| == 0 then st.data.status else StatusAfter(actions[|actions| - 1].actionType))
    decreases |actions|
  {
    if |actions| > 0 {
      var a := actions[0];
      var st1 := Announce(st, StatusAfter(a.actionType));
      var next := if a.actionType == "wait" then st1 else st1.(checks := st1.checks + 1);
      assert a.actionType != "wait" ==> env.aborted(st1.checks);
      assert RunActions(env, st, shot, actions) == RunActions(env, next, shot, actions[1..]);
      AbortedActionsNotExecuted(env, next, shot, actions[1..]);
      if |actions| > 1 {
        assert actions[1..][|actions[1..]| - 1] == actions[|actions| - 1];
      }
      var r := RunActions(env, next, shot, actions[1..]);
      assert forall i :: |st.calls| <= i < |next.calls| ==> r.st.calls[i] == next.calls[i];
    }
  }

  /** The second half of a pass, once the model has replied: an empty prediction ends
      the pass; otherwise the reply is logged as a gpt turn and its actions run. */
  function Reply(env: Env, st: Loop, shot: Screenshot, p: Prediction): (r: Step)
    ensures Extends(st, r.st) && SameBudgets(st, r.st)
    ensures r.st.shots == st.shots && r.st.invokes == st.invokes
    ensures r.st.data.errMsg == st.data.errMsg
    ensures NoErrorCallFrom(r.st.calls, |st.calls|)
    ensures forall i :: |st.calls| <= i < |r.st.calls| ==> !r.st.calls[i].Invoke?
    ensures |p.prediction| == 0 ==> r == Next(st)
    ensures r.st.data.conversations ==
              st.data.conversations + (if |p.prediction| == 0 then [] else [GptEntry(env.summary(p.prediction), shot, p.parsedPredictions)])
  {
    if |p.prediction| == 0 then Next(st)
    else
      var st1 := Record(st, GptEntry(env.summary(p.prediction), shot, p.parsedPredictions));
      RunActions(env, st1, shot, p.parsedPredictions)
  }

  /** Logging the screenshot as a human turn and sending the log to the model. */
  function Asked(cfg: Config, st: Loop, shot: Screenshot): (r: Loop)
    ensures Extends(st, r) && SameBudgets(st, r) && r.shots == st.shots && r.invokes == st.invokes + 1
    ensures r.checks == st.checks && r.execs == st.execs
    ensures r.data.errMsg == st.data.errMsg
    ensures r.data.conversations == st.data.conversations + [HumanEntry(cfg, shot)]
    ensures NoErrorCallFrom(r.calls, |st.calls|)
    ensures forall i :: |st.calls| <= i < |r.calls| ==>
              && !r.calls[i].Execute?
              && (r.calls[i].Invoke? ==> r.calls[i] == Invoke(st.data.conversations + [HumanEntry(cfg, shot)], st.data.systemPrompt))
  {
    var st1 := Record(st, HumanEntry(cfg, shot));
    st1.(invokes := st1.invokes + 1, calls := st1.calls + [Invoke(st1.data.conversations, st1.data.systemPrompt)])
  }

  /** The middle of a pass for a valid screenshot: log it as a human turn, then ask the
      model, which sees the log including that turn. */
  function Observe(cfg: Config, env: Env, st: Loop, shot: Screenshot): (r: Step)
    ensures Extends(st, r.st) && SameBudgets(st, r.st) && r.st.shots == st.shots
    ensures r.st.data.errMsg == st.data.errMsg
    ensures NoErrorCallFrom(r.st.calls, |st.calls|)
    ensures var n := |st.data.conversations|;
              && n < |r.st.data.conversations| <= n + 2
              && r.st.data.conversations[n] == HumanEntry(cfg, shot)
              && (|r.st.data.conversations| == n + 2 ==> r.st.data.conversations[n + 1].from == Gpt)
    ensures forall i :: |st.calls| <= i < |r.st.calls| && r.st.calls[i].Invoke? ==>
              r.st.calls[i] == Invoke(st.data.conversations + [HumanEntry(cfg, shot)], st.data.systemPrompt)
    ensures var reply := env.invoke(st.invokes);
            reply.Success? && |reply.value.prediction| == 0 ==>
              && r.Next?
              && |r.st.data.conversations| == |st.data.conversations| + 1
              && forall i :: |st.calls| <= i < |r.st.calls| ==> !r.st.calls[i].Execute?
  {
    var st2 := Asked(cfg, st, shot);
    match env.invoke(st.invokes)
    case Failure(e) => Raised(st2, e)
    case Success(p) => Reply(env, st2, shot, p)
  }

  /** One pass through the loop body after the cap test has passed. Each pass spends one
      unit of exactly one budget: an invalid screenshot gives its loop count back and
      costs a screenshot failure instead. */
  function Iterate(cfg: Config, env: Env, st: Loop): (r: Step)
    requires st.loopCnt < cfg.maxLoopCount && st.snapshotErrCnt < cfg.maxSnapshotErrCnt
    ensures Extends(st, r.st)
    ensures r.Next? ==> r.st.loopCnt + r.st.snapshotErrCnt == st.loopCnt + st.snapshotErrCnt + 1
    ensures r.Next? ==> st.loopCnt <= r.st.loopCnt && st.snapshotErrCnt <= r.st.snapshotErrCnt
    ensures r.st.data.errMsg == st.data.errMsg
    ensures r.st.shots == st.shots + 1 && |r.st.calls| > |st.calls| && r.st.calls[|st.calls|] == TakeScreenshot
    ensures NoErrorCallFrom(r.st.calls, |st.calls|)
  {
    var st1 := st.(loopCnt := st.loopCnt + 1, shots := st.shots + 1, calls := st.calls + [TakeScreenshot]);
    match env.screenshot(st.shots)
    case Failure(e) => Raised(st1, e)
    case Success(shot) =>
      if !IsValidImage(shot) then
        Next(st1.(loopCnt := st.loopCnt, snapshotErrCnt := st.snapshotErrCnt + 1, calls := st1.calls + [Sleep(1000)]))
      else
        var r := Observe(cfg, env, st1, shot);
        assert r.st.calls[|st.calls|] == st1.calls[|st.calls|];
        r
  }

  /** A pass whose screenshot failed or came back without image data logs nothing and
      calls neither the model nor the operator; an invalid image costs one screenshot
      failure, gives the loop count back and pauses for a second. */
  lemma PassWithoutImage(cfg: Config, env: Env, st: Loop)
    requires st.loopCnt < cfg.maxLoopCount && st.snapshotErrCnt < cfg.maxSnapshotErrCnt
    requires !(env.screenshot(st.shots).Success? && IsValidImage(env.screenshot(st.shots).value))
    ensures var r := Iterate(cfg, env, st);
              && r.st.data.conversations == st.data.conversations
              && NoModelOrOperatorFrom(r.st.calls, |st.calls|)
    ensures env.screenshot(st.shots).Success? ==>
              Iterate(cfg, env, st) == Next(st.(snapshotErrCnt := st.snapshotErrCnt + 1, shots := st.shots + 1,
                                                calls := st.calls + [TakeScreenshot, Sleep(1000)]))
  {
  }

  /** A pass with a valid screenshot logs one human turn holding it, then at most one gpt
      turn; the model sees the log including the new turn; an empty prediction logs no
      gpt turn and executes nothing. */
  lemma PassWithImage(cfg: Config, env: Env, st: Loop)
    requires st.loopCnt < cfg.maxLoopCount && st.snapshotErrCnt < cfg.maxSnapshotErrCnt
    requires env.screenshot(st.shots).Success? && IsValidImage(env.screenshot(st.shots).value)
    ensures var r := Iterate(cfg, env, st); var shot := env.screenshot(st.shots).value; var n := |st.data.conversations|;
              && n < |r.st.data.conversations| <= n + 2
              && r.st.data.conversations[n] == HumanEntry(cfg, shot)
              && (|r.st.data.conversations| == n + 2 ==> r.st.data.conversations[n + 1].from == Gpt)
    ensures var r := Iterate(cfg, env, st); var shot := env.screenshot(st.shots).value;
              forall i :: |st.calls| <= i < |r.st.calls| && r.st.calls[i].Invoke? ==>
                r.st.calls[i] == Invoke(st.data.conversations + [HumanEntry(cfg, shot)], st.data.systemPrompt)
    ensures var r := Iterate(cfg, env, st); var reply := env.invoke(st.invokes);
              reply.Success? && |reply.value.prediction| == 0 ==>
                && r.Next?
                && |r.st.data.conversations| == |st.data.conversations| + 1
                && forall i :: |st.calls| <= i < |r.st.calls| ==> !r.st.calls[i].Execute?
  {
    var st1 := st.(loopCnt := st.loopCnt + 1, shots := st.shots + 1, calls := st.calls + [TakeScreenshot]);
    IterateObserves(cfg, env, st);
    var r := Observe(cfg, env, st1, env.screenshot(st.shots).value);
    assert r.st.calls[|st.calls|] == TakeScreenshot;
  }

  lemma IterateObserves(cfg: Config, env: Env, st: Loop)
    requires st.loopCnt < cfg.maxLoopCount && st.snapshotErrCnt < cfg.maxSnapshotErrCnt
    requires env.screenshot(st.shots).Success? && IsValidImage(env.screenshot(st.shots).value)
    ensures Iterate(cfg, env, st) ==
              Observe(cfg, env, st.(loopCnt := st.loopCnt + 1, shots := st.shots + 1, calls := st.calls + [TakeScreenshot]),
                      env.screenshot(st.shots).value)
  {
  }

  /** What is left of the two budgets. */
  function Budget(cfg: Config, st: Loop): nat {
    (if st.loopCnt <= cfg.maxLoopCount then cfg.maxLoopCount - st.loopCnt else 0)
    + (if st.snapshotErrCnt <= cfg.maxSnapshotErrCnt then cfg.maxSnapshotErrCnt - st.snapshotErrCnt else 0)
  }

  /** The `while (true)` loop, up to the point where it breaks or throws. No fuel is
      needed: every pass spends one unit of a capped budget. */
  function LoopFrom(cfg: Config, env: Env, st: Loop): (r: Step)
    ensures Extends(st, r.st)
    ensures NoErrorCallFrom(r.st.calls, |st.calls|)
    ensures r.Next? && r.st.data.errMsg != st.data.errMsg ==>
              r.st.data.status == MaxLoop && r.st.data.errMsg == CapMessage(cfg, r.st.loopCnt, r.st.snapshotErrCnt)
    decreases Budget(cfg, st)
  {
    var aborted := env.aborted(st.checks);
    var st1 := st.(checks := st.checks + 1);
    if st1.data.status != Running || aborted then
      Next(if aborted then Announce(st1, End) else st1)
    else match CapMessage(cfg, st1.loopCnt, st1.snapshotErrCnt)
      case Some(msg) => Next(RecordCap(st1, msg))
      case None =>
        match Iterate(cfg, env, st1)
        case Raised(st2, e) => Raised(st2, e)
        case Next(st2) =>
          assert Budget(cfg, st2) < Budget(cfg, st1);
          var r := LoopFrom(cfg, env, st2);
          r
  }

  /** The `finally` block: the status is forced to END. */
  function Finally(st: Loop): (r: Loop)
    ensures r.data.status == End
    ensures Extends(st, r)
    ensures r.data.conversations == st.data.conversations && r.data.errMsg == st.data.errMsg
    ensures NoErrorCallFrom(r.calls, |st.calls|)
  {
    Announce(st, End)
  }

  /** The state the loop starts from: the initial log, status RUNNING. */
  function Started(cfg: Config, instruction: string): (r: Loop)
    ensures r.data.status == Running && r.data.errMsg.None?
    ensures r.data.conversations == [InstructionEntry(instruction)]
    ensures r.shots == 0 && r.invokes == 0 && r.execs == 0 && r.checks == 0
    ensures NoErrorCallFrom(r.calls, 0)
  {
    Announce(Loop(Initial(cfg.systemPrompt, instruction, cfg.modelName), 0, 0, 0, 0, 0, 0, [], cfg.hasOnData), Running)
  }

  /** The `catch` and `finally` blocks, given how the loop was left: a cancelled request
      is swallowed, any other error goes to `onError` (when configured) and is rethrown,
      and the status is forced to END either way. */
  function Conclude(cfg: Config, l: Step): (r: RunResult)
    ensures r.final.data.status == End
    ensures Extends(l.st, r.final)
    ensures r.final.data.conversations == l.st.data.conversations && r.final.data.errMsg == l.st.data.errMsg
    ensures r.final.shots == l.st.shots && r.final.invokes == l.st.invokes && r.final.execs == l.st.execs
    ensures r.outcome.Threw? <==> l.Raised? && !IsAbort(l.error)
    ensures r.outcome.Threw? ==> r.outcome.error == l.error
    ensures r.outcome.Returned? ==> forall i :: |l.st.calls| <= i < |r.final.calls| ==> r.final.calls[i].OnData?
  {
    match l
    case Next(st) => RunResult(Finally(st), Returned)
    case Raised(st, e) =>
      if IsAbort(e) then RunResult(Finally(st), Returned)
      else
        var report := if cfg.hasOnError then [OnError(st.data, -1, ServiceError, Render(e))] else [];
        var st1 := st.(calls := st.calls + report);
        Seqs.PrefixTransitive(st.calls, st1.calls, Finally(st1).calls);
        RunResult(Finally(st1), Threw(e))
  }

  /** `GUIAgent.run(instruction)`. However the loop is left, the final status is END,
      the instruction stays the first turn, and a cancelled request is never rethrown. */
  function Run(cfg: Config, env: Env, instruction: string): (r: RunResult)
    ensures r.final.data.status == End
    ensures |r.final.data.conversations| >= 1 && r.final.data.conversations[0] == InstructionEntry(instruction)
    ensures r.outcome.Threw? ==> !IsAbort(r.outcome.error)
  {
    Conclude(cfg, LoopFrom(cfg, env, Started(cfg, instruction)))
  }

  /** Error reporting: a run that returns never calls `onError`; a run that throws calls
      it exactly once when a callback is configured, with code -1, the fixed service-error
      text and the rendered error as its stack, and never when none is. */
  lemma RunReportsErrorsOnce(cfg: Config, env: Env, instruction: string)
    ensures var r := Run(cfg, env, instruction);
              r.outcome.Returned? || !cfg.hasOnError ==> NoErrorCallFrom(r.final.calls, 0)
    ensures var r := Run(cfg, env, instruction);
              r.outcome.Threw? && cfg.hasOnError ==>
                exists i :: 0 <= i < |r.final.calls| && r.final.calls[i].OnError?
                  && r.final.calls[i].code == -1 && r.final.calls[i].error == ServiceError
                  && r.final.calls[i].stack == Render(r.outcome.error)
                  && NoErrorCallFrom(r.final.calls[..i], 0) && NoErrorCallFrom(r.final.calls, i + 1)
  {
    var st1 := Started(cfg, instruction);
    var l := LoopFrom(cfg, env, st1);
    var st2 := l.st;
    assert NoErrorCallFrom(st2.calls, 0);
    assert Run(cfg, env, instruction) == Conclude(cfg, l);
    if l.Raised? && !IsAbort(l.error) {
      var report := if cfg.hasOnError then [OnError(st2.data, -1, ServiceError, Render(l.error))] else [];
      assert Conclude(cfg, l) == RunResult(Finally(st2.(calls := st2.calls + report)), Threw(l.error));
      ReportedThenFinally(st2, report);
    }
  }

  /** The `finally` block after the `catch` has reported (or not) keeps the report as the
      only `onError` call. */
  lemma ReportedThenFinally(st: Loop, report: seq<Call>)
    requires NoErrorCallFrom(st.calls, 0) && |report| <= 1
    ensures var r := Finally(st.(calls := st.calls + report));
              && |st.calls| + |report| <= |r.calls|
              && (|report| == 1 ==> r.calls[|st.calls|] == report[0] && r.calls[..|st.calls|] == st.calls)
              && NoErrorCallFrom(r.calls, |st.calls| + |report|)
              && (|report| == 0 ==> NoErrorCallFrom(r.calls, 0))
  {
    var st3 := st.(calls := st.calls + report);
    var r := Finally(st3);
    assert Seqs.Prefix(st3.calls, r.calls);
    if |report| == 1 {
      assert r.calls[|st.calls|] == st3.calls[|st.calls|];
      assert r.calls[..|st.calls|] == st.calls by {
        assert forall k :: 0 <= k < |st.calls| ==> r.calls[k] == st3.calls[k] == st.calls[k];
      }
    } else {
      assert st3.calls == st.calls;
    }
  }

  /** An environment whose screenshots all resolve but are never valid images. */
  ghost predicate BlankScreen(env: Env) {
    && (forall k :: !env.aborted(k))
    && (forall k :: env.screenshot(k).Success? && !IsValidImage(env.screenshot(k).value))
  }

  /** An environment in which every pass goes through: valid screenshots, non-empty
      replies whose actions all leave the run RUNNING, and executions that succeed. */
  ghost predicate EndlessTask(env: Env) {
    && (forall k :: !env.aborted(k))
    && (forall k :: env.screenshot(k).Success? && IsValidImage(env.screenshot(k).value))
    && (forall k :: env.invoke(k).Success? && |env.invoke(k).value.prediction| > 0)
    && (forall k, j :: 0 <= j < |env.invoke(k).value.parsedPredictions| ==>
          StatusAfter(env.invoke(k).value.parsedPredictions[j].actionType) == Running)
    && (forall k :: env.execute(k).Success?)
  }

  lemma {:induction false} BlankScreenLoop(cfg: Config, env: Env, st: Loop)
    requires BlankScreen(env)
    requires st.data.status == Running
    requires st.loopCnt < cfg.maxLoopCount && st.snapshotErrCnt <= cfg.maxSnapshotErrCnt
    ensures var r := LoopFrom(cfg, env, st);
              && r.Next?
              && r.st.data.status == MaxLoop
              && r.st.data.errMsg == Some(ScreenshotCapMessage)
              && r.st.data.conversations == st.data.conversations
              && r.st.shots == st.shots + (cfg.maxSnapshotErrCnt - st.snapshotErrCnt)
              && NoModelOrOperatorFrom(r.st.calls, |st.calls|)
    decreases cfg.maxSnapshotErrCnt - st.snapshotErrCnt
  {
    var st1 := st.(checks := st.checks + 1);
    assert !env.aborted(st.checks);
    if st.snapshotErrCnt >= cfg.maxSnapshotErrCnt {
      assert LoopFrom(cfg, env, st) == Next(RecordCap(st1, ScreenshotCapMessage));
    } else {
      var st2 := st1.(snapshotErrCnt := st1.snapshotErrCnt + 1, shots := st1.shots + 1,
                      calls := st1.calls + [TakeScreenshot, Sleep(1000)]);
      assert env.screenshot(st1.shots).Success? && !IsValidImage(env.screenshot(st1.shots).value);
      PassWithoutImage(cfg, env, st1);
      LoopFromStep(cfg, env, st);
      BlankScreenLoop(cfg, env, st2);
      var r := LoopFrom(cfg, env, st2);
      assert forall i :: |st.calls| <= i < |st2.calls| ==> r.st.calls[i] == st2.calls[i];
    }
  }

  /** Screenshot cap: when every screenshot comes back without image data, the run stops
      after exactly the allowed number of failures, records why, never calls the model
      or the operator, and logs nothing beyond the instruction. */
  lemma ScreenshotCapReached(cfg: Config, env: Env, instruction: string)
    requires BlankScreen(env)
    requires cfg.maxLoopCount > 0
    ensures var r := Run(cfg, env, instruction);
              && r.outcome.Returned?
              && r.final.data.errMsg == Some(ScreenshotCapMessage)
              && r.final.shots == cfg.maxSnapshotErrCnt
              && r.final.data.conversations == [InstructionEntry(instruction)]
              && NoModelOrOperatorFrom(r.final.calls, 0)
  {
    var st1 := Started(cfg, instruction);
    BlankScreenLoop(cfg, env, st1);
  }

  /** One pass of an endless task: the loop count goes up by one, one model call is
      made, a human and a gpt turn are logged and the run stays RUNNING. */
  lemma EndlessPass(cfg: Config, env: Env, st: Loop)
    requires EndlessTask(env)
    requires st.data.status == Running
    requires st.loopCnt < cfg.maxLoopCount && st.snapshotErrCnt < cfg.maxSnapshotErrCnt
    ensures var r := Iterate(cfg, env, st);
              && r.Next?
              && r.st.loopCnt == st.loopCnt + 1 && r.st.snapshotErrCnt == st.snapshotErrCnt
              && r.st.invokes == st.invokes + 1
              && |r.st.data.conversations| == |st.data.conversations| + 2
              && r.st.data.status == Running
  {
    assert env.screenshot(st.shots).Success? && IsValidImage(env.screenshot(st.shots).value);
    var shot := env.screenshot(st.shots).value;
    var st1 := st.(loopCnt := st.loopCnt + 1, shots := st.shots + 1, calls := st.calls + [TakeScreenshot]);
    assert Iterate(cfg, env, st) == Observe(cfg, env, st1, shot);
    var st2 := Asked(cfg, st1, shot);
    assert env.invoke(st1.invokes).Success? && |env.invoke(st1.invokes).value.prediction| > 0;
    var p := env.invoke(st1.invokes).value;
    assert Observe(cfg, env, st1, shot) == Reply(env, st2, shot, p);
    EndlessReply(env, st2, shot, p);
  }

  /** In an endless task, a reply logs one gpt turn, executes its actions and leaves the
      run RUNNING. */
  lemma EndlessReply(env: Env, st: Loop, shot: Screenshot, p: Prediction)
    requires forall k :: !env.aborted(k)
    requires forall k :: env.execute(k).Success?
    requires |p.prediction| > 0 && st.data.status == Running
    requires forall j :: 0 <= j < |p.parsedPredictions| ==> StatusAfter(p.parsedPredictions[j].actionType) == Running
    ensures var r := Reply(env, st, shot, p);
              && r.Next? && SameBudgets(st, r.st) && r.st.invokes == st.invokes
              && |r.st.data.conversations| == |st.data.conversations| + 1
              && r.st.data.status == Running
  {
    var st3 := Record(st, GptEntry(env.summary(p.prediction), shot, p.parsedPredictions));
    assert Reply(env, st, shot, p) == RunActions(env, st3, shot, p.parsedPredictions);
    ActionsExecutedInOrder(env, st3, shot, p.parsedPredictions);
    if |p.parsedPredictions| > 0 {
      assert StatusAfter(p.parsedPredictions[|p.parsedPredictions| - 1].actionType) == Running;
    }
  }

  /** A pass that completes hands the loop on to the next cap test. */
  lemma LoopFromStep(cfg: Config, env: Env, st: Loop)
    requires st.data.status == Running && !env.aborted(st.checks)
    requires st.loopCnt < cfg.maxLoopCount && st.snapshotErrCnt < cfg.maxSnapshotErrCnt
    requires Iterate(cfg, env, st.(checks := st.checks + 1)).Next?
    ensures LoopFrom(cfg, env, st) == LoopFrom(cfg, env, Iterate(cfg, env, st.(checks := st.checks + 1)).st)
  {
    var st1 := st.(checks := st.checks + 1);
    assert CapMessage(cfg, st1.loopCnt, st1.snapshotErrCnt).None?;
  }

  lemma {:induction false} EndlessLoop(cfg: Config, env: Env, st: Loop)
    requires EndlessTask(env)
    requires st.data.status == Running
    requires st.loopCnt <= cfg.maxLoopCount && st.snapshotErrCnt < cfg.maxSnapshotErrCnt
    ensures var r := LoopFrom(cfg, env, st);
              && r.Next?
              && r.st.data.status == MaxLoop
              && r.st.data.errMsg == Some(LoopCapMessage)
              && r.st.invokes == st.invokes + (cfg.maxLoopCount - st.loopCnt)
              && |r.st.data.conversations| == |st.data.conversations| + 2 * (cfg.maxLoopCount - st.loopCnt)
    decreases cfg.maxLoopCount - st.loopCnt
  {
    var st1 := st.(checks := st.checks + 1);
    assert !env.aborted(st.checks);
    if st.loopCnt >= cfg.maxLoopCount {
      assert LoopFrom(cfg, env, st) == Next(RecordCap(st1, LoopCapMessage));
    } else {
      EndlessPass(cfg, env, st1);
      var st2 := Iterate(cfg, env, st1).st;
      LoopFromStep(cfg, env, st);
      EndlessLoop(cfg, env, st2);
      var r := LoopFrom(cfg, env, st2);
      assert r.st.invokes == st2.invokes + (cfg.maxLoopCount - st2.loopCnt);
      assert cfg.maxLoopCount - st2.loopCnt == cfg.maxLoopCount - st.loopCnt - 1;
    }
  }

  /** Loop cap: when every pass goes through and no action ends the run, the model is
      called exactly `maxLoopCount` times, each pass logs two turns, and the run stops
      with the loop-cap message. */
  lemma LoopCapReached(cfg: Config, env: Env, instruction: string)
    requires EndlessTask(env)
    requires cfg.maxSnapshotErrCnt > 0
    ensures var r := Run(cfg, env, instruction);
              && r.outcome.Returned?
              && r.final.data.errMsg == Some(LoopCapMessage)
              && r.final.invokes == cfg.maxLoopCount
              && |r.final.data.conversations| == 1 + 2 * cfg.maxLoopCount
  {
    var st1 := Started(cfg, instruction);
    EndlessLoop(cfg, env, st1);
  }

  /** An abort seen at the cap test ends the loop at once: END is announced and nothing
      else happens, so no screenshot, model call or execution follows. */
  lemma AbortObservedEndsLoop(cfg: Config, env: Env, st: Loop)
    requires env.aborted(st.checks)
    ensures var r := LoopFrom(cfg, env, st);
              && r.Next? && r.st.data.status == End
              && r.st.data.conversations == st.data.conversations && r.st.data.errMsg == st.data.errMsg
              && r.st.shots == st.shots && r.st.invokes == st.invokes && r.st.execs == st.execs
              && forall i :: |st.calls| <= i < |r.st.calls| ==> r.st.calls[i].OnData?
  {
  }

  /** Whichever pass the loop sees the abort in, the rest of the run returns normally:
      the status ends at END, the log and the error message stay as they were, and no
      screenshot, model call, execution or `onError` call follows. */
  lemma AbortObservedEndsRun(cfg: Config, env: Env, st: Loop)
    requires env.aborted(st.checks)
    ensures var r := Conclude(cfg, LoopFrom(cfg, env, st));
              && r.outcome.Returned? && r.final.data.status == End
              && r.final.data.conversations == st.data.conversations && r.final.data.errMsg == st.data.errMsg
              && r.final.shots == st.shots && r.final.invokes == st.invokes && r.final.execs == st.execs
              && forall i :: |st.calls| <= i < |r.final.calls| ==> r.final.calls[i].OnData?
  {
    AbortObservedEndsLoop(cfg, env, st);
    var l := LoopFrom(cfg, env, st);
    var r := Conclude(cfg, l);
    assert forall i :: |st.calls| <= i < |l.st.calls| ==> r.final.calls[i] == l.st.calls[i];
  }

  /** The checks of the signal still to come before check `k`. */
  function Unaborted(k: nat, checks: nat): nat {
    if checks < k then k - checks else 0
  }

  /** What a run has spent on the operator: screenshots taken and actions executed. */
  function Spent(st: Loop): nat {
    st.shots + st.execs
  }

  /** Every `execute` is preceded by its own check that read not aborted. */
  lemma {:induction false} ActionsWithinChecks(env: Env, st: Loop, shot: Screenshot, actions: seq<PredictionParsed>, k: nat)
    requires forall j :: k <= j ==> env.aborted(j)
    ensures var r := RunActions(env, st, shot, actions);
              Spent(r.st) + Unaborted(k, r.st.checks) <= Spent(st) + Unaborted(k, st.checks)
    decreases |actions|
  {
    if |actions| > 0 {
      var a := actions[0];
      var st1 := Announce(st, StatusAfter(a.actionType));
      if a.actionType == "wait" {
        assert RunActions(env, st, shot, actions) == RunActions(env, st1, shot, actions[1..]);
        ActionsWithinChecks(env, st1, shot, actions[1..], k);
      } else {
        var st2 := st1.(checks := st1.checks + 1);
        if env.aborted(st1.checks) {
          assert RunActions(env, st, shot, actions) == RunActions(env, st2, shot, actions[1..]);
          ActionsWithinChecks(env, st2, shot, actions[1..], k);
        } else {
          var st3 := st2.(execs := st2.execs + 1, calls := st2.calls + [Execute(a, shot.width, shot.height)]);
          if env.execute(st2.execs).Success? {
            assert RunActions(env, st, shot, actions) == RunActions(env, st3, shot, actions[1..]);
            ActionsWithinChecks(env, st3, shot, actions[1..], k);
          } else {
            assert RunActions(env, st, shot, actions) == Raised(st3, env.execute(st2.execs).error);
          }
        }
      }
    }
  }

  /** Logging a screenshot and asking the model spends no check of its own beyond those
      of the reply's actions, and asks the model at most once. */
  lemma ObserveWithinChecks(cfg: Config, env: Env, st: Loop, shot: Screenshot, k: nat)
    requires forall j :: k <= j ==> env.aborted(j)
    ensures var r := Observe(cfg, env, st, shot);
              && Spent(r.st) + Unaborted(k, r.st.checks) <= Spent(st) + Unaborted(k, st.checks)
              && r.st.invokes <= st.invokes + 1
  {
    var st2 := Asked(cfg, st, shot);
    match env.invoke(st.invokes)
    case Failure(e) =>
      assert Observe(cfg, env, st, shot) == Raised(st2, e);
    case Success(p) =>
      assert Observe(cfg, env, st, shot) == Reply(env, st2, shot, p);
      if |p.prediction| > 0 {
        var st3 := Record(st2, GptEntry(env.summary(p.prediction), shot, p.parsedPredictions));
        assert Reply(env, st2, shot, p) == RunActions(env, st3, shot, p.parsedPredictions);
        ActionsWithinChecks(env, st3, shot, p.parsedPredictions, k);
      }
  }

  /** A pass takes one screenshot, asks the model at most once and spends no check of its
      own beyond those of its actions. */
  lemma PassWithinChecks(cfg: Config, env: Env, st: Loop, k: nat)
    requires forall j :: k <= j ==> env.aborted(j)
    requires st.loopCnt < cfg.maxLoopCount && st.snapshotErrCnt < cfg.maxSnapshotErrCnt
    ensures var r := Iterate(cfg, env, st);
              && Spent(r.st) + Unaborted(k, r.st.checks) <= Spent(st) + 1 + Unaborted(k, st.checks)
              && r.st.invokes - st.invokes <= r.st.shots - st.shots
  {
    var st1 := st.(loopCnt := st.loopCnt + 1, shots := st.shots + 1, calls := st.calls + [TakeScreenshot]);
    if env.screenshot(st.shots).Success? && IsValidImage(env.screenshot(st.shots).value) {
      IterateObserves(cfg, env, st);
      ObserveWithinChecks(cfg, env, st1, env.screenshot(st.shots).value, k);
    }
  }

  /** A loop left at its test spends its one check and nothing else. */
  lemma LoopLeftAtTest(cfg: Config, env: Env, st: Loop)
    requires st.data.status != Running || env.aborted(st.checks) || CapMessage(cfg, st.loopCnt, st.snapshotErrCnt).Some?
    ensures var r := LoopFrom(cfg, env, st);
              && r.Next? && r.st.checks == st.checks + 1
              && r.st.shots == st.shots && r.st.invokes == st.invokes && r.st.execs == st.execs
  {
  }

  /** The step of `LoopWithinChecks`: a pass, then the rest of the loop. */
  lemma PassThenLoop(cfg: Config, env: Env, st: Loop, k: nat)
    requires forall j :: k <= j ==> env.aborted(j)
    requires st.data.status == Running && !env.aborted(st.checks)
    requires st.loopCnt < cfg.maxLoopCount && st.snapshotErrCnt < cfg.maxSnapshotErrCnt
    requires Iterate(cfg, env, st.(checks := st.checks + 1)).Next?
    requires var i := Iterate(cfg, env, st.(checks := st.checks + 1)); var r := LoopFrom(cfg, env, i.st);
               && Spent(r.st) + Unaborted(k, r.st.checks) <= Spent(i.st) + Unaborted(k, i.st.checks)
               && r.st.invokes - i.st.invokes <= r.st.shots - i.st.shots
    ensures var r := LoopFrom(cfg, env, st);
              && Spent(r.st) + Unaborted(k, r.st.checks) <= Spent(st) + Unaborted(k, st.checks)
              && r.st.invokes - st.invokes <= r.st.shots - st.shots
  {
    assert st.checks < k;
    PassWithinChecks(cfg, env, st.(checks := st.checks + 1), k);
    LoopFromStep(cfg, env, st);
  }

  /** A pass that throws ends the loop with its error. */
  lemma LoopFromRaised(cfg: Config, env: Env, st: Loop)
    requires st.data.status == Running && !env.aborted(st.checks)
    requires st.loopCnt < cfg.maxLoopCount && st.snapshotErrCnt < cfg.maxSnapshotErrCnt
    requires Iterate(cfg, env, st.(checks := st.checks + 1)).Raised?
    ensures LoopFrom(cfg, env, st) == Iterate(cfg, env, st.(checks := st.checks + 1))
  {
    var st1 := st.(checks := st.checks + 1);
    assert CapMessage(cfg, st1.loopCnt, st1.snapshotErrCnt).None?;
  }

  /** The throwing step of `LoopWithinChecks`. */
  lemma PassRaised(cfg: Config, env: Env, st: Loop, k: nat)
    requires forall j :: k <= j ==> env.aborted(j)
    requires st.data.status == Running && !env.aborted(st.checks)
    requires st.loopCnt < cfg.maxLoopCount && st.snapshotErrCnt < cfg.maxSnapshotErrCnt
    requires Iterate(cfg, env, st.(checks := st.checks + 1)).Raised?
    ensures var r := LoopFrom(cfg, env, st);
              && Spent(r.st) + Unaborted(k, r.st.checks) <= Spent(st) + Unaborted(k, st.checks)
              && r.st.invokes - st.invokes <= r.st.shots - st.shots
  {
    assert st.checks < k;
    PassWithinChecks(cfg, env, st.(checks := st.checks + 1), k);
    LoopFromRaised(cfg, env, st);
  }

  /** Every screenshot is preceded by its own check that read not aborted. */
  lemma {:induction false} LoopWithinChecks(cfg: Config, env: Env, st: Loop, k: nat)
    requires forall j :: k <= j ==> env.aborted(j)
    ensures var r := LoopFrom(cfg, env, st);
              && Spent(r.st) + Unaborted(k, r.st.checks) <= Spent(st) + Unaborted(k, st.checks)
              && r.st.invokes - st.invokes <= r.st.shots - st.shots
    decreases Budget(cfg, st)
  {
    if st.data.status != Running || env.aborted(st.checks) || CapMessage(cfg, st.loopCnt, st.snapshotErrCnt).Some? {
      LoopLeftAtTest(cfg, env, st);
    } else {
      var i := Iterate(cfg, env, st.(checks := st.checks + 1));
      if i.Next? {
        LoopWithinChecks(cfg, env, i.st, k);
        PassThenLoop(cfg, env, st, k);
      } else {
        PassRaised(cfg, env, st, k);
      }
    }
  }

  /** A signal that reads aborted from its `k`-th check on (an `AbortSignal` never turns
      back) bounds the whole run: at most `k` screenshots and executions together, since
      each needs a check of its own that read not aborted, and no more model calls than
      screenshots. */
  lemma RunAbortedFromCheck(cfg: Config, env: Env, instruction: string, k: nat)
    requires forall j :: k <= j ==> env.aborted(j)
    ensures var r := Run(cfg, env, instruction);
              && r.final.shots + r.final.execs <= k
              && r.final.invokes <= r.final.shots
  {
    LoopWithinChecks(cfg, env, Started(cfg, instruction), k);
  }

  /** A signal aborted before the first pass: the run ends without taking a screenshot,
      without an error message and without an `onError` call. */
  lemma AbortedBeforeFirstPass(cfg: Config, env: Env, instruction: string)
    requires env.aborted(0)
    ensures var r := Run(cfg, env, instruction);
              && r.outcome.Returned?
              && r.final.data.status == End
              && r.final.data.errMsg.None?
              && r.final.shots == 0
              && r.final.data.conversations == [InstructionEntry(instruction)]
              && forall i :: 0 <= i < |r.final.calls| ==> r.final.calls[i].OnData?
  {
    var st1 := Started(cfg, instruction);
    AbortObservedEndsRun(cfg, env, st1);
    assert forall i :: 0 <= i < |st1.calls| ==> st1.calls[i].OnData?;
  }
}

=== FILE: instruction_provider.dfy ===
/** The provider for models without native tool calling (`InstructionToolCallProvider`):
    tools are described in the system prompt, calls are read from `<tool_call>` blocks of
    the reply text, and all tool results go back in one user message. */
module InstructionProvider {
  import opened Wrappers
  import opened ToolCalling
  import Json
  import Text
  import TagBlocks
  import AgentTypes
  import Seqs

  const CallOpen: string := "<tool_call>"
  const CallClose: string := "</tool_call>"
  const ThinkingOpen: string := "<thinking>"
  const ThinkingClose: string := "</thinking>"

  /** The text of the prompt after the tool descriptions. */
  const FormatGuide: string :=
    "\n\nTo use a tool, your response MUST use the following format:\n\n"
    + "<thinking>\nYour step-by-step reasoning about what tool to use and why\n</thinking>\n\n"
    + "<tool_call>\n{\n  \"name\": \"tool_name\",\n  \"parameters\": {\n    \"param1\": \"value1\",\n"
    + "    \"param2\": \"value2\"\n  }\n}\n</tool_call>\n\n"
    + "If you want to provide a final answer without using tools, respond in a conversational "
    + "manner WITHOUT using the tool_call format.\n\n"
    + "When you receive tool results, they will be provided in a user message. Use these results "
    + "to continue your reasoning or provide a final answer.\n"

  const ToolsIntro: string := "\n\nYou have access to the following tools:\n\n"

  /** One line per schema property: name, a required marker, description and type. */
  function ParamLine(name: string, prop: PropertySchema, required: seq<string>): string {
    "- " + name + (if name in required then " (required)" else "") + ": "
    + (if AgentTypes.Truthy(prop.description) then prop.description.value else "No description")
    + " (type: " + AgentTypes.Rendered(prop.typeName) + ")"
  }

  function ParamsDescription(schema: JsonSchema): string {
    var props := schema.properties;
    Text.Join(seq(|props|, i requires 0 <= i < |props| => ParamLine(props[i].0, props[i].1, schema.required)), "\n")
  }

  /** The heading and description that open a tool's section of the prompt. */
  function ToolHeading(tool: ToolDefinition): string {
    "## " + tool.name + "\n\nDescription: " + tool.description
  }

  /** The parameter list of a tool's section, or a note that it takes none. */
  function ToolParameters(tool: ToolDefinition): string {
    var params := ParamsDescription(tool.schema);
    "\n\nParameters:\n" + (if |params| == 0 then "No parameters required" else params)
  }

  function ToolSection(tool: ToolDefinition): string {
    ToolHeading(tool) + ToolParameters(tool)
  }

  function ToolSections(tools: seq<ToolDefinition>): (r: seq<string>)
    ensures |r| == |tools| && forall i :: 0 <= i < |tools| ==> r[i] == ToolSection(tools[i])
  {
    seq(|tools|, i requires 0 <= i < |tools| => ToolSection(tools[i]))
  }

  /** `preparePrompt`: the instructions alone when there are no tools; otherwise the
      instructions, a section per tool in order, and the call format. */
  function PreparePrompt(instructions: string, tools: seq<ToolDefinition>): (r: string)
    ensures |tools| == 0 ==> r == instructions
    ensures |tools| > 0 ==> Text.StartsWith(r, instructions + ToolsIntro) && Text.EndsWith(r, FormatGuide)
  {
    if |tools| == 0 then instructions
    else instructions + ToolsIntro + Text.Join(ToolSections(tools), "\n\n") + FormatGuide
  }

  /** Every tool is announced in the prompt under its own heading with its description. */
  lemma PromptDescribesEveryTool(instructions: string, tools: seq<ToolDefinition>, i: nat)
    requires i < |tools|
    ensures Text.Contains(PreparePrompt(instructions, tools), ToolHeading(tools[i]))
  {
    var sections := ToolSections(tools);
    var head := instructions + ToolsIntro;
    Text.JoinedPartContained(head, sections, "\n\n", FormatGuide, i);
    assert PreparePrompt(instructions, tools) == head + Text.Join(sections, "\n\n") + FormatGuide;
    assert sections[i] == ToolHeading(tools[i]) + ToolParameters(tools[i]);
    Text.ContainsPrefixOf(PreparePrompt(instructions, tools), ToolHeading(tools[i]), ToolParameters(tools[i]));
  }

  /** `prepareRequest`: no `tools` field (they are in the prompt), temperature 0.7 unless
      given, no streaming. */
  function PrepareRequest(model: string, messages: seq<Message>, temperature: Option<real>): (r: Request)
    ensures r.tools.None? && !r.stream
    ensures r.model == model && r.messages == messages
    ensures r.temperature == temperature.GetOr(DefaultTemperature)
  {
    Request(model, messages, None, temperature.GetOr(DefaultTemperature), false)
  }

  /** A block accepted as a tool call: its trimmed body parses, and the parsed value has a
      name. The arguments are the serialised `parameters`, or `{}` when they are absent. */
  function Decode(body: string, codec: Json.Codec): (r: Option<(string, string)>)
    ensures r.Some? ==> |r.value.0| > 0
    ensures r.Some? ==> codec.parse(Text.Trim(body)).Some?
    ensures r.Some? ==>
              var data := codec.parse(Text.Trim(body)).value;
              && Json.Member(data, "name") == Some(Json.JString(r.value.0))
              && r.value.1 == codec.stringify(Arguments(data))
  {
    match codec.parse(Text.Trim(body))
    case None => None
    case Some(data) =>
      match Json.Member(data, "name")
      case Some(name) =>
        if name.JString? && |name.s| > 0 then Some((name.s, codec.stringify(Arguments(data)))) else None
      case None => None
  }

  /** `toolCallData.parameters || {}` */
  function Arguments(data: Json.Value): (r: Json.Value)
    ensures Json.Member(data, "parameters").Some? && Json.Truthy(Json.Member(data, "parameters").value) ==>
              r == Json.Member(data, "parameters").value
    ensures !(Json.Member(data, "parameters").Some? && Json.Truthy(Json.Member(data, "parameters").value)) ==>
              r == Json.JObject([])
  {
    match Json.Member(data, "parameters")
    case Some(p) => if Json.Truthy(p) then p else Json.JObject([])
    case None => Json.JObject([])
  }

  /** The call a single block contributes: none, or the one it decodes to. */
  function Found(body: string, codec: Json.Codec): (r: seq<(string, string)>)
    ensures |r| <= 1
    ensures |r| == 1 <==> Decode(body, codec).Some?
    ensures |r| == 1 ==> r[0] == Decode(body, codec).value && |r[0].0| > 0
  {
    match Decode(body, codec)
    case None => []
    case Some(call) => [call]
  }

  function Finder(codec: Json.Codec): string -> seq<(string, string)> {
    body => Found(body, codec)
  }

  /** The (name, arguments) pairs of the accepted blocks, in the order of the blocks. */
  function Accepted(bodies: seq<string>, codec: Json.Codec): (r: seq<(string, string)>)
    ensures |bodies| == 0 ==> r == []
    ensures |bodies| == 1 ==> r == Found(bodies[0], codec)
  {
    Seqs.FlatMap(bodies, Finder(codec))
  }

  /** Acceptance is block by block: the calls of a longer text extend those of its first
      blocks, so the calls keep the textual order of their blocks. */
  lemma AcceptedAppend(a: seq<string>, b: seq<string>, codec: Json.Codec)
    ensures Accepted(a + b, codec) == Accepted(a, codec) + Accepted(b, codec)
  {
    Seqs.FlatMapAppend(a, b, Finder(codec));
  }

  /** `parseToolCallsFromContent`: the accepted calls of the tagged blocks, each given an id. */
  function ParseToolCalls(content: string, codec: Json.Codec, newId: nat -> string): seq<ToolCall>
  {
    var calls := Accepted(TagBlocks.ScanBlocks(content, CallOpen, CallClose).bodies, codec);
    seq(|calls|, i requires 0 <= i < |calls| => ToolCall(newId(i), calls[i].0, calls[i].1))
  }

  /** One call per accepted block, in the order of the blocks, the `k`-th carrying the id
      `newId(k)`. */
  lemma ParseToolCallsPerBlock(content: string, codec: Json.Codec, newId: nat -> string)
    ensures var calls := Accepted(TagBlocks.ScanBlocks(content, CallOpen, CallClose).bodies, codec);
            var r := ParseToolCalls(content, codec, newId);
              && |r| == |calls|
              && forall i :: 0 <= i < |r| ==> r[i] == ToolCall(newId(i), calls[i].0, calls[i].1)
  {
  }

  /** A reply without any `<tool_call>` tag requests no tool. */
  lemma NoTagNoCalls(content: string, codec: Json.Codec, newId: nat -> string)
    requires !Text.Contains(content, CallOpen)
    ensures ParseToolCalls(content, codec, newId) == []
  {
    assert TagBlocks.ScanBlocks(content, CallOpen, CallClose).bodies == [];
  }

  /** `parseResponse`: the content is passed on unchanged (null as empty), the calls are
      those parsed from it, and the finish reason says whether there are any. */
  function ParseResponse(reply: Reply, codec: Json.Codec, newId: nat -> string): (r: Parsed)
    ensures r.content == reply.content.GetOr("")
    ensures var calls := ParseToolCalls(r.content, codec, newId);
              && (r.finishReason == "tool_calls" <==> |calls| > 0)
              && (r.finishReason != "tool_calls" ==> r.finishReason == "stop")
              && (|calls| > 0 ==> r.toolCalls == Some(calls))
              && (|calls| == 0 ==> r.toolCalls.None?)
  {
    var content := reply.content.GetOr("");
    var calls := ParseToolCalls(content, codec, newId);
    Parsed(content, if |calls| > 0 then Some(calls) else None, if |calls| > 0 then "tool_calls" else "stop")
  }

  /** `removeToolCallsFromContent`: every thinking block removed and the rest trimmed,
      then every tool-call block removed and the rest trimmed again. */
  function RemoveToolCalls(content: string): (r: string)
    ensures |r| > 0 ==> !Text.IsSpace(r[0]) && !Text.IsSpace(r[|r| - 1])
  {
    var thought := Text.Trim(TagBlocks.RemoveBlocks(content, ThinkingOpen, ThinkingClose));
    Text.Trim(TagBlocks.RemoveBlocks(thought, CallOpen, CallClose))
  }

  /** Text holding neither kind of block tag only loses its surrounding white space. */
  lemma RemoveToolCallsKeepsPlainText(content: string)
    requires !Text.Contains(content, ThinkingOpen) && !Text.Contains(content, CallOpen)
    ensures RemoveToolCalls(content) == Text.Trim(content)
  {
    TagBlocks.RemoveWithoutTagIsIdentity(content, ThinkingOpen, ThinkingClose);
    var t := Text.Trim(content);
    Text.SliceLacks(content, CallOpen, |content| - |Text.TrimStart(content)|, |content| - |Text.TrimStart(content)| + |t|);
    TagBlocks.RemoveWithoutTagIsIdentity(t, CallOpen, CallClose);
    Text.TrimIdempotent(content);
  }

  /** `formatAssistantMessage`: the content only, whatever the calls. */
  function FormatAssistantMessage(content: string, toolCalls: Option<seq<ToolCall>>): (r: Message)
    ensures r == Plain(AssistantRole, content)
  {
    Plain(AssistantRole, content)
  }

  const ResultsHeader: string := "Here are the results of the tool calls you requested:\n\n"

  function ResultBlock(result: ToolResult, codec: Json.Codec): string {
    "Tool: " + result.toolName + "\nResult: " + codec.stringifyPretty(result.result)
  }

  function ResultBlocks(results: seq<ToolResult>, codec: Json.Codec): (r: seq<string>)
    ensures |r| == |results| && forall i :: 0 <= i < |results| ==> r[i] == ResultBlock(results[i], codec)
  {
    seq(|results|, i requires 0 <= i < |results| => ResultBlock(results[i], codec))
  }

  /** `formatToolResultsMessage`: all results in a single user message after a fixed
      header, one block each, separated by blank lines. */
  function FormatToolResults(results: seq<ToolResult>, codec: Json.Codec): (r: seq<Message>)
    ensures |r| == 1 && r[0].role == UserRole && r[0].toolCalls.None? && r[0].toolCallId.None?
    ensures Text.StartsWith(r[0].content, ResultsHeader)
  {
    [Plain(UserRole, ResultsHeader + Text.Join(ResultBlocks(results, codec), "\n\n"))]
  }

  /** Each result reaches the model, with its tool's name and its value. */
  lemma ResultsMessageHoldsEveryResult(results: seq<ToolResult>, codec: Json.Codec, i: nat)
    requires i < |results|
    ensures Text.Contains(FormatToolResults(results, codec)[0].content, ResultBlock(results[i], codec))
  {
    var blocks := ResultBlocks(results, codec);
    Text.JoinedPartContained(ResultsHeader, blocks, "\n\n", [], i);
    assert ResultsHeader + Text.Join(blocks, "\n\n") + [] == FormatToolResults(results, codec)[0].content;
  }
}

=== FILE: json.dfy ===
/** JSON values as `JSON.parse` produces them. Parsing and serialising are not modelled:
    the code that uses them takes them as function parameters. */
module Json {
  import opened Wrappers

  datatype Value =
    | JNull
    | JBool(b: bool)
    | JNumber(n: real)
    | JString(s: string)
    | JArray(items: seq<Value>)
    | JObject(fields: seq<(string, Value)>)

  /** JavaScript truthiness of a parsed value. */
  predicate Truthy(j: Value) {
    match j
    case JNull => false
    case JBool(b) => b
    case JNumber(n) => n != 0.0
    case JString(s) => |s| > 0
    case _ => true
  }

  /** `value.name` on a parsed value: the last field of that name (a later duplicate key
      overrides an earlier one), or undefined when absent or not an object. */
  function Member(j: Value, name: string): (r: Option<Value>)
    ensures r.Some? ==> j.JObject? && exists i :: LastAt(j.fields, name, i) && j.fields[i].1 == r.value
    ensures r.None? <==> !j.JObject? || forall i :: 0 <= i < |j.fields| ==> j.fields[i].0 != name
  {
    if j.JObject? then LastField(j.fields, name) else None
  }

  /** Field `i` carries `name` and no later field does. */
  predicate LastAt(fields: seq<(string, Value)>, name: string, i: int) {
    && 0 <= i < |fields|
    && fields[i].0 == name
    && forall k :: i < k < |fields| ==> fields[k].0 != name
  }

  /** The value of the last field named `name`, as `JSON.parse` keeps the last of
      duplicate keys; none when no field has that name. */
  function LastField(fields: seq<(string, Value)>, name: string): (r: Option<Value>)
    ensures r.Some? ==> exists i :: LastAt(fields, name, i) && fields[i].1 == r.value
    ensures r.None? <==> forall i :: 0 <= i < |fields| ==> fields[i].0 != name
    decreases |fields|
  {
    if |fields| == 0 then None
    else if fields[|fields| - 1].0 == name then
      assert LastAt(fields, name, |fields| - 1);
      Some(fields[|fields| - 1].1)
    else
      LastAtExtends(fields, name);
      LastField(fields[..|fields| - 1], name)
  }

  /** A field that is the last of its name before a differently named field stays the
      last once that field is added. */
  lemma LastAtExtends(fields: seq<(string, Value)>, name: string)
    requires |fields| > 0 && fields[|fields| - 1].0 != name
    ensures forall i :: LastAt(fields[..|fields| - 1], name, i) ==> LastAt(fields, name, i)
  {
  }

  /** The uninterpreted JSON collaborators: `JSON.parse` (None when it throws),
      `JSON.stringify(v)` and `JSON.stringify(v, null, 2)`. */
  datatype Codec = Codec(
    parse: string -> Option<Value>,
    stringify: Value -> string,
    stringifyPretty: Value -> string)
}

=== FILE: keystrokes.dfy ===
/** The keyboard rules both desktop and browser operators share: a hotkey string is
    split at every white-space or `+` character (`/[\s+]/`), and text to type is trimmed,
    loses one trailing literal backslash-n and then one trailing newline, and is followed
    by Enter when the trimmed text ends with either. */
module Keystrokes {
  import opened Wrappers
  import Text

  /** The separators of `/[\s+]/`. */
  predicate IsHotkeySeparator(c: char) {
    Text.IsSpace(c) || c == '+'
  }

  /** `keyStr.split(/[\s+]/)`: adjacent separators give empty tokens. */
  function Tokens(keyStr: string): (r: seq<string>)
    ensures |r| == Text.CountWhere(keyStr, IsHotkeySeparator) + 1
    ensures forall i, k :: 0 <= i < |r| && 0 <= k < |r[i]| ==> !Text.IsSpace(r[i][k]) && r[i][k] != '+'
  {
    Text.SplitWhere(keyStr, IsHotkeySeparator)
  }

  /** `s.replace(re, '')` for a pattern anchored at the end of the input. */
  function DropSuffix(s: string, suffix: string): (r: string)
    ensures Text.EndsWith(s, suffix) ==> r + suffix == s
    ensures !Text.EndsWith(s, suffix) ==> r == s
  {
    if Text.EndsWith(s, suffix) then s[..|s| - |suffix|] else s
  }

  /** The text typed for trimmed content: one trailing literal backslash-n dropped, then
      one trailing newline. */
  function StripNewline(content: string): string {
    DropSuffix(DropSuffix(content, "\\n"), "\n")
  }

  /** Whether Enter follows the typed text. */
  predicate WantsEnter(content: string) {
    Text.EndsWith(content, "\n") || Text.EndsWith(content, "\\n")
  }

  /** Trimmed content never ends with a newline, so Enter is pressed exactly when the
      trimmed text ends with a literal backslash-n; the typed text then lacks it (and a
      newline just before it), and otherwise is the whole content. */
  lemma TypeEnterRule(raw: string)
    requires |Text.Trim(raw)| > 0
    ensures var content := Text.Trim(raw);
              && (WantsEnter(content) <==> Text.EndsWith(content, "\\n"))
              && (Text.EndsWith(content, "\\n") ==>
                    || StripNewline(content) + "\\n" == content
                    || StripNewline(content) + "\n\\n" == content)
              && (!Text.EndsWith(content, "\\n") ==> StripNewline(content) == content)
  {
    var content := Text.Trim(raw);
    var last := content[|content| - 1];
    assert !Text.IsSpace(last);
    assert content[|content| - 1..] == [last];
    assert !Text.EndsWith(content, "\n");
    if Text.EndsWith(content, "\\n") {
      var once := DropSuffix(content, "\\n");
      assert once + "\\n" == content;
      if Text.EndsWith(once, "\n") {
        var twice := DropSuffix(once, "\n");
        assert twice + "\n" == once;
        assert twice + "\n\\n" == content;
      }
    }
  }

  /** What a `type` action asks of the keyboard: the text to enter, and whether Enter
      follows it. */
  datatype Typing = Typing(text: string, enter: bool)

  /** The typing rule both operators apply to the `content` of a `type` action: nothing
      when it is missing or trims to nothing; otherwise the trimmed content, Enter exactly
      when it ends with a literal backslash-n, and that suffix (with a newline just before
      it) left out of the typed text. */
  function TypingOf(content: Option<string>): (r: Option<Typing>)
    ensures r.None? <==> content.None? || |Text.Trim(content.value)| == 0
    ensures r.Some? ==> (r.value.enter <==> Text.EndsWith(Text.Trim(content.value), "\\n"))
    ensures r.Some? && !r.value.enter ==> r.value.text == Text.Trim(content.value)
    ensures r.Some? && r.value.enter ==>
              || r.value.text + "\\n" == Text.Trim(content.value)
              || r.value.text + "\n\\n" == Text.Trim(content.value)
  {
    if content.None? then None
    else
      var trimmed := Text.Trim(content.value);
      if |trimmed| == 0 then None
      else
        TypeEnterRule(content.value);
        Some(Typing(StripNewline(trimmed), WantsEnter(trimmed)))
  }
}

=== FILE: nutjs_operator.dfy ===
/** The desktop operator driving mouse, keyboard and clipboard through nut-js
    (`NutJSOperator`). The desktop is abstracted into the sequence of primitives the
    operator requests; the box-string parser shared with the SDK is a parameter. */
module NutJSOperator {
  import opened Wrappers
  import opened AgentTypes
  import Text
  import Keystrokes
  import BrowserOperator

  datatype Platform = Darwin | Win32 | OtherPlatform

  datatype Button = LeftButton | RightButton | MiddleButton

  /** A nut-js key: a member of `Key` named by the key map, or `Key[token]` looked up
      with the token exactly as written. */
  datatype NutKey = KeyNamed(name: string) | EnumLookup(token: string)

  /** One primitive requested from nut-js. */
  datatype Event =
    /** `mouse.move(straightTo(new Point(x, y)))` */
    | MoveTo(x: real, y: real)
    | Click(button: Button)
    | DoubleClick(button: Button)
    /** `mouse.drag(straightTo(centerOf(new Region(left, top, width, height))))` */
    | Drag(left: real, top: real, width: real, height: real)
    | Sleep(ms: nat)
    | ClipboardRead
    | ClipboardWrite(text: string)
    | PressKeys(keys: seq<NutKey>)
    | ReleaseKeys(keys: seq<NutKey>)
    | TypeText(text: string)
    | ScrollUp(amount: nat)
    | ScrollDown(amount: nat)
    | Warn(message: string)

  /** The operator's only state: the scale factor given at construction or fixed by the
      first screenshot. */
  datatype NutOperator = NutOperator(scaleFactor: Option<real>)

  /** The desktop as the operator finds it: the platform and the clipboard's content. */
  datatype Desktop = Desktop(platform: Platform, clipboard: string)

  /** A screen point whose coordinates may be `null`. */
  datatype Point = Point(x: Option<real>, y: Option<real>)

  /** `parseBoxToScreenCoords` with the screen size and model factor of the current
      call fixed: a box string to screen coordinates. */
  type BoxParser = string -> (real, real)

  const ScrollAmount: nat := 500

  const EnterKey: NutKey := KeyNamed("Enter")

  /** `Key.LeftControl, Key.V`, the paste shortcut used on Windows. */
  const PasteKeys: seq<NutKey> := [KeyNamed("LeftControl"), KeyNamed("V")]

  /** `const { scaleFactor = 1 } = this`: the default applies only when no factor is set. */
  function EffectiveScale(op: NutOperator): (r: real)
    ensures op.scaleFactor.None? ==> r == 1.0
    ensures op.scaleFactor.Some? ==> r == op.scaleFactor.value
  {
    op.scaleFactor.GetOr(1.0)
  }

  /** `parseBoxToScreenCoordsWithScaleFactor`: an empty box has no point; otherwise each
      parsed coordinate is scaled, and a parsed coordinate of 0 becomes `null`. */
  function ScaledPoint(boxStr: string, parse: BoxParser, scale: real): (r: Point)
    ensures |boxStr| == 0 ==> r == Point(None, None)
    ensures |boxStr| > 0 ==>
              && (r.x.Some? <==> parse(boxStr).0 != 0.0)
              && (r.y.Some? <==> parse(boxStr).1 != 0.0)
              && (r.x.Some? ==> r.x.value == parse(boxStr).0 * scale)
              && (r.y.Some? ==> r.y.value == parse(boxStr).1 * scale)
  {
    if |boxStr| == 0 then Point(None, None)
    else
      var (x, y) := parse(boxStr);
      Point(if x != 0.0 then Some(x * scale) else None, if y != 0.0 then Some(y * scale) else None)
  }

  /** A present coordinate is non-zero once the factor is: scaling never turns a point the
      model gave into the screen's edge. */
  lemma ScaledPointNonZero(boxStr: string, parse: BoxParser, scale: real)
    requires scale != 0.0
    ensures var r := ScaledPoint(boxStr, parse, scale);
              && (r.x.Some? ==> r.x.value != 0.0 && r.x.value / scale == parse(boxStr).0)
              && (r.y.Some? ==> r.y.value != 0.0 && r.y.value / scale == parse(boxStr).1)
  {
  }

  /** `moveStraightTo`: nothing when either coordinate is `null`. */
  function MoveStraightTo(pt: Point): (r: seq<Event>)
    ensures pt.x.Some? && pt.y.Some? ==> r == [MoveTo(pt.x.value, pt.y.value)]
    ensures pt.x.None? || pt.y.None? ==> r == []
  {
    if pt.x.Some? && pt.y.Some? then [MoveTo(pt.x.value, pt.y.value)] else []
  }

  /** JavaScript truthiness of a possibly `null` number. */
  predicate Present(c: Option<real>) {
    c.Some? && c.value != 0.0
  }

  /** `start_box || ''` */
  function StartBox(inputs: ActionInputs): (r: string)
    ensures Truthy(inputs.startBox) ==> r == inputs.startBox.value
    ensures !Truthy(inputs.startBox) ==> r == ""
  {
    if Truthy(inputs.startBox) then inputs.startBox.value else ""
  }

  /** The drag family: from the start point to the end box's point, and only when all four
      coordinates are truthy. */
  function HandleDrag(inputs: ActionInputs, start: Point, parse: BoxParser, scale: real): (r: seq<Event>)
    ensures |r| <= 1
    ensures |r| == 1 <==>
              && Truthy(inputs.endBox)
              && var end := ScaledPoint(inputs.endBox.value, parse, scale);
                 Present(start.x) && Present(start.y) && Present(end.x) && Present(end.y)
    // the dragged region spans from the start point to the end point
    ensures |r| == 1 ==>
              var end := ScaledPoint(inputs.endBox.value, parse, scale);
              && r[0].Drag?
              && r[0].left == start.x.value && r[0].top == start.y.value
              && r[0].left + r[0].width == end.x.value && r[0].top + r[0].height == end.y.value
  {
    if !Truthy(inputs.endBox) then []
    else
      var end := ScaledPoint(inputs.endBox.value, parse, scale);
      if Present(start.x) && Present(start.y) && Present(end.x) && Present(end.y) then
        [Drag(start.x.value, start.y.value, end.x.value - start.x.value, end.y.value - start.y.value)]
      else []
  }

  /** The Enter keystroke that follows the typed text when the typing rule asks for it. */
  function EnterIfWanted(enter: bool): seq<Event> {
    if enter then [PressKeys([EnterKey]), ReleaseKeys([EnterKey])] else []
  }

  /** How the stripped text reaches the focused window: pasted through the clipboard on
      Windows, typed elsewhere. */
  function Enter(text: string, desk: Desktop): (r: seq<Event>)
    ensures desk.platform == Win32 ==>
              && |r| == 7
              && r[0] == ClipboardRead
              && r[1] == ClipboardWrite(text)
              && r[2] == PressKeys(PasteKeys) && r[4] == ReleaseKeys(PasteKeys)
              && r[6] == ClipboardWrite(desk.clipboard)
              && r[3].Sleep? && r[5].Sleep?
    ensures desk.platform != Win32 ==> r == [TypeText(text)]
  {
    if desk.platform == Win32 then
      [ClipboardRead, ClipboardWrite(text), PressKeys(PasteKeys), Sleep(50), ReleaseKeys(PasteKeys), Sleep(50),
       ClipboardWrite(desk.clipboard)]
    else [TypeText(text)]
  }

  /** The primitives for something to type: the text, then Enter when it is wanted. */
  function Typed(t: Keystrokes.Typing, desk: Desktop): (r: seq<Event>)
    ensures |r| == (if desk.platform == Win32 then 7 else 1) + (if t.enter then 2 else 0)
    ensures desk.platform != Win32 ==> r[0] == TypeText(t.text)
    ensures desk.platform == Win32 ==> r[1] == ClipboardWrite(t.text)
    ensures t.enter ==> r[|r| - 2..] == [PressKeys([EnterKey]), ReleaseKeys([EnterKey])]
  {
    Enter(t.text, desk) + EnterIfWanted(t.enter)
  }

  /** The primitives for what the typing rule gave, none when there is nothing to type. */
  function TypedIfAny(typing: Option<Keystrokes.Typing>, desk: Desktop): seq<Event> {
    if typing.None? then [] else Typed(typing.value, desk)
  }

  /** `type`: nothing at all when there is nothing to type; otherwise the primitives for
      what the shared typing rule gives. */
  function HandleType(inputs: ActionInputs, desk: Desktop): (r: seq<Event>)
    ensures r == [] <==> Keystrokes.TypingOf(inputs.content).None?
    ensures Keystrokes.TypingOf(inputs.content).Some? ==> r == Typed(Keystrokes.TypingOf(inputs.content).value, desk)
  {
    if inputs.content.None? then []
    else
      var content := Text.Trim(inputs.content.value);
      if |content| == 0 then []
      else Typed(Keystrokes.Typing(Keystrokes.StripNewline(content), Keystrokes.WantsEnter(content)), desk)
  }

  /** On Windows the clipboard is put back: typing writes the clipboard exactly twice, the
      text first and the original content last, with the paste in between. */
  lemma ClipboardRestored(t: Keystrokes.Typing, desk: Desktop)
    requires desk.platform == Win32
    ensures var r := Typed(t, desk);
              && |r| >= 7
              && r[0] == ClipboardRead
              && r[1] == ClipboardWrite(t.text)
              && r[6] == ClipboardWrite(desk.clipboard)
              && (forall i :: 0 <= i < |r| && r[i].ClipboardWrite? ==> i == 1 || i == 6)
              && (forall i :: 0 <= i < |r| && r[i] == PressKeys(PasteKeys) ==> i == 2)
              && (forall i :: 0 <= i < |r| && r[i] == ReleaseKeys(PasteKeys) ==> i == 4)
  {
    var r := Typed(t, desk);
    assert r[..7] == Enter(t.text, desk);
    forall i | 0 <= i < |r|
      ensures r[i].ClipboardWrite? ==> i == 1 || i == 6
      ensures r[i] == PressKeys(PasteKeys) ==> i == 2
      ensures r[i] == ReleaseKeys(PasteKeys) ==> i == 4
    {
      TypedOnWindowsAt(t, desk, i);
    }
  }

  lemma TypedOnWindowsAt(t: Keystrokes.Typing, desk: Desktop, i: int)
    requires desk.platform == Win32 && 0 <= i < |Typed(t, desk)|
    ensures var r := Typed(t, desk);
              && (r[i].ClipboardWrite? ==> i == 1 || i == 6)
              && (r[i] == PressKeys(PasteKeys) ==> i == 2)
              && (r[i] == ReleaseKeys(PasteKeys) ==> i == 4)
  {
    var r := Typed(t, desk);
    var entered, enter := Enter(t.text, desk), EnterIfWanted(t.enter);
    if i == 0 || i == 3 || i == 5 {
      assert r[i] == entered[i];
    } else if i >= 7 {
      assert r[i] == enter[i - 7];
      assert enter[i - 7].keys == [EnterKey] && |PasteKeys| == 2;
    }
  }

  /** Off Windows both operators type the same text for the same input, and both follow it
      with Enter in exactly the same cases. */
  lemma TypesLikeBrowser(inputs: ActionInputs, desk: Desktop)
    requires desk.platform != Win32
    ensures var nut := HandleType(inputs, desk); var browser := BrowserOperator.HandleType(inputs);
              && (|nut| == 0 <==> browser[0].Warn?)
              && (|nut| > 0 ==>
                    && nut[0] == TypeText(browser[0].text)
                    && (|browser| == 2 <==> |nut| == 3))
  {
  }

  /** The key map of `hotkey`: lower-case names to `Key` members. */
  function NutKeyMapping(name: string): (r: Option<string>)
    ensures r.Some? ==> |r.value| > 0
  {
    match name
    case "return" => Some("Enter")
    case "enter" => Some("Enter")
    case "ctrl" => Some("LeftControl")
    case "shift" => Some("LeftShift")
    case "alt" => Some("LeftAlt")
    case "space" => Some("Space")
    case "page down" => Some("PageDown")
    case "pagedown" => Some("PageDown")
    case "page up" => Some("PageUp")
    case "pageup" => Some("PageUp")
    case _ => None
  }

  /** `keyMap[k.toLowerCase()] || Key[k]` */
  function NutKeyOf(token: string): (r: NutKey)
    ensures NutKeyMapping(Text.ToLower(token)).Some? ==> r == KeyNamed(NutKeyMapping(Text.ToLower(token)).value)
    ensures NutKeyMapping(Text.ToLower(token)).None? ==> r == EnumLookup(token)
  {
    match NutKeyMapping(Text.ToLower(token))
    case Some(name) => KeyNamed(name)
    case None => EnumLookup(token)
  }

  /** The keys of a hotkey string, one per token of `split(/[\s+]/)`. */
  function HotkeyKeys(keyStr: string): (r: seq<NutKey>)
    ensures |r| == |Keystrokes.Tokens(keyStr)|
    ensures forall i :: 0 <= i < |r| ==> r[i] == NutKeyOf(Keystrokes.Tokens(keyStr)[i])
  {
    var tokens := Keystrokes.Tokens(keyStr);
    seq(|tokens|, i requires 0 <= i < |tokens| => NutKeyOf(tokens[i]))
  }

  /** `hotkey`: `key`, else `hotkey`; all keys pressed together, then released together. */
  function HandleHotkey(inputs: ActionInputs): (r: seq<Event>)
    ensures !Truthy(OrElse(inputs.key, inputs.hotkey)) ==> r == []
    ensures Truthy(OrElse(inputs.key, inputs.hotkey)) ==>
              && |r| == 2 && r[0].PressKeys? && r[1] == ReleaseKeys(r[0].keys)
              && r[0].keys == HotkeyKeys(OrElse(inputs.key, inputs.hotkey).value)
  {
    var keyStr := OrElse(inputs.key, inputs.hotkey);
    if !Truthy(keyStr) then []
    else
      var keys := HotkeyKeys(keyStr.value);
      [PressKeys(keys), ReleaseKeys(keys)]
  }

  /** The entries `'page down'` and `'page up'` of the key map can never be used: the
      tokens come from splitting at white space, so none of them contains the space those
      names need. PageDown and PageUp are reached only through `pagedown` and `pageup`. */
  lemma {:induction false} PageKeysUnreachable(keyStr: string)
    ensures var tokens, keys := Keystrokes.Tokens(keyStr), HotkeyKeys(keyStr);
              forall i :: 0 <= i < |keys| ==>
                && Text.ToLower(tokens[i]) != "page down"
                && Text.ToLower(tokens[i]) != "page up"
                && (keys[i] == KeyNamed("PageDown") ==> Text.ToLower(tokens[i]) == "pagedown")
                && (keys[i] == KeyNamed("PageUp") ==> Text.ToLower(tokens[i]) == "pageup")
  {
    var tokens, keys := Keystrokes.Tokens(keyStr), HotkeyKeys(keyStr);
    forall i | 0 <= i < |keys|
      ensures Text.ToLower(tokens[i]) != "page down" && Text.ToLower(tokens[i]) != "page up"
    {
      var t := tokens[i];
      var lower := Text.ToLower(t);
      if |t| > 4 {
        assert !Text.IsSpace(t[4]);
        assert !Text.IsSpace(lower[4]);
        assert Text.IsSpace("page down"[4]) && Text.IsSpace("page up"[4]);
      }
    }
  }

  /** `scroll`: move to the start point when there is one, then scroll 500 in the given
      direction, or warn. */
  function HandleScroll(inputs: ActionInputs, start: Point): (r: seq<Event>)
    ensures |r| >= 1 && r == MoveStraightTo(start) + [r[|r| - 1]]
    ensures inputs.direction.Some? && Text.ToLower(inputs.direction.value) == "up" ==> r[|r| - 1] == ScrollUp(ScrollAmount)
    ensures inputs.direction.Some? && Text.ToLower(inputs.direction.value) == "down" ==> r[|r| - 1] == ScrollDown(ScrollAmount)
    ensures !(inputs.direction.Some? && Text.ToLower(inputs.direction.value) in ["up", "down"]) ==>
              r[|r| - 1] == Warn("[NutjsOperator] Unsupported scroll direction: " + Rendered(inputs.direction))
  {
    var wheel :=
      if inputs.direction.Some? && Text.ToLower(inputs.direction.value) == "up" then ScrollUp(ScrollAmount)
      else if inputs.direction.Some? && Text.ToLower(inputs.direction.value) == "down" then ScrollDown(ScrollAmount)
      else Warn("[NutjsOperator] Unsupported scroll direction: " + Rendered(inputs.direction));
    MoveStraightTo(start) + [wheel]
  }

  /** The action types this operator acts on; every other type only warns. */
  const KnownActions: set<string> := {
    "wait", "mouse_move", "hover", "click", "left_click", "left_single", "left_double",
    "double_click", "right_click", "right_single", "middle_click", "left_click_drag", "drag",
    "select", "type", "hotkey", "scroll", "call_user", "finished"
  }

  const ClickActions: set<string> := {
    "click", "left_click", "left_single", "left_double", "double_click", "right_click",
    "right_single", "middle_click"
  }

  const DragActions: set<string> := {"left_click_drag", "drag", "select"}

  /** The branches of the switch in `execute`. A press names its button, whether it is a
      double click, and whether it waits 100 ms after moving. */
  datatype Branch =
    | Pause
    | Hover
    | Press(button: Button, double: bool, settle: bool)
    | DragBranch
    | Typing
    | HotkeyBranch
    | ScrollBranch
    | Silent
    | Unsupported

  /** The `case` labels of the switch, grouped by the branch they fall through to. */
  function BranchOf(actionType: string): (b: Branch)
    ensures b.Unsupported? <==> actionType !in KnownActions
    ensures b.Press? <==> actionType in ClickActions
    ensures b.DragBranch? <==> actionType in DragActions
    ensures b.Silent? <==> actionType == "call_user" || actionType == "finished"
    ensures b.Pause? <==> actionType == "wait"
    ensures b.Typing? <==> actionType == "type"
    ensures b.Press? ==> (b.settle <==> actionType != "middle_click")
    ensures b.Press? ==> (b.double <==> actionType in {"left_double", "double_click"})
  {
    match actionType
    case "wait" => Pause
    case "mouse_move" => Hover
    case "hover" => Hover
    case "click" => Press(LeftButton, false, true)
    case "left_click" => Press(LeftButton, false, true)
    case "left_single" => Press(LeftButton, false, true)
    case "left_double" => Press(LeftButton, true, true)
    case "double_click" => Press(LeftButton, true, true)
    case "right_click" => Press(RightButton, false, true)
    case "right_single" => Press(RightButton, false, true)
    case "middle_click" => Press(MiddleButton, false, false)
    case "left_click_drag" => DragBranch
    case "drag" => DragBranch
    case "select" => DragBranch
    case "type" => Typing
    case "hotkey" => HotkeyBranch
    case "scroll" => ScrollBranch
    case "call_user" => Silent
    case "finished" => Silent
    case _ => Unsupported
  }

  /** The start point of an action, scaled by the operator's factor. */
  function StartPoint(op: NutOperator, parse: BoxParser, p: PredictionParsed): Point {
    ScaledPoint(StartBox(p.actionInputs), parse, EffectiveScale(op))
  }

  /** A press of the click family: move to the start point if there is one, settle, click. */
  function PressAt(start: Point, b: Branch): (r: seq<Event>)
    requires b.Press?
    ensures |r| >= 1 && r[..|r| - 1] == MoveStraightTo(start) + (if b.settle then [Sleep(100)] else [])
    ensures r[|r| - 1] == (if b.double then DoubleClick(b.button) else Click(b.button))
  {
    MoveStraightTo(start) + (if b.settle then [Sleep(100)] else []) + [if b.double then DoubleClick(b.button) else Click(b.button)]
  }

  /** The body of the branch `b` of the switch, for an action of type `actionType`;
      `typing` is what the typing rule makes of the action's content. */
  function Perform(b: Branch, actionType: string, inputs: ActionInputs, typing: Option<Keystrokes.Typing>,
                   start: Point, desk: Desktop, parse: BoxParser, scale: real): seq<Event>
  {
    match b
    case Pause => [Sleep(1000)]
    case Hover => MoveStraightTo(start)
    case Press(_, _, _) => PressAt(start, b)
    case DragBranch => HandleDrag(inputs, start, parse, scale)
    case Typing => TypedIfAny(typing, desk)
    case HotkeyBranch => HandleHotkey(inputs)
    case ScrollBranch => HandleScroll(inputs, start)
    case Silent => []
    case Unsupported => [Warn("Unsupported action: " + actionType)]
  }

  /** `execute({prediction, screenWidth, screenHeight})`: the primitives requested for one
      action. It never rejects; the screen size reaches it only through `parse`. */
  function Execute(op: NutOperator, desk: Desktop, parse: BoxParser, p: PredictionParsed): (r: seq<Event>)
    ensures p.actionType !in KnownActions ==> r == [Warn("Unsupported action: " + p.actionType)]
    ensures p.actionType == "call_user" || p.actionType == "finished" ==> r == []
    ensures p.actionType == "wait" ==> r == [Sleep(1000)]
    ensures p.actionType == "type" ==> r == HandleType(p.actionInputs, desk)
  {
    Perform(BranchOf(p.actionType), p.actionType, p.actionInputs, Keystrokes.TypingOf(p.actionInputs.content),
            StartPoint(op, parse, p), desk, parse, EffectiveScale(op))
  }

  /** Events that only touch the keyboard, the clipboard or the clock. */
  predicate KeyboardOnly(e: Event) {
    e.ClipboardRead? || e.ClipboardWrite? || e.PressKeys? || e.ReleaseKeys? || e.TypeText? || e.Sleep?
  }

  /** Every event of `es` satisfies `p`. */
  predicate All(es: seq<Event>, p: Event -> bool) {
    forall i :: 0 <= i < |es| ==> p(es[i])
  }

  lemma AllAppend(a: seq<Event>, b: seq<Event>, p: Event -> bool)
    requires All(a, p) && All(b, p)
    ensures All(a + b, p)
  {
    forall i | 0 <= i < |a + b| ensures p((a + b)[i]) {
      if i < |a| {
        assert (a + b)[i] == a[i];
      } else {
        assert (a + b)[i] == b[i - |a|];
      }
    }
  }

  predicate AllKeyboardOnly(es: seq<Event>) {
    All(es, KeyboardOnly)
  }

  /** Typing and hotkeys never reach the mouse. */
  lemma KeyboardActionsOnlyType(inputs: ActionInputs, desk: Desktop)
    ensures AllKeyboardOnly(HandleType(inputs, desk))
    ensures AllKeyboardOnly(HandleHotkey(inputs))
  {
    if Keystrokes.TypingOf(inputs.content).Some? {
      TypedKeyboardOnly(Keystrokes.TypingOf(inputs.content).value, desk);
    }
  }

  lemma TypedKeyboardOnly(t: Keystrokes.Typing, desk: Desktop)
    ensures AllKeyboardOnly(Typed(t, desk))
  {
    EnterKeyboardOnly(t.text, desk);
    EnterIfWantedKeyboardOnly(t.enter);
    AllAppend(Enter(t.text, desk), EnterIfWanted(t.enter), KeyboardOnly);
  }

  lemma EnterKeyboardOnly(text: string, desk: Desktop)
    ensures AllKeyboardOnly(Enter(text, desk))
    ensures desk.platform != Win32 ==> All(Enter(text, desk), e => !TouchesClipboard(e))
  {
  }

  lemma EnterIfWantedKeyboardOnly(enter: bool)
    ensures AllKeyboardOnly(EnterIfWanted(enter))
    ensures All(EnterIfWanted(enter), e => !TouchesClipboard(e))
  {
  }


  predicate IsClick(e: Event) {
    e.Click? || e.DoubleClick?
  }

  predicate TouchesClipboard(e: Event) {
    e.ClipboardRead? || e.ClipboardWrite?
  }

  /** What may follow the pointer move of a hover, a click or a scroll. */
  predicate AfterPointer(e: Event) {
    e.Sleep? || IsClick(e) || e.ScrollUp? || e.ScrollDown? || e.Warn?
  }

  /** What a pause, a drag, `call_user`/`finished` or an unsupported action produces. */
  predicate Quiet(e: Event) {
    e.Sleep? || e.Drag? || e.Warn?
  }

  /** Hovering, clicking and scrolling move the pointer to the start point first and then
      never move it again. */
  lemma PointerBranches(b: Branch, actionType: string, inputs: ActionInputs, typing: Option<Keystrokes.Typing>,
                        start: Point, desk: Desktop, parse: BoxParser, scale: real)
    requires b.Hover? || b.Press? || b.ScrollBranch?
    ensures var r := Perform(b, actionType, inputs, typing, start, desk, parse, scale); var m := MoveStraightTo(start);
              && |m| <= |r| && r[..|m|] == m
              && forall i :: |m| <= i < |r| ==> AfterPointer(r[i])
  {
    var r := Perform(b, actionType, inputs, typing, start, desk, parse, scale);
    var m := MoveStraightTo(start);
    if b.Press? {
      var tail := (if b.settle then [Sleep(100)] else []) + [if b.double then DoubleClick(b.button) else Click(b.button)];
      assert r == m + tail;
      forall i | |m| <= i < |r| ensures AfterPointer(r[i]) {
        assert r[i] == tail[i - |m|];
      }
    } else if b.ScrollBranch? {
      assert r == m + [r[|r| - 1]];
    } else {
      assert r == m;
    }
  }

  lemma QuietBranches(b: Branch, actionType: string, inputs: ActionInputs, typing: Option<Keystrokes.Typing>,
                      start: Point, desk: Desktop, parse: BoxParser, scale: real)
    requires b.Pause? || b.DragBranch? || b.Silent? || b.Unsupported?
    ensures var r := Perform(b, actionType, inputs, typing, start, desk, parse, scale);
              forall i :: 0 <= i < |r| ==> Quiet(r[i])
  {
  }

  lemma KeyboardBranches(b: Branch, actionType: string, inputs: ActionInputs, typing: Option<Keystrokes.Typing>,
                         start: Point, desk: Desktop, parse: BoxParser, scale: real)
    requires b.Typing? || b.HotkeyBranch?
    ensures var r := Perform(b, actionType, inputs, typing, start, desk, parse, scale);
              forall i :: 0 <= i < |r| ==> KeyboardOnly(r[i])
  {
    if b.Typing? && typing.Some? {
      TypedKeyboardOnly(typing.value, desk);
    }
  }

  /** Hotkeys, and typing off Windows, leave the clipboard alone. */
  lemma KeyboardBranchesSpareClipboard(b: Branch, actionType: string, inputs: ActionInputs,
                                       typing: Option<Keystrokes.Typing>, start: Point, desk: Desktop,
                                       parse: BoxParser, scale: real)
    requires b.HotkeyBranch? || (b.Typing? && desk.platform != Win32)
    ensures var r := Perform(b, actionType, inputs, typing, start, desk, parse, scale);
              forall i :: 0 <= i < |r| ==> !TouchesClipboard(r[i])
  {
    if b.Typing? && typing.Some? {
      var t := typing.value;
      EnterKeyboardOnly(t.text, desk);
      EnterIfWantedKeyboardOnly(t.enter);
      AllAppend(Enter(t.text, desk), EnterIfWanted(t.enter), e => !TouchesClipboard(e));
    }
  }

  /** The mouse buttons are pressed only by the click family, once per action and as its
      last primitive, after the pointer has moved to the start point when there is one. */
  lemma ClicksOnlyForClickActions(op: NutOperator, desk: Desktop, parse: BoxParser, p: PredictionParsed)
    ensures var r := Execute(op, desk, parse, p); var start := StartPoint(op, parse, p);
              && (forall i :: 0 <= i < |r| && IsClick(r[i]) ==> p.actionType in ClickActions && i == |r| - 1)
              && (p.actionType in ClickActions ==>
                    && |r| >= 1
                    && IsClick(r[|r| - 1])
                    && r[..|r| - 1] == MoveStraightTo(start) + (if p.actionType == "middle_click" then [] else [Sleep(100)]))
  {
    BranchClicks(BranchOf(p.actionType), p.actionType, p.actionInputs, Keystrokes.TypingOf(p.actionInputs.content),
      StartPoint(op, parse, p), desk, parse, EffectiveScale(op));
  }

  lemma BranchClicks(b: Branch, actionType: string, inputs: ActionInputs, typing: Option<Keystrokes.Typing>,
                     start: Point, desk: Desktop, parse: BoxParser, scale: real)
    ensures var r := Perform(b, actionType, inputs, typing, start, desk, parse, scale);
              && (forall i :: 0 <= i < |r| && IsClick(r[i]) ==> b.Press? && i == |r| - 1)
              && (b.Press? ==>
                    && |r| >= 1
                    && IsClick(r[|r| - 1])
                    && r[..|r| - 1] == MoveStraightTo(start) + (if b.settle then [Sleep(100)] else []))
  {
    if b.Press? {
      PressClicksLast(b, actionType, inputs, typing, start, desk, parse, scale);
    } else if b.Hover? || b.ScrollBranch? {
      PointerBranches(b, actionType, inputs, typing, start, desk, parse, scale);
      var r, m := Perform(b, actionType, inputs, typing, start, desk, parse, scale), MoveStraightTo(start);
      assert forall i :: 0 <= i < |m| ==> r[i] == m[i];
    } else if b.Typing? || b.HotkeyBranch? {
      KeyboardBranches(b, actionType, inputs, typing, start, desk, parse, scale);
    } else {
      QuietBranches(b, actionType, inputs, typing, start, desk, parse, scale);
    }
  }

  lemma PressClicksLast(b: Branch, actionType: string, inputs: ActionInputs, typing: Option<Keystrokes.Typing>,
                        start: Point, desk: Desktop, parse: BoxParser, scale: real)
    requires b.Press?
    ensures var r := Perform(b, actionType, inputs, typing, start, desk, parse, scale);
              && |r| >= 1
              && IsClick(r[|r| - 1])
              && r[..|r| - 1] == MoveStraightTo(start) + (if b.settle then [Sleep(100)] else [])
              && forall i :: 0 <= i < |r| - 1 ==> !IsClick(r[i])
  {
    var r := Perform(b, actionType, inputs, typing, start, desk, parse, scale);
    var pre := r[..|r| - 1];
    forall i | 0 <= i < |r| - 1 ensures !IsClick(r[i]) {
      assert r[i] == pre[i];
    }
  }

  /** The pointer only ever travels to the scaled start point, only when both of its
      coordinates are set, and as the first primitive of the action. */
  lemma MovesOnlyToStart(op: NutOperator, desk: Desktop, parse: BoxParser, p: PredictionParsed)
    ensures var r := Execute(op, desk, parse, p); var start := StartPoint(op, parse, p);
              forall i :: 0 <= i < |r| && r[i].MoveTo? ==>
                && start.x.Some? && start.y.Some?
                && r[i] == MoveTo(start.x.value, start.y.value)
                && i == 0
  {
    BranchMoves(BranchOf(p.actionType), p.actionType, p.actionInputs, Keystrokes.TypingOf(p.actionInputs.content),
      StartPoint(op, parse, p), desk, parse, EffectiveScale(op));
  }

  lemma BranchMoves(b: Branch, actionType: string, inputs: ActionInputs, typing: Option<Keystrokes.Typing>,
                    start: Point, desk: Desktop, parse: BoxParser, scale: real)
    ensures var r := Perform(b, actionType, inputs, typing, start, desk, parse, scale);
              forall i :: 0 <= i < |r| && r[i].MoveTo? ==>
                && start.x.Some? && start.y.Some?
                && r[i] == MoveTo(start.x.value, start.y.value)
                && i == 0
  {
    if b.Hover? || b.Press? || b.ScrollBranch? {
      PointerBranches(b, actionType, inputs, typing, start, desk, parse, scale);
      var r, m := Perform(b, actionType, inputs, typing, start, desk, parse, scale), MoveStraightTo(start);
      assert forall i :: 0 <= i < |m| ==> r[i] == m[i];
    } else if b.Typing? || b.HotkeyBranch? {
      KeyboardBranches(b, actionType, inputs, typing, start, desk, parse, scale);
    } else {
      QuietBranches(b, actionType, inputs, typing, start, desk, parse, scale);
    }
  }

  /** The clipboard is touched only when typing on Windows. */
  lemma ClipboardOnlyForWindowsTyping(op: NutOperator, desk: Desktop, parse: BoxParser, p: PredictionParsed)
    ensures var r := Execute(op, desk, parse, p);
              forall i :: 0 <= i < |r| && TouchesClipboard(r[i]) ==> desk.platform == Win32 && p.actionType == "type"
  {
    BranchClipboard(BranchOf(p.actionType), p.actionType, p.actionInputs, Keystrokes.TypingOf(p.actionInputs.content),
      StartPoint(op, parse, p), desk, parse, EffectiveScale(op));
  }

  lemma BranchClipboard(b: Branch, actionType: string, inputs: ActionInputs, typing: Option<Keystrokes.Typing>,
                        start: Point, desk: Desktop, parse: BoxParser, scale: real)
    ensures var r := Perform(b, actionType, inputs, typing, start, desk, parse, scale);
              forall i :: 0 <= i < |r| && TouchesClipboard(r[i]) ==> desk.platform == Win32 && b.Typing?
  {
    if b.Hover? || b.Press? || b.ScrollBranch? {
      PointerBranches(b, actionType, inputs, typing, start, desk, parse, scale);
      var r, m := Perform(b, actionType, inputs, typing, start, desk, parse, scale), MoveStraightTo(start);
      assert forall i :: 0 <= i < |m| ==> r[i] == m[i];
    } else if b.HotkeyBranch? || (b.Typing? && desk.platform != Win32) {
      KeyboardBranchesSpareClipboard(b, actionType, inputs, typing, start, desk, parse, scale);
    } else if !b.Typing? {
      QuietBranches(b, actionType, inputs, typing, start, desk, parse, scale);
    }
  }

  /** What `screen.grab()` reports: the physical size and the pixel density. */
  datatype Grab = Grab(width: nat, height: nat, scaleX: real, scaleY: real)

  datatype ScreenshotOutput = ScreenshotOutput(base64: string, width: int, height: int)

  /** The operator after the screenshot, and what the screenshot returns. */
  datatype Shot = Shot(op: NutOperator, output: ScreenshotOutput)

  /** `Math.round`: the nearest integer, halves rounded up. */
  function Round(x: real): (r: int)
    ensures r as real - 0.5 <= x < r as real + 0.5
  {
    (x + 0.5).Floor
  }

  /** `screenshot()`: the image is shrunk to logical pixels, and a missing or zero scale
      factor is fixed from the pixel density off macOS and as 1 on macOS. `encode` stands
      for the PNG encoding of the resized image at the given size. */
  function Screenshot(op: NutOperator, platform: Platform, grab: Grab, encode: (int, int) -> string): (r: Shot)
    requires grab.scaleX > 0.0 && grab.scaleY > 0.0
    ensures Present(op.scaleFactor) ==> r.op == op
    ensures !Present(op.scaleFactor) ==> r.op.scaleFactor == Some(if platform == Darwin then 1.0 else grab.scaleX)
    ensures Present(r.op.scaleFactor)
    ensures r.output.width as real - 0.5 <= grab.width as real / grab.scaleX < r.output.width as real + 0.5
    ensures r.output.height as real - 0.5 <= grab.height as real / grab.scaleY < r.output.height as real + 0.5
    ensures r.output.base64 == encode(r.output.width, r.output.height)
  {
    var width := Round(grab.width as real / grab.scaleX);
    var height := Round(grab.height as real / grab.scaleY);
    var op' := if Present(op.scaleFactor) then op
               else NutOperator(Some(if platform != Darwin then grab.scaleX else 1.0));
    Shot(op', ScreenshotOutput(encode(width, height), width, height))
  }

  /** The factor is fixed once: every later screenshot, on any grab, keeps the factor of
      the first, so the coordinates of later actions are scaled alike. */
  lemma ScaleFactorFixedOnce(op: NutOperator, platform: Platform, g1: Grab, g2: Grab, encode: (int, int) -> string)
    requires g1.scaleX > 0.0 && g1.scaleY > 0.0 && g2.scaleX > 0.0 && g2.scaleY > 0.0
    ensures var first := Screenshot(op, platform, g1, encode);
              Screenshot(first.op, platform, g2, encode).op == first.op
  {
  }
}

=== FILE: openai_provider.dfy ===
/** The provider for models with native tool calling (`OpenAIToolCallProvider`): tools go
    in the request, calls come back in the reply's `tool_calls`, and each result goes back
    as its own tool message. */
module OpenAIProvider {
  import opened Wrappers
  import opened ToolCalling
  import Json

  /** `preparePrompt`: the instructions are the whole system prompt. */
  function PreparePrompt(instructions: string, tools: seq<ToolDefinition>): (r: string)
    ensures r == instructions
  {
    instructions
  }

  function AsFunctionTool(tool: ToolDefinition): FunctionTool {
    FunctionTool(tool.name, tool.description, tool.schema)
  }

  /** `prepareRequest`: every tool, in order, as a `function` tool with its name,
      description and schema; no tools field when none were given; temperature 0.7
      unless given; no streaming. */
  function PrepareRequest(model: string, messages: seq<Message>, tools: Option<seq<ToolDefinition>>,
                          temperature: Option<real>): (r: Request)
    ensures r.model == model && r.messages == messages && !r.stream
    ensures r.temperature == temperature.GetOr(DefaultTemperature)
    ensures r.tools.Some? <==> tools.Some?
    ensures tools.Some? ==> |r.tools.value| == |tools.value|
    ensures tools.Some? ==>
              forall i :: 0 <= i < |tools.value| ==>
                && r.tools.value[i].name == tools.value[i].name
                && r.tools.value[i].description == tools.value[i].description
                && r.tools.value[i].parameters == tools.value[i].schema
  {
    var converted := match tools
      case None => None
      case Some(ts) => Some(seq(|ts|, i requires 0 <= i < |ts| => AsFunctionTool(ts[i])));
    Request(model, messages, converted, temperature.GetOr(DefaultTemperature), false)
  }

  /** `parseResponse`: the content (null as empty), the calls when there is at least one,
      and the model's own finish reason. */
  function ParseResponse(reply: Reply): (r: Parsed)
    ensures r.content == reply.content.GetOr("")
    ensures r.toolCalls.Some? <==> reply.toolCalls.Some? && |reply.toolCalls.value| > 0
    ensures r.toolCalls.Some? ==> r.toolCalls == reply.toolCalls
    ensures r.finishReason == reply.finishReason
  {
    var calls := match reply.toolCalls
      case Some(cs) => if |cs| > 0 then Some(cs) else None
      case None => None;
    Parsed(reply.content.GetOr(""), calls, reply.finishReason)
  }

  /** `formatAssistantMessage`: the content, and the calls when there is at least one. */
  function FormatAssistantMessage(content: string, toolCalls: Option<seq<ToolCall>>): (r: Message)
    ensures r.role == AssistantRole && r.content == content && r.toolCallId.None?
    ensures r.toolCalls.Some? <==> toolCalls.Some? && |toolCalls.value| > 0
    ensures r.toolCalls.Some? ==> r.toolCalls == toolCalls
  {
    var calls := match toolCalls
      case Some(cs) => if |cs| > 0 then Some(cs) else None
      case None => None;
    Message(AssistantRole, content, calls, None)
  }

  /** The assistant message recorded for a reply carries the reply's calls exactly when it
      has some, so the model sees which calls the following tool messages answer. */
  lemma AssistantEchoesReply(reply: Reply)
    ensures var p := ParseResponse(reply); var m := FormatAssistantMessage(p.content, p.toolCalls);
              && m.content == reply.content.GetOr("")
              && (reply.toolCalls.Some? && |reply.toolCalls.value| > 0 ==> m.toolCalls == reply.toolCalls)
              && (reply.toolCalls.None? || |reply.toolCalls.value| == 0 ==> m.toolCalls.None?)
  {
  }

  /** `formatToolResultsMessage`: one tool message per result, in order, answering the
      result's call id with the serialised result. */
  function FormatToolResults(results: seq<ToolResult>, codec: Json.Codec): (r: seq<Message>)
    ensures |r| == |results|
    ensures forall i :: 0 <= i < |results| ==>
              r[i] == Message(ToolRole, codec.stringify(results[i].result), None, Some(results[i].toolCallId))
  {
    seq(|results|, i requires 0 <= i < |results| =>
      Message(ToolRole, codec.stringify(results[i].result), None, Some(results[i].toolCallId)))
  }
}

=== FILE: ordered_map.dfy ===
/** A JavaScript `Map<string, V>`: entries keep the position of the first insertion of
    their key, and `set` on a present key replaces the value in place. */
module OrderedMap {
  import opened Wrappers

  datatype Entry<V> = Entry(key: string, value: V)

  type OMap<V> = seq<Entry<V>>

  function Empty<V>(): OMap<V> {
    []
  }

  /** The keys in iteration order. */
  function Keys<V>(m: OMap<V>): (r: seq<string>)
    ensures |r| == |m|
    ensures forall i :: 0 <= i < |m| ==> r[i] == m[i].key
  {
    seq(|m|, i requires 0 <= i < |m| => m[i].key)
  }

  /** `m.values()`, in iteration order. */
  function Values<V>(m: OMap<V>): (r: seq<V>)
    ensures |r| == |m|
    ensures forall i :: 0 <= i < |m| ==> r[i] == m[i].value
  {
    seq(|m|, i requires 0 <= i < |m| => m[i].value)
  }

  /** No key appears twice: the shape every map built with `Set` has. */
  predicate Distinct<V>(m: OMap<V>) {
    forall i, j :: 0 <= i < j < |m| ==> m[i].key != m[j].key
  }

  /** Position of the entry for `k`, if there is one. */
  function Position<V>(m: OMap<V>, k: string): (r: Option<nat>)
    ensures r.Some? ==> r.value < |m| && m[r.value].key == k
    ensures r.Some? ==> forall j :: 0 <= j < r.value ==> m[j].key != k
    ensures r.None? ==> forall j :: 0 <= j < |m| ==> m[j].key != k
    decreases |m|
  {
    if |m| == 0 then None
    else if m[0].key == k then Some(0)
    else match Position(m[1..], k)
      case None => None
      case Some(j) => Some(j + 1)
  }

  /** `m.get(k)`: the value stored under `k`, or undefined. */
  function Get<V>(m: OMap<V>, k: string): (r: Option<V>)
    ensures r.None? <==> k !in Keys(m)
    ensures r.Some? ==> exists i :: 0 <= i < |m| && m[i] == Entry(k, r.value)
  {
    match Position(m, k)
    case None => None
    case Some(i) => assert m[i] == Entry(k, m[i].value); Some(m[i].value)
  }

  /** `m.set(k, v)`. */
  function Set<V>(m: OMap<V>, k: string, v: V): (r: OMap<V>)
    ensures Get(r, k) == Some(v)
    ensures forall k' :: k' != k ==> Get(r, k') == Get(m, k')
    ensures Keys(r) == if k in Keys(m) then Keys(m) else Keys(m) + [k]
    ensures Distinct(m) ==> Distinct(r)
  {
    match Position(m, k)
    case None =>
      var r := m + [Entry(k, v)];
      assert forall k' :: k' != k ==> Position(r, k') == Position(m, k') by {
        forall k' | k' != k ensures Position(r, k') == Position(m, k') {
          PositionAppend(m, k', Entry(k, v));
        }
      }
      assert Keys(r) == Keys(m) + [k];
      r
    case Some(i) =>
      var r := m[i := Entry(k, v)];
      assert Position(r, k) == Some(i) by { PositionUpdate(m, k, i, v, k); }
      assert forall k' :: k' != k ==> Position(r, k') == Position(m, k') by {
        forall k' | k' != k ensures Position(r, k') == Position(m, k') {
          PositionUpdate(m, k, i, v, k');
        }
      }
      assert Keys(r) == Keys(m);
      r
  }

  lemma {:induction false} PositionAppend<V>(m: OMap<V>, k: string, e: Entry<V>)
    requires k != e.key
    ensures Position(m + [e], k) == Position(m, k)
    decreases |m|
  {
    if |m| > 0 && m[0].key != k {
      assert (m + [e])[1..] == m[1..] + [e];
      PositionAppend(m[1..], k, e);
    }
  }

  lemma {:induction false} PositionUpdate<V>(m: OMap<V>, k: string, i: nat, v: V, q: string)
    requires Position(m, k) == Some(i)
    ensures Position(m[i := Entry(k, v)], q) == Position(m, q)
    decreases |m|
  {
    if m[0].key != k {
      assert m[i := Entry(k, v)][1..] == m[1..][i - 1 := Entry(k, v)];
      if m[0].key != q {
        PositionUpdate(m[1..], k, i - 1, v, q);
      }
    }
  }

  /** Setting a key twice leaves one entry, holding the later value, at the first
      insertion's position. */
  lemma ReSetKeepsOneEntry<V>(m: OMap<V>, k: string, v1: V, v2: V)
    requires Distinct(m)
    ensures var r := Set(Set(m, k, v1), k, v2);
              && Get(r, k) == Some(v2)
              && Keys(r) == Keys(Set(m, k, v1))
              && Distinct(r)
  {
  }

  /** Every entry after `set` is an entry from before or the new one. */
  lemma SetEntries<V>(m: OMap<V>, k: string, v: V)
    ensures forall i :: 0 <= i < |Set(m, k, v)| ==> Set(m, k, v)[i] in m || Set(m, k, v)[i] == Entry(k, v)
  {
    var r := Set(m, k, v);
    match Position(m, k)
    case None =>
      assert r == m + [Entry(k, v)];
    case Some(i) =>
      assert r == m[i := Entry(k, v)];
      forall j | 0 <= j < |r| && j != i ensures r[j] in m {
        assert r[j] == m[j];
      }
  }

  /** `set` for each item in turn, under the key `key` gives it. */
  function SetAll<V>(m: OMap<V>, items: seq<V>, key: V -> string): (r: OMap<V>)
    ensures Distinct(m) ==> Distinct(r)
    decreases |items|
  {
    if |items| == 0 then m
    else
      var last := items[|items| - 1];
      Set(SetAll(m, items[..|items| - 1], key), key(last), last)
  }

  /** The last item whose key is `k`. */
  function LastKeyed<V>(items: seq<V>, key: V -> string, k: string): (r: Option<V>)
    ensures r.Some? ==> key(r.value) == k && r.value in items
    ensures r.None? ==> forall i :: 0 <= i < |items| ==> key(items[i]) != k
    decreases |items|
  {
    if |items| == 0 then None
    else if key(items[|items| - 1]) == k then Some(items[|items| - 1])
    else LastKeyed(items[..|items| - 1], key, k)
  }

  /** After setting a list of items, a key maps to the last item carrying it, and
      otherwise to what the map held before. */
  lemma {:induction false} SetAllLookup<V>(m: OMap<V>, items: seq<V>, key: V -> string, k: string)
    ensures Get(SetAll(m, items, key), k) ==
            if LastKeyed(items, key, k).Some? then LastKeyed(items, key, k) else Get(m, k)
    decreases |items|
  {
    if |items| > 0 {
      SetAllLookup(m, items[..|items| - 1], key, k);
    }
  }
}

=== FILE: plugin_manager.dfy ===
/** The browser agent's plugin registry (`DefaultPluginManager`): plugins keyed by name
    in a `Map`, and the optional lifecycle methods and hooks called on them one after the
    other in registration order. A plugin is represented by its name and the set of
    optional methods it defines; what a method does is not part of the model, only that
    it is called and with which arguments. */
module PluginManager {
  import opened Wrappers
  import OrderedMap

  /** The hooks of `PluginHooks`. */
  datatype HookName = OnScreenshot | OnAgentData | OnOperatorAction

  /** An optional method a plugin may define: `init`, `cleanup`, or one of the hooks. */
  datatype Method = InitMethod | CleanupMethod | HookMethod(hook: HookName)

  datatype Plugin = Plugin(name: string, defines: set<Method>)

  type Manager = OrderedMap.OMap<Plugin>

  /** One call of a plugin method, with the arguments it received. */
  datatype Invocation<A> = Invocation(plugin: string, member: Method, args: A)

  /** Every entry is stored under its plugin's own name: what `register` maintains. */
  predicate WellKeyed(m: Manager) {
    forall i :: 0 <= i < |m| ==> m[i].key == m[i].value.name
  }

  /** `register(plugin)`: `plugins.set(plugin.name, plugin)`. */
  function Register(m: Manager, p: Plugin): (r: Manager)
    ensures OrderedMap.Get(r, p.name) == Some(p)
    ensures forall k :: k != p.name ==> OrderedMap.Get(r, k) == OrderedMap.Get(m, k)
    ensures OrderedMap.Keys(r) ==
              if p.name in OrderedMap.Keys(m) then OrderedMap.Keys(m) else OrderedMap.Keys(m) + [p.name]
    ensures OrderedMap.Distinct(m) ==> OrderedMap.Distinct(r)
    ensures WellKeyed(m) ==> WellKeyed(r)
  {
    var r := OrderedMap.Set(m, p.name, p);
    OrderedMap.SetEntries(m, p.name, p);
    r
  }

  lemma StoredUnderName(m: Manager, k: string)
    requires WellKeyed(m) && OrderedMap.Get(m, k).Some?
    ensures OrderedMap.Get(m, k).value.name == k
  {
    var j := OrderedMap.Position(m, k).value;
    assert m[j].key == k;
  }

  function PluginName(p: Plugin): string {
    p.name
  }

  /** The constructor's `for (const plugin of options.plugins) register(plugin)`: every
      name then finds the last plugin of the list registered under it. */
  function RegisterAll(m: Manager, plugins: seq<Plugin>): (r: Manager)
    ensures OrderedMap.Distinct(m) ==> OrderedMap.Distinct(r)
    ensures WellKeyed(m) ==> WellKeyed(r)
    ensures forall k :: OrderedMap.Get(r, k) ==
              if OrderedMap.LastKeyed(plugins, PluginName, k).Some? then OrderedMap.LastKeyed(plugins, PluginName, k)
              else OrderedMap.Get(m, k)
  {
    forall k ensures OrderedMap.Get(OrderedMap.SetAll(m, plugins, PluginName), k) ==
              if OrderedMap.LastKeyed(plugins, PluginName, k).Some? then OrderedMap.LastKeyed(plugins, PluginName, k)
              else OrderedMap.Get(m, k) {
      OrderedMap.SetAllLookup(m, plugins, PluginName, k);
    }
    RegisterAllWellKeyed(m, plugins);
    OrderedMap.SetAll(m, plugins, PluginName)
  }

  lemma {:induction false} RegisterAllWellKeyed(m: Manager, plugins: seq<Plugin>)
    ensures WellKeyed(m) ==> WellKeyed(OrderedMap.SetAll(m, plugins, PluginName))
    decreases |plugins|
  {
    if |plugins| > 0 {
      var prefix := plugins[..|plugins| - 1];
      RegisterAllWellKeyed(m, prefix);
      var last := plugins[|plugins| - 1];
      assert OrderedMap.SetAll(m, plugins, PluginName) == Register(OrderedMap.SetAll(m, prefix, PluginName), last);
    }
  }

  /** `getPlugin(name)`: the plugin registered under `name`, or undefined. */
  function GetPlugin(m: Manager, name: string): (r: Option<Plugin>)
    ensures r.None? <==> name !in OrderedMap.Keys(m)
    ensures WellKeyed(m) && r.Some? ==> r.value.name == name
  {
    var r := OrderedMap.Get(m, name);
    if r.Some? && WellKeyed(m) then StoredUnderName(m, name); r else r
  }

  /** Registering a name again leaves one entry, at the first registration's position,
      holding the newer plugin. */
  lemma ReRegisterReplaces(m: Manager, p1: Plugin, p2: Plugin)
    requires OrderedMap.Distinct(m) && p1.name == p2.name
    ensures var r := Register(Register(m, p1), p2);
              && GetPlugin(r, p2.name) == Some(p2)
              && OrderedMap.Keys(r) == OrderedMap.Keys(Register(m, p1))
              && OrderedMap.Distinct(r)
  {
    OrderedMap.ReSetKeepsOneEntry(m, p1.name, p1, p2);
  }

  /** What walking the plugins in order and calling `member` on those that define it
      produces: the reference for `init`, `cleanup` and `callHook`. */
  function Dispatch<A>(plugins: seq<Plugin>, member: Method, args: A): (r: seq<Invocation<A>>)
    ensures |r| <= |plugins|
    ensures forall i :: 0 <= i < |r| ==> r[i].member == member && r[i].args == args
    decreases |plugins|
  {
    if |plugins| == 0 then []
    else
      var head := if member in plugins[0].defines then [Invocation(plugins[0].name, member, args)] else [];
      head + Dispatch(plugins[1..], member, args)
  }

  /** The names of the plugins called. */
  function Called<A>(calls: seq<Invocation<A>>): set<string> {
    set i | 0 <= i < |calls| :: calls[i].plugin
  }

  lemma CalledAppend<A>(a: seq<Invocation<A>>, b: seq<Invocation<A>>)
    ensures Called(a + b) == Called(a) + Called(b)
  {
    var ab := a + b;
    forall x | x in Called(ab) ensures x in Called(a) + Called(b) {
      var i :| 0 <= i < |ab| && ab[i].plugin == x;
      if i < |a| {
        assert ab[i] == a[i];
      } else {
        assert ab[i] == b[i - |a|];
      }
    }
    forall x | x in Called(a) ensures x in Called(ab) {
      var i :| 0 <= i < |a| && a[i].plugin == x;
      assert ab[i] == a[i];
    }
    forall x | x in Called(b) ensures x in Called(ab) {
      var i :| 0 <= i < |b| && b[i].plugin == x;
      assert ab[|a| + i] == b[i];
    }
  }

  /** The names of the plugins that define `member`. */
  function Definers(plugins: seq<Plugin>, member: Method): set<string> {
    set p | p in plugins && member in p.defines :: p.name
  }

  /** Exactly the plugins that define the method are called. */
  lemma {:induction false} DispatchCallsDefiners<A>(plugins: seq<Plugin>, member: Method, args: A)
    ensures Called(Dispatch(plugins, member, args)) == Definers(plugins, member)
    decreases |plugins|
  {
    if |plugins| == 0 {
      assert Dispatch(plugins, member, args) == [];
    } else {
      var p, rest := plugins[0], plugins[1..];
      var head := if member in p.defines then [Invocation(p.name, member, args)] else [];
      var tail := Dispatch(rest, member, args);
      assert Dispatch(plugins, member, args) == head + tail;
      DispatchCallsDefiners(rest, member, args);
      assert plugins == [p] + rest;
      CalledAppend(head, tail);
      assert Called(head) == Definers([p], member) by {
        if member in p.defines {
          assert head[0].plugin == p.name;
          assert Called(head) == {p.name};
          assert p in [p];
        } else {
          assert forall q :: q in [p] ==> q == p;
        }
      }
      assert Definers(plugins, member) == Definers([p], member) + Definers(rest, member) by {
        forall q ensures q in plugins <==> q == p || q in rest {
        }
      }
    }
  }

  /** Calls happen in registration order: walking two runs of plugins is walking the
      first, then the second. */
  lemma {:induction false} DispatchAppend<A>(a: seq<Plugin>, b: seq<Plugin>, member: Method, args: A)
    ensures Dispatch(a + b, member, args) == Dispatch(a, member, args) + Dispatch(b, member, args)
    decreases |a|
  {
    if |a| == 0 {
      assert a + b == b;
    } else {
      var ab := a + b;
      assert ab[0] == a[0] && ab[1..] == a[1..] + b;
      DispatchAppend(a[1..], b, member, args);
      var h := if member in a[0].defines then [Invocation(a[0].name, member, args)] else [];
      var x, y := Dispatch(a[1..], member, args), Dispatch(b, member, args);
      assert h + (x + y) == (h + x) + y;
    }
  }

  /** A plugin that does not define the method is skipped; one that does is called
      exactly once, at its place. */
  lemma DispatchOne<A>(p: Plugin, member: Method, args: A)
    ensures Dispatch([p], member, args) == if member in p.defines then [Invocation(p.name, member, args)] else []
  {
    assert [p][1..] == [];
  }

  /** The `for … of plugins.values()` loop shared by `init`, `cleanup` and `callHook`:
      each awaited call in turn. */
  method CallAll<A>(m: Manager, member: Method, args: A) returns (calls: seq<Invocation<A>>)
    ensures calls == Dispatch(OrderedMap.Values(m), member, args)
  {
    var plugins := OrderedMap.Values(m);
    calls := [];
    var i := 0;
    while i < |plugins|
      invariant 0 <= i <= |plugins|
      invariant calls == Dispatch(plugins[..i], member, args)
    {
      var p := plugins[i];
      if member in p.defines {
        calls := calls + [Invocation(p.name, member, args)];
      }
      DispatchAppend(plugins[..i], [p], member, args);
      DispatchOne(p, member, args);
      assert plugins[..i + 1] == plugins[..i] + [p];
      i := i + 1;
    }
    assert plugins[..i] == plugins;
  }

  /** `init()`: each plugin's `init`, when it has one, in registration order. */
  method Init(m: Manager) returns (calls: seq<Invocation<()>>)
    ensures calls == Dispatch(OrderedMap.Values(m), InitMethod, ())
    ensures Called(calls) == Definers(OrderedMap.Values(m), InitMethod)
  {
    calls := CallAll(m, InitMethod, ());
    DispatchCallsDefiners(OrderedMap.Values(m), InitMethod, ());
  }

  /** `cleanup()`: each plugin's `cleanup`, when it has one, in registration order. */
  method Cleanup(m: Manager) returns (calls: seq<Invocation<()>>)
    ensures calls == Dispatch(OrderedMap.Values(m), CleanupMethod, ())
    ensures Called(calls) == Definers(OrderedMap.Values(m), CleanupMethod)
  {
    calls := CallAll(m, CleanupMethod, ());
    DispatchCallsDefiners(OrderedMap.Values(m), CleanupMethod, ());
  }

  /** `callHook(hook, ...args)`: the hook, with the same arguments, on exactly the
      plugins that define it, in registration order. */
  method CallHook<A>(m: Manager, hook: HookName, args: A) returns (calls: seq<Invocation<A>>)
    ensures calls == Dispatch(OrderedMap.Values(m), HookMethod(hook), args)
    ensures forall i :: 0 <= i < |calls| ==> calls[i].member == HookMethod(hook) && calls[i].args == args
    ensures Called(calls) == Definers(OrderedMap.Values(m), HookMethod(hook))
  {
    calls := CallAll(m, HookMethod(hook), args);
    DispatchCallsDefiners(OrderedMap.Values(m), HookMethod(hook), args);
  }
}

=== FILE: seqs.dfy ===
/** Sequence combinators shared by the models. */
module Seqs {
  /** `xs.flatMap(f)`: the images of the elements, concatenated in order. */
  function FlatMap<T, U>(xs: seq<T>, f: T -> seq<U>): (r: seq<U>)
    ensures |xs| == 0 ==> r == []
    ensures |xs| == 1 ==> r == f(xs[0])
    decreases |xs|
  {
    if |xs| == 0 then [] else f(xs[0]) + FlatMap(xs[1..], f)
  }

  /** Mapping a concatenation maps each part. */
  lemma {:induction false} FlatMapAppend<T, U>(a: seq<T>, b: seq<T>, f: T -> seq<U>)
    ensures FlatMap(a + b, f) == FlatMap(a, f) + FlatMap(b, f)
    decreases |a|
  {
    if |a| == 0 {
      assert a + b == b;
    } else {
      var ab := a + b;
      assert ab[0] == a[0] && ab[1..] == a[1..] + b;
      FlatMapAppend(a[1..], b, f);
      var h, x, y := f(a[0]), FlatMap(a[1..], f), FlatMap(b, f);
      assert h + (x + y) == (h + x) + y;
    }
  }

  /** `a` is a prefix of `b`, element by element. */
  predicate Prefix<T(==)>(a: seq<T>, b: seq<T>) {
    |a| <= |b| && forall i :: 0 <= i < |a| ==> a[i] == b[i]
  }

  lemma PrefixTransitive<T>(a: seq<T>, b: seq<T>, c: seq<T>)
    requires Prefix(a, b) && Prefix(b, c)
    ensures Prefix(a, c)
  {
  }
}

=== FILE: session.dfy ===
/** The observed session object of the SDK agent (`GUIAgentData`) and the change
    notification rule that `createDataOnChangeProxy` attaches to it: a write to `status`
    or `errMsg` that changes the field sends the object with an empty conversation list,
    a push sends exactly the appended entries, and any other write sends nothing. */
module Session {
  import opened Wrappers
  import opened AgentTypes
  import Text

  datatype Speaker = Human | Gpt

  datatype Size = Size(width: int, height: int)

  /** One turn of the conversation log. Timing fields are not modelled. */
  datatype Conversation = Conversation(
    from: Speaker,
    value: string,
    screenshotBase64: Option<string>,
    screenshotContext: Option<Size>,
    predictionParsed: Option<seq<PredictionParsed>>)

  /** `GUIAgentData` without its version tag and timestamps. */
  datatype Data = Data(
    systemPrompt: string,
    instruction: string,
    modelName: string,
    status: Status,
    conversations: seq<Conversation>,
    errMsg: Option<string>)

  /** The first entry of every session: the instruction, said by the human. */
  function InstructionEntry(instruction: string): Conversation {
    Conversation(Human, instruction, None, None, None)
  }

  /** The object `createDataOnChangeProxy` starts from: status INIT, no error message,
      and the instruction as the only turn. Creating it notifies nobody. */
  function Initial(systemPrompt: string, instruction: string, modelName: string): (d: Data)
    ensures d.status == Init && d.errMsg.None?
    ensures d.conversations == [InstructionEntry(instruction)]
  {
    Data(systemPrompt, instruction, modelName, Init, [InstructionEntry(instruction)], None)
  }

  /** The writes performed on the observed object. */
  datatype Write =
    | SetStatus(status: Status)
    /** `data.errMsg = msg` */
    | SetErrMsg(msg: string)
    /** `Object.assign(data, {status, errMsg})`: two writes, `status` first. */
    | Assign(newStatus: Status, newMsg: string)
    /** `data.conversations.push(...entries)` */
    | Push(entries: seq<Conversation>)
    /** A write inside an existing entry, or a replacement of it, at `index`. The agent
        only edits entries it has already pushed; an index past the end, where a
        JavaScript array would grow, leaves the log as it is here. */
    | EditEntry(index: nat, entry: Conversation)
    /** `data.conversations.pop()` */
    | Pop

  /** The object after a write, and the `data` argument of each `onData` call it caused,
      in order. */
  datatype Update = Update(data: Data, notified: seq<Data>)

  /** What a notification carries: the object with `conversations` replaced. */
  function Snapshot(d: Data, delta: seq<Conversation>): Data {
    d.(conversations := delta)
  }

  /** Assigning `status`: the change callback runs only when the value differs. */
  function WriteStatus(d: Data, s: Status): (r: Update)
    ensures r.data == d.(status := s)
    ensures s == d.status ==> r.notified == []
    ensures s != d.status ==> r.notified == [Snapshot(r.data, [])]
  {
    var d' := d.(status := s);
    Update(d', if s == d.status then [] else [Snapshot(d', [])])
  }

  /** Assigning `errMsg`: a first assignment always counts as a change. */
  function WriteErrMsg(d: Data, m: string): (r: Update)
    ensures r.data == d.(errMsg := Some(m))
    ensures d.errMsg == Some(m) ==> r.notified == []
    ensures d.errMsg != Some(m) ==> r.notified == [Snapshot(r.data, [])]
  {
    var d' := d.(errMsg := Some(m));
    Update(d', if d.errMsg == Some(m) then [] else [Snapshot(d', [])])
  }

  /** Applies one write and reports the notifications it causes. */
  function Apply(d: Data, w: Write): (r: Update)
    // only the conversation writes touch the log, and only a push grows it
    ensures !w.Push? && !w.EditEntry? && !w.Pop? ==> r.data.conversations == d.conversations
    ensures w.Push? ==> r.data.conversations == d.conversations + w.entries
    ensures w.Pop? ==> r.data.conversations == (if |d.conversations| == 0 then [] else d.conversations[..|d.conversations| - 1])
    ensures w.EditEntry? ==> |r.data.conversations| == |d.conversations|
    // a push notifies once with exactly the appended suffix, if there is one
    ensures w.Push? ==> r.notified == (if |w.entries| == 0 then [] else [Snapshot(r.data, w.entries)])
    // editing or popping entries is never observed
    ensures w.EditEntry? || w.Pop? ==> r.notified == []
    // field writes notify once per changed field, each with an empty conversation list
    ensures w.SetStatus? || w.SetErrMsg? || w.Assign? ==> forall i :: 0 <= i < |r.notified| ==> r.notified[i].conversations == []
    ensures w.Assign? ==> |r.notified| == (if w.newStatus != d.status then 1 else 0) + (if d.errMsg != Some(w.newMsg) then 1 else 0)
    ensures w.Assign? && w.newStatus != d.status ==> r.notified[0].status == w.newStatus && r.notified[0].errMsg == d.errMsg
    ensures w.Assign? ==> r.data.status == w.newStatus && r.data.errMsg == Some(w.newMsg)
  {
    match w
    case SetStatus(s) => WriteStatus(d, s)
    case SetErrMsg(m) => WriteErrMsg(d, m)
    case Assign(s, m) =>
      var u1 := WriteStatus(d, s);
      var u2 := WriteErrMsg(u1.data, m);
      Update(u2.data, u1.notified + u2.notified)
    case Push(es) =>
      var d' := d.(conversations := d.conversations + es);
      // on-change hands over the array before and after the call; the listener sends
      // the part beyond the previous length
      var delta := d'.conversations[|d.conversations|..];
      assert delta == es;
      Update(d', if |delta| > 0 then [Snapshot(d', delta)] else [])
    case EditEntry(i, e) =>
      var cs := if i < |d.conversations| then d.conversations[i := e] else d.conversations;
      Update(d.(conversations := cs), [])
    case Pop =>
      var cs := if |d.conversations| == 0 then [] else d.conversations[..|d.conversations| - 1];
      Update(d.(conversations := cs), [])
  }

  /** Applies writes in order, collecting every notification. */
  function ApplyAll(d: Data, ws: seq<Write>): Update
    decreases |ws|
  {
    if |ws| == 0 then Update(d, [])
    else
      var u := Apply(d, ws[0]);
      var rest := ApplyAll(u.data, ws[1..]);
      Update(rest.data, u.notified + rest.notified)
  }

  predicate AppendOnly(ws: seq<Write>) {
    forall i :: 0 <= i < |ws| ==> !ws[i].EditEntry? && !ws[i].Pop?
  }

  /** The conversation entries carried by a list of notifications, in order. */
  function Deltas(ns: seq<Data>): seq<Conversation>
    decreases |ns|
  {
    if |ns| == 0 then [] else ns[0].conversations + Deltas(ns[1..])
  }

  lemma {:induction false} DeltasAppend(a: seq<Data>, b: seq<Data>)
    ensures Deltas(a + b) == Deltas(a) + Deltas(b)
    decreases |a|
  {
    if |a| > 0 {
      assert (a + b)[1..] == a[1..] + b;
      DeltasAppend(a[1..], b);
    } else {
      assert a + b == b;
    }
  }

  /** Delta correctness: when the log is only appended to, the notifications together
      carry every appended entry exactly once and in order, so a listener that
      concatenates them rebuilds the log. */
  lemma {:induction false} DeltasRebuildLog(d: Data, ws: seq<Write>)
    requires AppendOnly(ws)
    ensures var u := ApplyAll(d, ws); u.data.conversations == d.conversations + Deltas(u.notified)
    decreases |ws|
  {
    if |ws| > 0 {
      var u := Apply(d, ws[0]);
      var rest := ApplyAll(u.data, ws[1..]);
      var n1, n2 := u.notified, rest.notified;
      var c0, c1, c2 := d.conversations, u.data.conversations, rest.data.conversations;
      assert ApplyAll(d, ws) == Update(rest.data, n1 + n2);
      AppendOnlyTail(ws);
      DeltasRebuildLog(u.data, ws[1..]);
      assert c2 == c1 + Deltas(n2);
      ApplyAnnouncesGrowth(d, ws[0]);
      assert c1 == c0 + Deltas(n1);
      DeltasAppend(n1, n2);
      var x, y := Deltas(n1), Deltas(n2);
      assert c2 == (c0 + x) + y;
      assert (c0 + x) + y == c0 + (x + y);
    } else {
      assert ApplyAll(d, ws) == Update(d, []);
      assert d.conversations + Deltas([]) == d.conversations;
    }
  }

  lemma AppendOnlyTail(ws: seq<Write>)
    requires |ws| > 0 && AppendOnly(ws)
    ensures AppendOnly(ws[1..])
  {
    forall i | 0 <= i < |ws[1..]| ensures !ws[1..][i].EditEntry? && !ws[1..][i].Pop? {
      assert ws[1..][i] == ws[i + 1];
    }
  }

  /** A single write that neither edits nor pops grows the log by exactly what it announces. */
  lemma ApplyAnnouncesGrowth(d: Data, w: Write)
    requires !w.EditEntry? && !w.Pop?
    ensures var u := Apply(d, w); u.data.conversations == d.conversations + Deltas(u.notified)
  {
    var u := Apply(d, w);
    if !w.Push? {
      DeltasOfEmpty(u.notified);
      assert d.conversations + [] == d.conversations;
    } else if |w.entries| > 0 {
      assert u.notified == [Snapshot(u.data, w.entries)];
      assert Deltas(u.notified) == w.entries + Deltas([]);
    } else {
      assert u.notified == [];
      assert d.conversations + w.entries == d.conversations;
    }
  }

  lemma {:induction false} DeltasOfEmpty(ns: seq<Data>)
    requires forall i :: 0 <= i < |ns| ==> ns[i].conversations == []
    ensures Deltas(ns) == []
    decreases |ns|
  {
    if |ns| > 0 {
      DeltasOfEmpty(ns[1..]);
    }
  }

  /** Whatever is popped or edited later, the entries a push announced stay announced:
      the notifications of a prefix of the writes are a prefix of all notifications. */
  lemma {:induction false} NotificationsOnlyGrow(d: Data, ws: seq<Write>, k: nat)
    requires k <= |ws|
    ensures var all := ApplyAll(d, ws).notified; var early := ApplyAll(d, ws[..k]).notified;
              |early| <= |all| && all[..|early|] == early
    decreases |ws|
  {
    if k > 0 {
      var u := Apply(d, ws[0]);
      assert ws[..k][1..] == ws[1..][..k - 1];
      NotificationsOnlyGrow(u.data, ws[1..], k - 1);
    }
  }
}

=== FILE: tag_blocks.dfy ===
/** Global scanning for `<open>([\s\S]*?)<close>` blocks with literal, non-empty tags, as
    `RegExp.prototype.exec` with the `g` flag and `String.prototype.replace` perform it:
    each match starts at the leftmost remaining opening tag and ends at the first closing
    tag after it, and the search resumes after that closing tag. */
module TagBlocks {
  import opened Wrappers
  import Text

  /** A scanned text: the stretches between matches, and the bodies of the matches. */
  datatype Scan = Scan(gaps: seq<string>, bodies: seq<string>)

  /** One match cut out of a text: the text before it, its body, and the text after it. */
  datatype Block = Block(gap: string, body: string, after: string)

  /** The leftmost match in `s`, cut out: the first opening tag, then the first closing tag
      after it. None when there is no opening tag, or no closing tag after the first one. */
  function NextMatch(s: string, open: string, close: string): (r: Option<Block>)
    requires |open| > 0 && |close| > 0
    ensures r.Some? ==> s == r.value.gap + open + r.value.body + close + r.value.after
    ensures r.Some? ==> Text.Lacks(r.value.gap, open) && Text.Lacks(r.value.body, close)
    ensures !Text.Contains(s, open) ==> r.None?
  {
    match Text.IndexOf(s, open)
    case None => None
    case Some(i) =>
      match Text.IndexOf(s[i + |open|..], close)
      case None => None
      case Some(j) =>
        var rest := s[i + |open|..];
        CutLeftmost(s, open, close, i, j);
        Some(Block(s[..i], rest[..j], rest[j + |close|..]))
  }

  /** The pieces around the first opening tag and the first closing tag after it make up
      the text, and neither tag occurs earlier than where it was found. */
  lemma CutLeftmost(s: string, open: string, close: string, i: nat, j: nat)
    requires |open| > 0 && |close| > 0
    requires Text.IndexOf(s, open) == Some(i) && Text.IndexOf(s[i + |open|..], close) == Some(j)
    ensures var rest := s[i + |open|..];
              && s == s[..i] + open + rest[..j] + close + rest[j + |close|..]
              && Text.Lacks(s[..i], open) && Text.Lacks(rest[..j], close)
  {
    var rest := s[i + |open|..];
    Decompose(s, open, close, i, j);
    Text.FirstOccurrenceNotInPrefix(s, open, i);
    Text.FirstOccurrenceNotInPrefix(rest, close, j);
    Text.LacksIffNotContains(s[..i], open);
    Text.LacksIffNotContains(rest[..j], close);
  }

  /** Splits `s` into gaps and bodies, one more gap than bodies. */
  function ScanBlocks(s: string, open: string, close: string): (r: Scan)
    requires |open| > 0 && |close| > 0
    ensures |r.gaps| == |r.bodies| + 1
    decreases |s|
  {
    match NextMatch(s, open, close)
    case None => Scan([s], [])
    case Some(b) =>
      var tail := ScanBlocks(b.after, open, close);
      Scan([b.gap] + tail.gaps, [b.body] + tail.bodies)
  }

  /** The gaps before matches hold no opening tag (each match is leftmost), and the bodies
      hold no closing tag (each match is the shortest). */
  lemma {:induction false} ScanMatchesLeftmostShortest(s: string, open: string, close: string)
    requires |open| > 0 && |close| > 0
    ensures var r := ScanBlocks(s, open, close);
              NoneContains(r.bodies, close, |r.bodies|) && NoneContains(r.gaps, open, |r.bodies|)
    decreases |s|
  {
    match NextMatch(s, open, close)
    case None =>
    case Some(b) =>
      ScanMatchesLeftmostShortest(b.after, open, close);
      var tail := ScanBlocks(b.after, open, close);
      NoneContainsCons(b.body, tail.bodies, close, |tail.bodies|);
      NoneContainsCons(b.gap, tail.gaps, open, |tail.bodies|);
  }

  /** None of the first `n` texts of `xs` holds `sub`. */
  ghost predicate NoneContains(xs: seq<string>, sub: string, n: nat) {
    n <= |xs| && forall k :: 0 <= k < n ==> Text.Lacks(xs[k], sub)
  }

  lemma NoneContainsCons(x: string, xs: seq<string>, sub: string, n: nat)
    requires Text.Lacks(x, sub) && NoneContains(xs, sub, n)
    ensures NoneContains([x] + xs, sub, n + 1)
  {
    forall k | 0 <= k < n + 1 ensures Text.Lacks(([x] + xs)[k], sub) {
      if k > 0 {
        assert ([x] + xs)[k] == xs[k - 1];
      }
    }
  }

  /** An opening tag at `i`, and a closing tag `j` characters after its end. */
  predicate BlockAt(s: string, open: string, close: string, i: int, j: int) {
    Text.OccursAt(s, open, i) && Text.OccursAt(s[i + |open|..], close, j)
  }

  /** Some opening tag in `s` is followed, later on, by a closing tag. */
  ghost predicate HasBlock(s: string, open: string, close: string) {
    exists i, j :: BlockAt(s, open, close, i, j)
  }

  /** A match is found exactly when the text holds a complete block. */
  lemma NextMatchIffBlock(s: string, open: string, close: string)
    requires |open| > 0 && |close| > 0
    ensures NextMatch(s, open, close).Some? <==> HasBlock(s, open, close)
  {
    if NextMatch(s, open, close).Some? {
      MatchIsBlock(s, open, close);
    } else {
      Text.IndexOfFirst(s, open);
      if Text.IndexOf(s, open).Some? {
        NoCloseAfterFirstOpen(s, open, close, Text.IndexOf(s, open).value);
      }
    }
  }

  /** The match found is a block: its opening tag right after the gap, its closing tag
      right after the body. */
  lemma MatchIsBlock(s: string, open: string, close: string)
    requires |open| > 0 && |close| > 0 && NextMatch(s, open, close).Some?
    ensures var b := NextMatch(s, open, close).value; BlockAt(s, open, close, |b.gap|, |b.body|)
  {
    var b := NextMatch(s, open, close).value;
    var i, j := |b.gap|, |b.body|;
    assert s[i..i + |open|] == open;
    assert s[i + |open|..][j..j + |close|] == close;
  }

  /** When no closing tag follows the first opening tag, none follows a later one either. */
  lemma NoCloseAfterFirstOpen(s: string, open: string, close: string, i0: nat)
    requires |open| > 0 && |close| > 0 && Text.IndexOf(s, open) == Some(i0)
    requires Text.IndexOf(s[i0 + |open|..], close).None?
    ensures !HasBlock(s, open, close)
  {
    var rest0 := s[i0 + |open|..];
    Text.IndexOfFirst(s, open);
    Text.IndexOfFirst(rest0, close);
    forall i, j ensures !BlockAt(s, open, close, i, j) {
      if BlockAt(s, open, close, i, j) {
        CloseSeenFromEarlierOpen(s, open, close, i0, i, j);
      }
    }
  }

  /** A closing tag after a later opening tag also lies after an earlier one. */
  lemma CloseSeenFromEarlierOpen(s: string, open: string, close: string, i0: nat, i: int, j: int)
    requires Text.OccursAt(s, open, i0) && i0 <= i && BlockAt(s, open, close, i, j)
    ensures Text.OccursAt(s[i0 + |open|..], close, i - i0 + j)
  {
    assert s[i + |open|..][j..j + |close|] == s[i0 + |open|..][i - i0 + j..i - i0 + j + |close|];
  }

  /** Every match is found: the text after the last one holds no complete block. */
  lemma {:induction false} ScanIsMaximal(s: string, open: string, close: string)
    requires |open| > 0 && |close| > 0
    ensures var r := ScanBlocks(s, open, close); !HasBlock(r.gaps[|r.gaps| - 1], open, close)
    decreases |s|
  {
    match NextMatch(s, open, close)
    case None =>
      assert ScanBlocks(s, open, close).gaps == [s];
      NextMatchIffBlock(s, open, close);
    case Some(b) =>
      ScanIsMaximal(b.after, open, close);
      var r, tail := ScanBlocks(s, open, close), ScanBlocks(b.after, open, close);
      assert r.gaps[|r.gaps| - 1] == tail.gaps[|tail.gaps| - 1];
  }

  /** The text a scan came from: gaps and tagged bodies, alternating. */
  function Rebuild(gaps: seq<string>, bodies: seq<string>, open: string, close: string): string
    requires |gaps| == |bodies| + 1
    decreases |bodies|
  {
    if |bodies| == 0 then gaps[0]
    else gaps[0] + open + bodies[0] + close + Rebuild(gaps[1..], bodies[1..], open, close)
  }

  /** Nothing is lost or reordered: the matches and the text around them make up `s`. */
  lemma {:induction false} ScanRebuilds(s: string, open: string, close: string)
    requires |open| > 0 && |close| > 0
    ensures var r := ScanBlocks(s, open, close); Rebuild(r.gaps, r.bodies, open, close) == s
    decreases |s|
  {
    match NextMatch(s, open, close)
    case None =>
    case Some(b) =>
      ScanRebuilds(b.after, open, close);
      var r, tail := ScanBlocks(s, open, close), ScanBlocks(b.after, open, close);
      assert r.gaps[0] == b.gap && r.bodies[0] == b.body;
      assert r.gaps[1..] == tail.gaps && r.bodies[1..] == tail.bodies;
  }

  /** A text around one match: the part before, the tags and the body, and the part after. */
  lemma Decompose(s: string, open: string, close: string, i: nat, j: nat)
    requires Text.OccursAt(s, open, i) && Text.OccursAt(s[i + |open|..], close, j)
    ensures var rest := s[i + |open|..];
              s == s[..i] + open + rest[..j] + close + rest[j + |close|..]
  {
    var rest := s[i + |open|..];
    var g0, b0, after := s[..i], rest[..j], rest[j + |close|..];
    SplitAround(rest, j, close);
    SplitAround(s, i, open);
    Regroup(g0 + open, b0, close, after);
  }

  /** Cutting around an occurrence and gluing the pieces back gives the text. */
  lemma SplitAround(s: string, k: nat, sub: string)
    requires Text.OccursAt(s, sub, k)
    ensures s == s[..k] + sub + s[k + |sub|..]
  {
    assert s == s[..k] + s[k..k + |sub|] + s[k + |sub|..];
  }

  lemma Regroup(x: string, b: string, c: string, a: string)
    ensures x + (b + c + a) == x + b + c + a
  {
  }

  /** `s.replace(re, '')` with the global flag: every match removed, the rest kept. */
  function RemoveBlocks(s: string, open: string, close: string): string
    requires |open| > 0 && |close| > 0
  {
    Text.Concat(ScanBlocks(s, open, close).gaps)
  }

  /** Text without an opening tag passes through removal unchanged. */
  lemma RemoveWithoutTagIsIdentity(s: string, open: string, close: string)
    requires |open| > 0 && |close| > 0
    requires !Text.Contains(s, open)
    ensures RemoveBlocks(s, open, close) == s
  {
    assert ScanBlocks(s, open, close).gaps == [s];
    assert Text.Concat([s]) == s + Text.Concat([]);
  }
}

=== FILE: text.dfy ===
/** String helpers with the meaning JavaScript gives them: `trim`, `endsWith`,
    `includes`, `toLowerCase`, `split` on a character class, `join`, and the
    decimal rendering of a number inside a template literal. */
module Text {
  import opened Wrappers

  /** ECMAScript WhiteSpace and LineTerminator code points: the characters that
      `String.prototype.trim` removes and that `\s` matches in a regular expression. */
  predicate IsSpace(c: char) {
    || c == '\t' || c == '\n' || c == '\U{B}' || c == '\U{C}' || c == '\r' || c == ' '
    || c == '\U{A0}' || c == '\U{1680}' || ('\U{2000}' <= c <= '\U{200A}')
    || c == '\U{2028}' || c == '\U{2029}' || c == '\U{202F}' || c == '\U{205F}'
    || c == '\U{3000}' || c == '\U{FEFF}'
  }

  /** The first position at or after `i` that does not hold white space. */
  function SkipSpaces(s: string, i: nat): (r: nat)
    requires i <= |s|
    ensures i <= r <= |s|
    ensures forall k :: i <= k < r ==> IsSpace(s[k])
    ensures r < |s| ==> !IsSpace(s[r])
    decreases |s| - i
  {
    if i < |s| && IsSpace(s[i]) then SkipSpaces(s, i + 1) else i
  }

  /** The last position at or before `j` not preceded by white space. */
  function BackOverSpaces(s: string, j: nat): (r: nat)
    requires j <= |s|
    ensures r <= j
    ensures forall k :: r <= k < j ==> IsSpace(s[k])
    ensures r > 0 ==> !IsSpace(s[r - 1])
  {
    if j > 0 && IsSpace(s[j - 1]) then BackOverSpaces(s, j - 1) else j
  }

  /** `s` with its leading white space removed. */
  function TrimStart(s: string): (r: string)
    ensures |r| <= |s| && r == s[|s| - |r|..]
    ensures forall k :: 0 <= k < |s| - |r| ==> IsSpace(s[k])
    ensures |r| > 0 ==> !IsSpace(r[0])
  {
    s[SkipSpaces(s, 0)..]
  }

  /** `s` with its trailing white space removed. */
  function TrimEnd(s: string): (r: string)
    ensures |r| <= |s| && r == s[..|r|]
    ensures forall k :: |r| <= k < |s| ==> IsSpace(s[k])
    ensures |r| > 0 ==> !IsSpace(r[|r| - 1])
  {
    s[..BackOverSpaces(s, |s|)]
  }

  /** `r` is the slice of `s` at `i`, and only white space lies outside it. */
  predicate TrimmedAt(s: string, r: string, i: int) {
    && 0 <= i <= i + |r| <= |s| && r == s[i..i + |r|]
    && (forall k :: 0 <= k < i ==> IsSpace(s[k]))
    && (forall k :: i + |r| <= k < |s| ==> IsSpace(s[k]))
  }

  /** `s.trim()`: the longest slice of `s` that neither starts nor ends with white space,
      obtained by dropping white space only. */
  function Trim(s: string): (r: string)
    ensures TrimmedAt(s, r, |s| - |TrimStart(s)|)
    ensures |r| > 0 ==> !IsSpace(r[0]) && !IsSpace(r[|r| - 1])
  {
    var t := TrimStart(s);
    var r := TrimEnd(t);
    TrimmedInside(s, |s| - |t|, t, r);
    r
  }

  /** White space before a suffix `t` of `s`, and white space after a prefix `r` of `t`:
      `r` sits in `s` with only white space around it, and keeps the ends it was cut at. */
  lemma TrimmedInside(s: string, i: nat, t: string, r: string)
    requires i <= |s| && t == s[i..] && forall k :: 0 <= k < i ==> IsSpace(s[k])
    requires |t| > 0 ==> !IsSpace(t[0])
    requires |r| <= |t| && r == t[..|r|] && forall k :: |r| <= k < |t| ==> IsSpace(t[k])
    requires |r| > 0 ==> !IsSpace(r[|r| - 1])
    ensures TrimmedAt(s, r, i)
    ensures |r| > 0 ==> !IsSpace(r[0]) && !IsSpace(r[|r| - 1])
  {
    assert r == s[i..i + |r|];
    forall k | i + |r| <= k < |s|
      ensures IsSpace(s[k])
    {
      assert s[k] == t[k - i];
    }
    if |r| > 0 {
      assert r[0] == t[0];
    }
  }

  /** Trimming twice changes nothing more than trimming once. */
  lemma TrimIdempotent(s: string)
    ensures Trim(Trim(s)) == Trim(s)
  {
    TrimUntouched(Trim(s));
  }

  /** Text that neither starts nor ends with white space is left as it is. */
  lemma TrimUntouched(t: string)
    requires |t| > 0 ==> !IsSpace(t[0]) && !IsSpace(t[|t| - 1])
    ensures Trim(t) == t
  {
    assert SkipSpaces(t, 0) == 0;
    assert TrimStart(t) == t;
    assert BackOverSpaces(t, |t|) == |t|;
    assert TrimEnd(t) == t;
  }

  predicate StartsWith(s: string, prefix: string) {
    |prefix| <= |s| && s[..|prefix|] == prefix
  }

  predicate EndsWith(s: string, suffix: string) {
    |suffix| <= |s| && s[|s| - |suffix|..] == suffix
  }

  /** A text that starts with `p + q` starts with `p`. */
  lemma StartsWithPart(s: string, p: string, q: string)
    requires StartsWith(s, p + q)
    ensures StartsWith(s, p)
  {
    assert s[..|p|] == s[..|p + q|][..|p|];
  }

  lemma StartsWithTransitive(s: string, t: string, p: string)
    requires StartsWith(s, t) && StartsWith(t, p)
    ensures StartsWith(s, p)
  {
    assert s[..|p|] == s[..|t|][..|p|];
  }

  /** `sub` occurs in `s` starting at position `i`. */
  predicate OccursAt(s: string, sub: string, i: int) {
    0 <= i && i + |sub| <= |s| && s[i..i + |sub|] == sub
  }

  /** `s.indexOf(sub)`: the first position at which `sub` occurs, if any. */
  function IndexOf(s: string, sub: string): (r: Option<nat>)
    ensures r.Some? ==> OccursAt(s, sub, r.value)
    decreases |s|
  {
    if |sub| > |s| then None
    else if s[..|sub|] == sub then Some(0)
    else match IndexOf(s[1..], sub)
      case None => None
      case Some(j) =>
        DropFirstSlice(s, j + 1, |sub|);
        Some(j + 1)
  }

  /** A slice of `s[1..]` is the slice of `s` one position further on. */
  lemma DropFirstSlice(s: string, i: int, n: nat)
    requires 1 <= i && i + n <= |s|
    ensures s[i..i + n] == s[1..][i - 1..i - 1 + n]
  {
    var x, y := s[i..i + n], s[1..][i - 1..i - 1 + n];
    assert forall m :: 0 <= m < n ==> x[m] == y[m];
  }

  /** The position found is the first one, and none is found only when there is none. */
  lemma {:induction false} IndexOfFirst(s: string, sub: string)
    ensures var r := IndexOf(s, sub);
              && (r.Some? ==> forall k :: 0 <= k < r.value ==> !OccursAt(s, sub, k))
              && (r.None? ==> forall k :: !OccursAt(s, sub, k))
    decreases |s|
  {
    if |sub| <= |s| && s[..|sub|] != sub {
      IndexOfFirst(s[1..], sub);
      forall k | 1 <= k ensures OccursAt(s, sub, k) <==> OccursAt(s[1..], sub, k - 1) {
        if 0 <= k - 1 && k - 1 + |sub| <= |s[1..]| {
          DropFirstSlice(s, k, |sub|);
        }
      }
    }
  }

  /** The first occurrence is not inside the text before it. */
  lemma FirstOccurrenceNotInPrefix(s: string, sub: string, i: nat)
    requires |sub| > 0 && IndexOf(s, sub) == Some(i)
    ensures !Contains(s[..i], sub)
  {
    var p := s[..i];
    forall k | OccursAt(p, sub, k)
      ensures k < i && OccursAt(s, sub, k)
    {
      assert p[k..k + |sub|] == s[k..k + |sub|];
    }
    IndexOfFirst(s, sub);
  }

  /** `s.includes(sub)`. */
  predicate Contains(s: string, sub: string) {
    IndexOf(s, sub).Some?
  }

  /** `sub` occurs nowhere in `s`. */
  ghost predicate Lacks(s: string, sub: string) {
    forall k :: !OccursAt(s, sub, k)
  }

  /** Having no occurrence is exactly what makes `includes` fail. */
  lemma LacksIffNotContains(s: string, sub: string)
    ensures Lacks(s, sub) <==> !Contains(s, sub)
  {
    IndexOfFirst(s, sub);
    if Contains(s, sub) {
      assert OccursAt(s, sub, IndexOf(s, sub).value);
    }
  }

  /** Text inside text inside `s` is inside `s`. */
  lemma ContainsTransitive(s: string, t: string, u: string)
    requires Contains(s, t) && Contains(t, u)
    ensures Contains(s, u)
  {
    var a, b := IndexOf(s, t).value, IndexOf(t, u).value;
    assert OccursAt(s, t, a) && OccursAt(t, u, b);
    var x, y := s[a + b..a + b + |u|], t[b..b + |u|];
    assert forall m :: 0 <= m < |u| ==> x[m] == y[m];
    assert x == y;
    OccursContains(s, u, a + b);
  }

  /** An occurrence anywhere makes `includes` hold. */
  lemma OccursContains(s: string, sub: string, k: int)
    requires OccursAt(s, sub, k)
    ensures Contains(s, sub)
  {
    IndexOfFirst(s, sub);
  }

  /** An occurrence survives text added on either side. */
  lemma OccursInContext(a: string, s: string, b: string, sub: string, k: int)
    requires OccursAt(s, sub, k)
    ensures OccursAt(a + s + b, sub, |a| + k)
  {
    assert (a + s + b)[|a| + k..|a| + k + |sub|] == s[k..k + |sub|];
  }

  /** Text between two others is inside their concatenation. */
  lemma ContainsMiddle(a: string, s: string, b: string)
    ensures Contains(a + s + b, s)
  {
    OccursInContext(a, s, b, s, 0);
    assert s[0..|s|] == s;
    OccursContains(a + s + b, s, |a|);
  }

  /** Each part occurs in the joined text, at the returned position. */
  lemma {:induction false} JoinHasPart(parts: seq<string>, sep: string, i: nat) returns (k: nat)
    requires i < |parts|
    ensures OccursAt(Join(parts, sep), parts[i], k)
    decreases |parts|
  {
    if |parts| == 1 {
      k := 0;
      assert Join(parts, sep)[0..|parts[0]|] == parts[0];
    } else {
      var rest := Join(parts[1..], sep);
      assert Join(parts, sep) == parts[0] + sep + rest;
      if i == 0 {
        k := 0;
        OccursInContext([], parts[0], sep + rest, parts[0], 0);
        assert [] + parts[0] + (sep + rest) == parts[0] + sep + rest;
      } else {
        var k' := JoinHasPart(parts[1..], sep, i - 1);
        OccursInContext(parts[0] + sep, rest, [], parts[i], k');
        assert parts[0] + sep + rest + [] == parts[0] + sep + rest;
        k := |parts[0] + sep| + k';
      }
    }
  }

  /** A part of a joined list is found in any text that embeds the joined list. */
  lemma JoinedPartContained(head: string, parts: seq<string>, sep: string, tail: string, i: nat)
    requires i < |parts|
    ensures Contains(head + Join(parts, sep) + tail, parts[i])
  {
    var k := JoinHasPart(parts, sep, i);
    OccursInContext(head, Join(parts, sep), tail, parts[i], k);
    OccursContains(head + Join(parts, sep) + tail, parts[i], |head| + k);
  }

  /** A text holding `p + q` holds `p`. */
  lemma ContainsPrefixOf(s: string, p: string, q: string)
    requires Contains(s, p + q)
    ensures Contains(s, p)
  {
    var k := IndexOf(s, p + q).value;
    assert s[k..k + |p|] == (p + q)[..|p|];
    OccursContains(s, p, k);
  }

  /** A text without `sub` has no slice holding it. */
  lemma SliceLacks(s: string, sub: string, i: nat, j: nat)
    requires i <= j <= |s| && !Contains(s, sub)
    ensures !Contains(s[i..j], sub)
  {
    var t := s[i..j];
    forall k | OccursAt(t, sub, k) ensures false {
      var a, b := t[k..k + |sub|], s[i + k..i + k + |sub|];
      forall m | 0 <= m < |sub| ensures a[m] == b[m] {
        assert a[m] == t[k + m] == s[i + k + m];
      }
      assert a == b;
      OccursContains(s, sub, i + k);
    }
  }

  /** Lower-cases the ASCII letters of `s` and keeps every other character. */
  function ToLower(s: string): (r: string)
    ensures |r| == |s|
    ensures forall k :: 0 <= k < |s| ==> r[k] == LowerChar(s[k])
  {
    seq(|s|, k requires 0 <= k < |s| => LowerChar(s[k]))
  }

  function LowerChar(c: char): (r: char)
    ensures IsSpace(r) <==> IsSpace(c)
    ensures r == '+' <==> c == '+'
  {
    if 'A' <= c <= 'Z' then (c as int + 32) as char else c
  }

  /** Number of characters of `s` satisfying `p`. */
  function CountWhere(s: string, p: char -> bool): nat
    decreases |s|
  {
    if |s| == 0 then 0 else (if p(s[0]) then 1 else 0) + CountWhere(s[1..], p)
  }

  /** The characters of `s` not satisfying `p`, in order. */
  function Without(s: string, p: char -> bool): string
    decreases |s|
  {
    if |s| == 0 then "" else (if p(s[0]) then "" else [s[0]]) + Without(s[1..], p)
  }

  function Concat(parts: seq<string>): string
    decreases |parts|
  {
    if |parts| == 0 then "" else parts[0] + Concat(parts[1..])
  }

  /** `parts.join(sep)`. */
  function Join(parts: seq<string>, sep: string): string
    decreases |parts|
  {
    if |parts| == 0 then ""
    else if |parts| == 1 then parts[0]
    else parts[0] + sep + Join(parts[1..], sep)
  }

  /** `s.split(re)` for a regular expression matching exactly one character of a class:
      every separator character ends a token, so adjacent separators give empty tokens. */
  function SplitWhere(s: string, sep: char -> bool): (r: seq<string>)
    ensures |r| == CountWhere(s, sep) + 1
    ensures forall i, k :: 0 <= i < |r| && 0 <= k < |r[i]| ==> !sep(r[i][k])
    decreases |s|
  {
    if |s| == 0 then [""]
    else
      var rest := SplitWhere(s[1..], sep);
      if sep(s[0]) then [""] + rest
      else
        var head := [s[0]] + rest[0];
        assert forall k :: 1 <= k < |head| ==> head[k] == rest[0][k - 1];
        [head] + rest[1..]
  }

  /** Splitting keeps every non-separator character, in order. */
  lemma {:induction false} SplitKeepsText(s: string, sep: char -> bool)
    ensures Concat(SplitWhere(s, sep)) == Without(s, sep)
    decreases |s|
  {
    if |s| > 0 {
      SplitKeepsText(s[1..], sep);
      var rest := SplitWhere(s[1..], sep);
      if !sep(s[0]) {
        assert SplitWhere(s, sep) == [[s[0]] + rest[0]] + rest[1..];
        assert Concat(rest) == rest[0] + Concat(rest[1..]);
      }
    }
  }

  /** When every separator in `s` is the character `c`, joining the tokens with `c`
      gives back `s`. */
  lemma {:induction false} SplitJoinRoundTrip(s: string, sep: char -> bool, c: char)
    requires sep(c)
    requires forall k :: 0 <= k < |s| && sep(s[k]) ==> s[k] == c
    ensures Join(SplitWhere(s, sep), [c]) == s
    decreases |s|
  {
    if |s| > 0 {
      SplitJoinRoundTrip(s[1..], sep, c);
      var rest := SplitWhere(s[1..], sep);
      if sep(s[0]) {
        assert SplitWhere(s, sep) == [""] + rest;
        assert s == [c] + s[1..];
      } else {
        assert SplitWhere(s, sep) == [[s[0]] + rest[0]] + rest[1..];
        if |rest| == 1 {
          assert s == [s[0]] + rest[0];
        } else {
          assert Join(rest, [c]) == rest[0] + [c] + Join(rest[1..], [c]);
          assert s == [s[0]] + s[1..];
        }
      }
    }
  }

  function DigitChar(d: nat): (c: char)
    requires d < 10
  {
    "0123456789"[d]
  }

  /** Decimal rendering of a natural number, as `${n}` produces it. */
  function NatToString(n: nat): (r: string)
    ensures |r| > 0
    ensures forall k :: 0 <= k < |r| ==> '0' <= r[k] <= '9'
    ensures |r| > 1 ==> r[0] != '0'
    decreases n
  {
    if n < 10 then [DigitChar(n)] else NatToString(n / 10) + [DigitChar(n % 10)]
  }

  /** Reads a string of decimal digits as a number. */
  function DigitsValue(s: string): nat
    requires forall k :: 0 <= k < |s| ==> '0' <= s[k] <= '9'
    decreases |s|
  {
    if |s| == 0 then 0 else DigitsValue(s[..|s| - 1]) * 10 + (s[|s| - 1] as int - '0' as int)
  }

  /** The rendering is faithful: reading the digits back gives the number. */
  lemma {:induction false} NatToStringRoundTrip(n: nat)
    ensures DigitsValue(NatToString(n)) == n
    decreases n
  {
    if n >= 10 {
      NatToStringRoundTrip(n / 10);
      var r := NatToString(n);
      assert r[..|r| - 1] == NatToString(n / 10);
    }
  }

  /** Distinct numbers render differently, so step labels never collide. */
  lemma NatToStringInjective(m: nat, n: nat)
    requires NatToString(m) == NatToString(n)
    ensures m == n
  {
    NatToStringRoundTrip(m);
    NatToStringRoundTrip(n);
  }
}

=== FILE: tool_calling.dfy ===
/** The records exchanged between the tool-calling agent, its provider and the chat
    completion endpoint: chat messages, tool calls and their results, tool definitions
    and the request sent to the model. */
module ToolCalling {
  import opened Wrappers
  import Json

  datatype Role = SystemRole | UserRole | AssistantRole | ToolRole

  /** A `function` tool call requested by the model: its id, the tool's name and the
      serialised arguments. */
  datatype ToolCall = ToolCall(id: string, name: string, arguments: string)

  /** A chat message; `tool_calls` only on assistant messages, `tool_call_id` only on
      tool messages. */
  datatype Message = Message(
    role: Role,
    content: string,
    toolCalls: Option<seq<ToolCall>>,
    toolCallId: Option<string>)

  function Plain(role: Role, content: string): Message {
    Message(role, content, None, None)
  }

  /** The first choice of a chat completion: message content (null allowed), tool calls
      and finish reason. */
  datatype Reply = Reply(content: Option<string>, toolCalls: Option<seq<ToolCall>>, finishReason: string)

  /** `ToolCallResult`: what a provider reads out of a reply. */
  datatype Parsed = Parsed(content: string, toolCalls: Option<seq<ToolCall>>, finishReason: string)

  /** `ToolResult`: the outcome of one tool call, attributed to the call's id. */
  datatype ToolResult = ToolResult(toolCallId: string, toolName: string, result: Json.Value)

  /** One property of a parameter schema after conversion to JSON Schema. */
  datatype PropertySchema = PropertySchema(description: Option<string>, typeName: Option<string>)

  /** A tool's parameter schema as `zodToJsonSchema` renders it: the properties in
      order, and the names of the required ones. The conversion itself is not modelled. */
  datatype JsonSchema = JsonSchema(properties: seq<(string, PropertySchema)>, required: seq<string>)

  /** What a tool's function does with its arguments: a value, or a thrown error as
      `${error}` renders it. */
  datatype ToolOutcome = Produced(value: Json.Value) | Failed(rendering: string)

  /** `ToolDefinition`. The function is scripted: its outcome depends on the parsed
      arguments and on how many tool calls the same agent run handled before this one. */
  datatype ToolDefinition = ToolDefinition(
    name: string,
    description: string,
    schema: JsonSchema,
    run: (Json.Value, nat) -> ToolOutcome)

  /** A tool in the OpenAI request format (`type: 'function'`). */
  datatype FunctionTool = FunctionTool(name: string, description: string, parameters: JsonSchema)

  /** The options handed to `chat.completions.create`. */
  datatype Request = Request(
    model: string,
    messages: seq<Message>,
    tools: Option<seq<FunctionTool>>,
    temperature: real,
    stream: bool)

  const DefaultTemperature: real := 0.7
}

=== FILE: wrappers.dfy ===
/** Option and Result, the failure-carrying datatypes used throughout the model. */
module Wrappers {

  /** A value that may be absent: `null`/`undefined` in the modelled code. */
  datatype Option<+T> = None | Some(value: T) {

    /** The value, or `default` when absent (the `??` operator). */
    function GetOr(default: T): T {
      match this
      case Some(v) => v
      case None => default
    }
  }

  /** A computation that either produced a value or threw an error. */
  datatype Result<+R, +E> = Success(value: R) | Failure(error: E) {

    predicate IsFailure() {
      Failure?
    }

    function PropagateFailure<U>(): Result<U, E>
      requires Failure?
    {
      Failure(error)
    }

    function Extract(): R
      requires Success?
    {
      value
    }
  }
}
